=== FILE: README.md ===
# BIPV estimator core in Dafny

This project models the sequential core of a Unity tool that estimates the
building-integrated photovoltaic (BIPV) potential of city blocks. It has four
parts:

- **Fixed-depth BVH.** A bounding-volume hierarchy over all building
  triangles, stored as an implicit binary heap of `2^depth` node slots. The
  build is a recursive midpoint split that partitions the shared triangle
  array in place. The model also covers the slab ray/box test, the
  Möller–Trumbore ray/triangle test, and the stack-based closest-hit
  traversal (`BVHBox`, `BVHTriangle`, `BVHNode`, `BVH`).
- **Sample-point bookkeeping and aggregation.** The flat array of sample
  points is divided per building and per face. The model covers how the BVH
  is flattened for the GPU, how hourly occlusion results are stored, and how
  the per-face and per-point irradiance figures follow from the 0/1
  occlusion flags and hourly weather (`BIPVEstimator`).
- **Point and mesh generators.** The barycentric lattice sampler for roofs,
  the rectangular grid sampler for walls, and the two routines that stitch a
  lattice into triangles (`EquidistantPoints`).
- **Ear-clipping triangulation** of building footprints in the xz-plane
  (`EarClipping`).

Shared modules: `Geometry` (vectors over exact reals, `Option`, index
buffers) and `Heap` (slot levels and the descendant relation of the implicit
heap).

Modelling conventions:

- Floats are exact `real`s.
- The empty box is an explicit `Empty` constructor instead of `±∞`
  corners.
- A quantity that would be NaN in the source is `None`: the centre of the
  empty box, a `0/0` shadow fraction, and a sampler with zero points.
  There are two exceptions, the ray/box test and the colour factor. There
  a NaN and the infinities are values of `Ext` (see below).
- Library calls whose results are irrational or opaque are parameters:
  square roots, ceilings, normalised vectors, `TransformPoint`, the sun
  direction and the GPU pass.
- The ray/box test runs on `Ext`, the extended line with `±∞` and NaN,
  with IEEE comparisons (false when a NaN is involved). Dividing by a zero
  direction component gives `±∞`, or NaN when the origin lies on one of
  that axis's planes (`Quot`). The test is therefore defined for every
  direction, axis-parallel rays included.
- Collections are immutable sequences. In-place updates are sequence
  updates with permutation (`multiset`) contracts.
- The traversal is generic over a box test, a predicate `Box -> bool`.
  `BVH.Test(rule, ray)` supplies one of two rules:
  - `AsWritten` is the source's box test.
  - `Corrected` is the window test described under Findings.

  `BVH.TraverseBVH` runs the source rule.

## Model

| member | source | states |
|---|---|---|
| BVHBox.FitVertex | Assets/Scripts/BVH/BVHBox.cs:14-18 | The grown box contains the vertex and the old box, and a well-formed box stays well-formed |
| BVHBox.FitVertexLeast | Assets/Scripts/BVH/BVHBox.cs:14-18 | Any box containing the old box and the vertex contains the grown box, so fitting yields the smallest such box |
| BVHBox.FitTriangle | Assets/Scripts/BVH/BVHBox.cs:20-25 | The grown box contains all three corners and the old box, and is never empty |
| BVHBox.FitTriangleLeast | Assets/Scripts/BVH/BVHBox.cs:20-25 | Fitting a triangle gives the smallest box containing the old box and the three corners |
| BVHBox.Centre | Assets/Scripts/BVH/BVHBox.cs:11 | The centre is the midpoint of the corners (twice it is `Min + Max`), and it lies inside a well-formed box |
| BVHBox.Size | Assets/Scripts/BVH/BVHBox.cs:12 | The size is non-negative on every axis exactly when the box is well-formed, and `Min + Size == Max` |
| BVHBox.RayIntersection | Assets/Scripts/BVH/BVHBox.cs:27-66 | Defined for every box and direction, zero components included. An accepted box is non-empty and reports a finite distance that is not behind the origin and lies in `[near, far]` |
| BVHBox.SlabIsExact | Assets/Scripts/BVH/BVHBox.cs:30-38 | When no `0/0` occurs, the slab bounds as computed are the exact slab. A parallel ray strictly between the planes gets `(-∞, +∞)`, so that axis never rejects; one outside gets two equal infinities |
| BVHBox.RayIntersectionIsSlabTest | Assets/Scripts/BVH/BVHBox.cs:27-66 | For a well-formed box and no `0/0`: accepts if and only if the slab intervals overlap, the exit is not behind the origin, and the reported distance lies in `[near, far]`. The reported distance is the entry if it is positive, else the exit. A rejection at the disjointness checks reports 0 |
| BVHBox.SlabMeansInside | Assets/Scripts/BVH/BVHBox.cs:30-59 | For a well-formed box and any direction, the ray point at `s` is in the box exactly when `s` lies between the entry and exit parameters |
| BVHBox.ParallelOutsideMisses | Assets/Scripts/BVH/BVHBox.cs:30-41 | A ray parallel to the x planes whose origin lies outside the box's x range is rejected |
| BVHTriangle.Centre | Assets/Scripts/BVH/BVHTriangle.cs:16 | Three times the centroid is the sum of the corners |
| BVHTriangle.CentreInBox | Assets/Scripts/BVH/BVHTriangle.cs:16 | The centroid lies in every box that holds the three corners, in particular in the fitted box |
| BVHTriangle.RayIntersection | Assets/Scripts/BVH/BVHTriangle.cs:18-56 | A near-zero determinant rejects with `t = 0`, and so does a failed `u` or `v` test; acceptance holds exactly when the determinant is large enough, `0 <= u <= 1`, `v >= 0`, `u + v <= 1` and `near <= t <= far`; a nonzero `t` on a rejection is the computed `t` outside the window |
| BVHNode.ChildA | Assets/Scripts/BVH/BVHNode.cs:12 | The first child slot is even, halves back to the parent, and is a descendant of it |
| BVHNode.ChildB | Assets/Scripts/BVH/BVHNode.cs:13 | The second child slot is odd, directly follows the first, halves back to the parent, and is a descendant of it |
| BVHNode.SplitAxis | Assets/Scripts/BVH/BVHNode.cs:75-79 | The chosen axis has the largest extent and is strictly larger than every later axis, so ties go to the later axis; the empty box yields z |
| BVHNode.FitAll | Assets/Scripts/BVH/BVHNode.cs:20-23 | Fitting a list of vertices yields a box containing each of them and the start box; it is empty only if the start box is empty and the list is too |
| BVHNode.SetAsRoot | Assets/Scripts/BVH/BVHNode.cs:18-29 | The root sits in slot 1 and covers triangles `[0, count)`; its box contains every vertex and is empty only when there are no vertices |
| BVHNode.RootPlaced | Assets/Scripts/BVH/BVHNode.cs:18-29 | The root's box holds every corner of every triangle |
| BVHNode.Swap | Assets/Scripts/BVH/BVHNode.cs:61-62 | Exchanges two slots, leaves the others, and keeps the multiset |
| BVHNode.Partition | Assets/Scripts/BVH/BVHNode.cs:49-69 | The loop only permutes the node's range. Side-A triangles (centroid at or below the box centre on the split axis) come first, the rest follow. Each child box holds its own triangles, lies inside the parent box, is empty exactly when its run is, and is the least box holding its run: it lies within every box that holds the run's triangles |
| BVHNode.PermutesCompose | Assets/Scripts/BVH/BVHNode.cs:51-72 | A permutation of a sub-range, applied after a permutation of the enclosing range, is still a permutation of the enclosing range with everything outside unchanged |
| BVHNode.CreateChildren | Assets/Scripts/BVH/BVHNode.cs:35-69 | The children are stored in slots `2i` and `2i+1` and no other slot changes. Their ranges tile the parent's: A starts at the parent's start, B starts where A ends, and the counts add up |
| BVHNode.SplitChildren | Assets/Scripts/BVH/BVHNode.cs:71-72 | After both recursive splits the whole subtree is built, the parent slot is intact, no slot outside the subtree changes, and the triangle buffer is a permutation within the parent's range |
| BVHNode.MidPointSplit | Assets/Scripts/BVH/BVHNode.cs:31-73 | A split of height `h` builds the subtree at slot `i`: each node holds its triangles, and each inner node is split into side-A and side-B children whose boxes are the least boxes holding their runs. Only slots below `i` change, and only the node's triangle range is permuted |
| BVHNode.SubtreeFitsLevel | Assets/Scripts/BVH/BVHNode.cs:33 | A slot on level `depth - h` has its whole height-`h` subtree inside `2^depth` slots, so splitting the root with height `depth` never writes past the array |
| BVHNode.WellBuiltFrame | Assets/Scripts/BVH/BVHNode.cs:71-72 | A built subtree stays built when neither its slots nor its triangle range change, so splitting the second child cannot undo the first |
| BVH.GroupAt | Assets/Scripts/BVH/BVH.cs:31-46 | Reading an index buffer yields `len/3` triangles; triangle `k` takes indices `3k`, `3k+1`, `3k+2` |
| BVH.FlattenGroup | Assets/Scripts/BVH/BVH.cs:35-46 | Flattening the grouped triangles gives back the index buffer |
| BVH.GroupFlatten | Assets/Scripts/BVH/BVH.cs:35-46 | Grouping a flattened triangle list gives back the triangles |
| BVH.ReadTriangles | Assets/Scripts/BVH/BVH.cs:35-46 | The read loop produces the grouped triangles, which flatten back to the buffer |
| BVH.GroupValid | Assets/Scripts/BVH/BVH.cs:35-46 | If every index names a vertex, every triangle does |
| BVH.Initialize | Assets/Scripts/BVH/BVH.cs:29-51 | There are `2^depth` slots. Slot 0 stays empty and slot 1 holds the root. The triangle buffer is a permutation of the read triangles, and the whole tree of height `depth` is built |
| BVH.AllBuilt | Assets/Scripts/BVH/BVH.cs:48-50 | After the build, every slot from 1 on is populated and holds its own triangles |
| BVH.LeafIffUnsplit | Assets/Scripts/BVH/BVH.cs:70 | A slot is at or past `len/2` exactly when it is on the last level. Exactly those slots are the ones the build did not split, and every other slot has two split children |
| BVH.Earlier | Assets/Scripts/BVH/BVH.cs:76-80 | Picks one of two hits, the one with the smaller `t`, and keeps the first on ties (strict `<`) |
| BVH.EarlierAssoc | Assets/Scripts/BVH/BVH.cs:76-80 | Choosing the earlier hit is associative, so the order in which candidates are combined does not change the result |
| BVH.TriTest | Assets/Scripts/BVH/BVH.cs:74 | A triangle test hit names that triangle and has `t` in the ray window |
| BVH.LeafScanSpec | Assets/Scripts/BVH/BVH.cs:72-82 | A leaf scan returns an accepted triangle of the range whose `t` is no larger than any other accepted triangle's; no hit means no triangle of the range is accepted |
| BVH.RefHitSpec | Assets/Scripts/BVH/BVH.cs:53-91 | The reference hit of a subtree is a candidate, and no other candidate has a smaller `t`. A candidate is a triangle accepted in a leaf whose whole box path passes the box rule |
| BVH.CandidateHit | Assets/Scripts/BVH/BVH.cs:65-82 | Every candidate is a triangle in range that the triangle test accepts at that `t` |
| BVH.Traverse | Assets/Scripts/BVH/BVH.cs:53-91 | For any box test and any ray direction, the stack loop computes exactly the reference hit of the root. Every stack write stays within the `depth` slots and every popped slot is populated, and the loop terminates |
| BVH.PushChildren | Assets/Scripts/BVH/BVH.cs:85-86 | Pushing the two children of an inner slot keeps the stack within `depth` entries with levels increasing. The pending hits become the children's, and the remaining work decreases |
| BVH.ChildLevel | Assets/Scripts/BVH/BVH.cs:85-86 | The children of an inner slot are populated slots one level deeper |
| BVH.ScanLeaf | Assets/Scripts/BVH/BVH.cs:72-82 | The leaf loop combines the running hit with the leaf's best accepted triangle |
| BVH.TraverseBVH | Assets/Scripts/BVH/BVH.cs:53-91 | Reports no triangle (and no distance) exactly when no triangle passes the box path and the triangle test. Otherwise it reports a candidate triangle and distance, and no candidate is nearer |
| BVH.DepthOneBruteForce | Assets/Scripts/BVH/BVH.cs:70-82 | With `depth == 1` the root is a leaf: when its box passes, the result is a miss exactly when every triangle misses, and a hit is the nearest accepted triangle |
| BVH.WindowHitPasses | Assets/Scripts/BVH/BVHBox.cs:27-66 | If the ray meets the box at some distance in `[near, far]`, the corrected box rule passes |
| BVH.PassMeansWindowHit | Assets/Scripts/BVH/BVHBox.cs:27-66 | If the corrected box rule passes, the ray point at the later of the box entry and `near` is in the box and lies in `[near, far]` |
| BVH.AsWrittenRejectsCrossedBox | Assets/Scripts/BVH/BVHBox.cs:61-65 | A concrete ray meets a triangle's box inside its window, yet the source's test rejects the box and only the corrected rule accepts it |
| BVH.AsWrittenLosesOnlyHit | Assets/Scripts/BVH/BVH.cs:65-68 | On a one-triangle tree with that ray, the source rule finds nothing, while the corrected rule returns the triangle test's hit |
| BVH.WorldVerts | Assets/Scripts/BVH/BVH.cs:107-110 | Each mesh vertex is placed in world space by the child's transform, in order |
| BVH.AllVertsLength | Assets/Scripts/BVH/BVH.cs:107-117 | The merged vertex list has as many vertices as the running offset counts |
| BVH.MergedInRange | Assets/Scripts/BVH/BVH.cs:112-117 | If each mesh's indices name its own vertices, every merged index names a merged vertex, and the merged buffer holds whole triangles |
| BVH.MergedLayout | Assets/Scripts/BVH/BVH.cs:97-117 | Mesh `i`'s vertices sit at its offset and its indices are shifted by that offset |
| BVH.MergeMeshes | Assets/Scripts/BVH/BVH.cs:97-118 | The merge loop produces the concatenated world vertices and the offset indices |
| BVH.CreateBVH | Assets/Scripts/BVH/BVH.cs:93-123 | The BVH over all meshes has the merged vertices, a permutation of the merged triangles, and a fully built tree of the requested depth |
| EquidistantPoints.RowStartClosed | Assets/Scripts/EquidistantPoints.cs:33-35 | Row `i` of the lattice starts at index `i(2n+3-i)/2` |
| EquidistantPoints.GridSizeClosed | Assets/Scripts/EquidistantPoints.cs:33-35 | A lattice of order `n` has `(n+1)(n+2)/2` points |
| EquidistantPoints.GridIndexUnique | Assets/Scripts/EquidistantPoints.cs:33-45 | Lattice point `(i, j)` gets an index below the lattice size, and distinct points get distinct indices |
| EquidistantPoints.Enumerate | Assets/Scripts/EquidistantPoints.cs:33-45 | The double loop emits one value per lattice point, point `(i, j)` at its lattice index |
| EquidistantPoints.GridWeightsInTriangle | Assets/Scripts/EquidistantPoints.cs:200-204 | Every lattice weight triple is non-negative and sums to one, and the corner points get the three unit weights |
| EquidistantPoints.SampleWeightsInterior | Assets/Scripts/EquidistantPoints.cs:31-42 | Every sample weight triple sums to one with each weight at least `1/(3n)`, so each sample point is strictly inside its triangle |
| EquidistantPoints.SamplePointsBarycentric | Assets/Scripts/EquidistantPoints.cs:18-49 | The face area is the sum of the triangle areas, and the output holds every triangle's lattice in order. Triangle `t`'s point `(i, j)` sits at the start of that triangle's block plus the lattice index |
| EquidistantPoints.SumRealAppend | Assets/Scripts/EquidistantPoints.cs:27-28 | The area sum of a concatenation is the sum of the two sums |
| EquidistantPoints.PointsBeforeUniform | Assets/Scripts/EquidistantPoints.cs:23-45 | When every triangle has the same order `n`, `t` triangles contribute `t(n+1)(n+2)/2` points |
| EquidistantPoints.CellAt | Assets/Scripts/EquidistantPoints.cs:210-235 | The source's running index for cell `(i, j)` names the cell's corners by their lattice indices |
| EquidistantPoints.RowCellsFacts | Assets/Scripts/EquidistantPoints.cs:211-235 | A row of `m` cells emits two triangles per cell except the last, and every index names a point of the rows up to the one below |
| EquidistantPoints.RowsCellsLength | Assets/Scripts/EquidistantPoints.cs:211-235 | After the first `i` rows the index count plus `3(n-i)^2` equals `3n^2` |
| EquidistantPoints.CellTrisFacts | Assets/Scripts/EquidistantPoints.cs:209-235 | The stitching of an order-`n` lattice has `n^2` triangles, and every index names a point of the lattice's own block |
| EquidistantPoints.WindingsMirror | Assets/Scripts/EquidistantPoints.cs:151-166 | The refiner's triangles are the generator's triangles with the last two corners swapped, i.e. the opposite winding |
| EquidistantPoints.GenerateTriangleIndices | Assets/Scripts/EquidistantPoints.cs:209-235 | The index loop emits the stitched lattice: `3n^2` indices, each naming a lattice point |
| EquidistantPoints.GenerateRow | Assets/Scripts/EquidistantPoints.cs:211-234 | One row of the index loop appends that row's cells and advances the running index past the row |
| EquidistantPoints.GenerateTriangle | Assets/Scripts/EquidistantPoints.cs:185-244 | Emits `(n+1)(n+2)/2` vertices, point `(i, j)` at its lattice index, and `n^2` triangles whose indices all name emitted vertices |
| EquidistantPoints.RefineTriangleIndices | Assets/Scripts/EquidistantPoints.cs:132-170 | The refiner's index loop for one triangle emits the stitched lattice over the triangle's block and advances the vertex counter by the lattice size |
| EquidistantPoints.RefineRow | Assets/Scripts/EquidistantPoints.cs:134-169 | One row of the refiner appends that row's cells and advances the vertex counter past the row |
| EquidistantPoints.LatticeColors | Assets/Scripts/EquidistantPoints.cs:144-148 | The interpolated colours have one entry per lattice point, at the same index as the point |
| EquidistantPoints.RefinedLength | Assets/Scripts/EquidistantPoints.cs:121-170 | Each input triangle contributes `3r^2` indices |
| EquidistantPoints.RefinedInBlock | Assets/Scripts/EquidistantPoints.cs:151-166 | Every index emitted for input triangle `t` names a vertex of that triangle's own block `[tG, (t+1)G)`, where `G = (r+1)(r+2)/2` |
| EquidistantPoints.RefineMesh | Assets/Scripts/EquidistantPoints.cs:108-183 | Emits `(r+1)(r+2)/2` vertices per input triangle, each triangle's lattice in its own block. The indices are the per-block stitchings. When the input has colours, there is one colour per new vertex at the same index; otherwise there are none |
| EquidistantPoints.RefineOne | Assets/Scripts/EquidistantPoints.cs:121-170 | One iteration of the triangle loop appends the triangle's lattice block, its colours and its stitching |
| EquidistantPoints.SampleRectanglePoints | Assets/Scripts/EquidistantPoints.cs:71-100 | Returns `width*height` points with `pointsWidth == width` and face area `|hor|*|ver|`; point `i*height + j` is `origin + i*hor + j*ver` |
| EquidistantPoints.RectRows | Assets/Scripts/EquidistantPoints.cs:90-98 | `(width*height)/width == height`, so the aggregator recovers the grid height exactly |
| EquidistantPoints.RectPointOnQuad | Assets/Scripts/EquidistantPoints.cs:83-96 | Every grid point lies on the quad, within both edges' lengths |
| EquidistantPoints.RectCentred | Assets/Scripts/EquidistantPoints.cs:86 | Points `(i, j)` and `(width-1-i, height-1-j)` are mirror images through the quad's centre |
| BIPVEstimator.FacesTile | Assets/Scripts/BIPVEstimator.cs:227-241 | Face ranges tile the building's range: face 0 starts at the building start, each face starts where the previous ended, and the last ends at the building's limit, which is where the next building starts |
| BIPVEstimator.SamplePoints | Assets/Scripts/BIPVEstimator.cs:68-121 | The points are all faces' samples in building and face order. Each building's limit is the running total, and the last limit is the number of points. Records have one count, area and verticality per face, and one width and normal per wall |
| BIPVEstimator.SampleBuilding | Assets/Scripts/BIPVEstimator.cs:86-119 | One building appends its faces' points and records a limit equal to the new point count, with counts summing to the points added |
| BIPVEstimator.FaceRangeHoldsFace | Assets/Scripts/BIPVEstimator.cs:103-107 | Point `k` of face `f` of building `b` sits at the face's start plus `k` in the flat array |
| BIPVEstimator.ToUint | Assets/Scripts/BIPVEstimator.cs:130-132 | The unsigned cast lands in `[0, 2^32)` and keeps every value already in that range |
| BIPVEstimator.GetTrisFromBVH | Assets/Scripts/BIPVEstimator.cs:123-136 | GPU triangle `i` carries the three (cast) indices of BVH triangle `i` in its partitioned order |
| BIPVEstimator.GpuTrianglesExact | Assets/Scripts/BIPVEstimator.cs:128-133 | With fewer than `2^32` vertices the casts lose nothing: GPU triangle `i` is BVH triangle `i` and names existing vertices |
| BIPVEstimator.GetBoundsFromBVH | Assets/Scripts/BIPVEstimator.cs:138-153 | Entry `i >= 1` carries node `i`'s box, start and count, and entry 0 stays zeroed |
| BIPVEstimator.GpuBoundsTile | Assets/Scripts/BIPVEstimator.cs:138-153 | For a built tree every GPU range lies in the triangle array, and an inner entry's range is split between its two children, the first taking the front |
| BIPVEstimator.HourOfYearSplit | Assets/Scripts/BIPVEstimator.cs:190 | The hour of year `24*day + 6 + hour` is at most 8753, and dividing by 24 recovers the day while the remainder gives `6 + hour` |
| BIPVEstimator.ComputeObstructions | Assets/Scripts/BIPVEstimator.cs:187-199 | Appends one copy of each hour's flags (twelve arrays of one flag per point) to the stored results without clearing them; the sun direction of hour `h` is taken at hour of year `24*day + 6 + h` |
| BIPVEstimator.ComputeObstructionsFresh | Assets/Scripts/BIPVEstimator.cs:182-199 | Corrected variant: the stored results are exactly this run's twelve arrays |
| BIPVEstimator.StaleFlagsAfterRerun | Assets/Scripts/BIPVEstimator.cs:50 | After a run reporting a blocked point and a rerun reporting it free, the aggregator still sees it blocked (no direct light), while the fresh results would give full direct light |
| BIPVEstimator.StaleFlagsAfterSmallerRerun | Assets/Scripts/BIPVEstimator.cs:50 | The same when the scene shrank between the runs: the first run's two-point arrays are longer than the one point now sampled, the aggregator accepts them, and the roof still gets no direct light |
| BIPVEstimator.CosTheta | Assets/Scripts/BIPVEstimator.cs:255 | The cosine factor is non-negative, at least `normal · -sun`, and is either 0 or that dot product |
| BIPVEstimator.TiltComponents | Assets/Scripts/BIPVEstimator.cs:243-260 | The roof gets all of DHI and no reflected light; walls get half of DHI and a tenth of GHI |
| BIPVEstimator.BlockedBound | Assets/Scripts/BIPVEstimator.cs:249-253 | With 0/1 flags, the obstruction count of a face never exceeds its point count |
| BIPVEstimator.ShadowFractionBounds | Assets/Scripts/BIPVEstimator.cs:249-254 | With 0/1 flags and a non-empty face, the shadow fraction is defined and lies in `[0, 1]` |
| BIPVEstimator.CountObstructions | Assets/Scripts/BIPVEstimator.cs:249-253 | The counting loop sums the face's flags for the hour |
| BIPVEstimator.DirectHourWithinClear | Assets/Scripts/BIPVEstimator.cs:254-258 | For one hour, direct irradiance lies between 0 and its unshaded value |
| BIPVEstimator.DirectWithinClear | Assets/Scripts/BIPVEstimator.cs:247-265 | Summed over the hours, direct irradiance lies between 0 and its unshaded value |
| BIPVEstimator.DirectAtShare | Assets/Scripts/BIPVEstimator.cs:249-258 | A fully blocked face gets no direct light in that hour, and a fully free face gets the unshaded value |
| BIPVEstimator.FullyBlocked | Assets/Scripts/BIPVEstimator.cs:247-265 | A face blocked in every hour gets no direct light in total |
| BIPVEstimator.FullyFree | Assets/Scripts/BIPVEstimator.cs:247-265 | A face free in every hour gets the full unshaded direct light |
| BIPVEstimator.HourFigures | Assets/Scripts/BIPVEstimator.cs:249-261 | One hour's direct, diffuse and reflected figures; direct is undefined exactly when the face has no points (the unguarded division) |
| BIPVEstimator.FaceHours | Assets/Scripts/BIPVEstimator.cs:246-268 | The hour loop yields the face's average total, direct and diffuse irradiance over the twelve hours |
| BIPVEstimator.ColourFactorRange | Assets/Scripts/BIPVEstimator.cs:270 | For distinct thresholds the colour factor is finite and clamped only from below: it is non-negative, 0 at or under the lower threshold, and above 1 exactly when the average exceeds the upper threshold |
| BIPVEstimator.ColourFactorDegenerate | Assets/Scripts/BIPVEstimator.cs:270 | With equal thresholds the factor is `+∞` exactly when the average exceeds them and NaN otherwise. With distinct thresholds a face without an average gets 0, as `Mathf.Max` turns its NaN into 0 |
| BIPVEstimator.PixelInFace | Assets/Scripts/BIPVEstimator.cs:286-311 | Pixel `(i, j)` with `height = count/width` reads a point inside the face |
| BIPVEstimator.PointHours | Assets/Scripts/BIPVEstimator.cs:295-309 | A pixel's value is the point's twelve-hour average irradiance and its colour factor |
| BIPVEstimator.WallTexture | Assets/Scripts/BIPVEstimator.cs:286-313 | The texture loop produces the wall's texture, column by column |
| BIPVEstimator.TextureShowsGrid | Assets/Scripts/BIPVEstimator.cs:286-312 | For a wall of `width*height` points the texture is `width` by `height`, and pixel `(i, j)` shows point `i*height + j` of the face |
| BIPVEstimator.FaceIsMeanOfPoints | Assets/Scripts/BIPVEstimator.cs:246-306 | Summing the points' hourly figures gives the point count times the face's hourly figures |
| BIPVEstimator.FaceTotalIsPixelMean | Assets/Scripts/BIPVEstimator.cs:266-306 | The face's average irradiance is the mean of its points' average irradiances |
| BIPVEstimator.ShownFrom | Assets/Scripts/BIPVEstimator.cs:283-284 | The face loop reports every face up to and including the first wall of zero width, whose report is made before the `break`, or all faces when no wall has zero width |
| BIPVEstimator.FaceOf | Assets/Scripts/BIPVEstimator.cs:227-244 | The face read for record `(b, f)` lies within the points |
| BIPVEstimator.BuildingReportsTile | Assets/Scripts/BIPVEstimator.cs:237-320 | A building's reports follow its faces. The first starts the building, each starts where the previous ended, and all stay in the building's range. Walls, and only walls, carry the texture key `start + f` |
| BIPVEstimator.WallKeysIncrease | Assets/Scripts/BIPVEstimator.cs:281 | Later walls of a building get larger texture keys, so no two walls of a building share one |
| BIPVEstimator.BuildingFaces | Assets/Scripts/BIPVEstimator.cs:237-321 | The face loop of one building produces exactly the building's reports |
| BIPVEstimator.CalculatePerFaceBIPV | Assets/Scripts/BIPVEstimator.cs:210-332 | No output exactly when fewer than twelve result arrays, no records, no points or no weather are loaded. Otherwise there is one report list per building, built from the first twelve result arrays, which may be longer than the point count. It needs weather records only up to the day's last daylight hour |
| EarClipping.CounterClockwiseIsSign | Assets/Scripts/Parser/EarClippingTriangulation.cs:84-104 | The left-turn test is the sign test with the corner points rotated |
| EarClipping.EdgeIsInside | Assets/Scripts/Parser/EarClippingTriangulation.cs:89-99 | Every point on a triangle's edge counts as inside: the point test is closed |
| EarClipping.AllIndices | Assets/Scripts/Parser/EarClippingTriangulation.cs:15-18 | The initial index list is `0, 1, …, n-1` |
| EarClipping.RemoveAtKeepsOrder | Assets/Scripts/Parser/EarClippingTriangulation.cs:39 | Removing one position keeps the list increasing, inside `[0, n)` and made of old members |
| EarClipping.PrevPos | Assets/Scripts/Parser/EarClippingTriangulation.cs:27 | The previous position is `(i - 1 + m) % m`, and with three or more points it differs from `i` and from the next position |
| EarClipping.NextPos | Assets/Scripts/Parser/EarClippingTriangulation.cs:29 | The next position is `(i + 1) % m`, and it differs from `i` when `m >= 2` |
| EarClipping.CornerDistinct | Assets/Scripts/Parser/EarClippingTriangulation.cs:27-29 | With at least three indices, the corner's previous, current and next indices are three distinct members of the list |
| EarClipping.IsEar | Assets/Scripts/Parser/EarClippingTriangulation.cs:61-82 | A corner is an ear exactly when it is a strict left turn and no other remaining index lies in its closed triangle |
| EarClipping.FindEar | Assets/Scripts/Parser/EarClippingTriangulation.cs:25-43 | The scan returns the first position whose corner is an ear, or none |
| EarClipping.FirstEarIsEar | Assets/Scripts/Parser/EarClippingTriangulation.cs:25-43 | A position found by the scan is an ear |
| EarClipping.NoEarFrom | Assets/Scripts/Parser/EarClippingTriangulation.cs:25-46 | When the scan finds nothing, no position from the start of the scan on is an ear |
| EarClipping.ClipStep | Assets/Scripts/Parser/EarClippingTriangulation.cs:31-39 | One round emits `(prev, next, curr)` for the first ear and continues on the list without it |
| EarClipping.ClipStartsWithEar | Assets/Scripts/Parser/EarClippingTriangulation.cs:31-36 | The first emitted triangle of a polygon with more than three points names the ear's corners |
| EarClipping.ClipShape | Assets/Scripts/Parser/EarClippingTriangulation.cs:21-58 | On success `m` remaining points give `3(m-2)` indices. A failure stops at least one ear short of the final triangle, with whole triangles only. Every triple names three distinct remaining points |
| EarClipping.Triangulate | Assets/Scripts/Parser/EarClippingTriangulation.cs:10-59 | The loop computes exactly the clipping of `0..n-1`; it terminates because each round removes one index or returns |
| EarClipping.TriangulateShape | Assets/Scripts/Parser/EarClippingTriangulation.cs:15-58 | On success the output has `3(n-2)` indices, otherwise fewer and a multiple of 3. Every index is in `[0, n)`, and every triple has three distinct indices |

## Left out

- IEEE float behaviour outside the ray/box test and the colour factor:
  rounding and the `1e-6` comparison are over exact reals. The NaN cases are
  `None` or `Empty`, as described above. In those two places the infinities
  and NaN are modelled, but rounding is not, and `-0.0` direction components are read as `+0.0`.
  For a `-0.0` component the source's infinities have the opposite sign.
  Between the planes the swap gives the same `(-∞, +∞)`. Outside, it gives
  the mirrored pair of equal infinities.
- BVHBox.RayIntersectionIsSlabTest: characterises the test only when no
  `0/0` occurs, i.e. the origin does not lie exactly on a box plane of an
  axis whose direction component is zero. In that case the source compares
  NaNs; `BVHBox.RayIntersection` computes those steps as written, but no
  lemma says what the result means.
- BVHNode.Partition: least-ness is stated for the children a split makes.
  The root box is fitted to every vertex of the scene (BVHNode.cs:20-23),
  not to the triangles, so `BVHNode.SetAsRoot` states containment only.
- Square roots, `CeilToInt`, `normalized` and magnitudes are inputs related
  to their arguments by predicates (`RectInputs`, orders `n` given per
  triangle), because they are irrational or library-defined.
- The outward normal of `SampleRectanglePoints` (EquidistantPoints.cs:79) is
  a per-wall input of the aggregator, for the same reason.
- `CalculateTriangleArea` is not part of this model; triangle areas are
  inputs.
- `GenerateRectangle` and the Perlin-noise `ColorFunction`
  (EquidistantPoints.cs:51-69, 246-250) are editor demos with Unity mesh and
  noise calls; generated colours are not modelled.
- `TransformPoint` in `CreateBVH` is a parameter `place`.
- `Mathf.Pow(2, depth)` is the exact `2^depth`.
- Solar position (`SetSunPosition`, BIPVEstimator.cs:356-380) uses
  transcendental functions and Unity's rotation convention. The sun direction
  per hour is a parameter `sunAt`; only the hour-of-year indexing is
  modelled.
- The GPU occlusion pass and the compute-buffer lifecycle
  (BIPVEstimator.cs:163-205, `RayTracer.cs`): the shader is not part of this
  model. Its per-hour 0/1 results are an input `gpu`.
- File and scene I/O are not modelled: GeoJSON features, PNG writing,
  materials, `MapReader`, `MapWriter` and `EPWReader`. Weather is an input
  array indexed by hour of year.
- `Color.Lerp` and its clamp to `[0, 1]`: the model stops at the factor
  passed to it (`ColourFactor`). A `+∞` factor would clamp to the free
  colour; what the interpolation makes of NaN is Unity's and not modelled.
- BIPVEstimator.CalculatePerFaceBIPV: requires every one of the first
  twelve result arrays to reach the last sampled point, and the weather to
  reach hour `24*day + 17`. With shorter arrays the source throws an
  index-out-of-range exception part way through its loops, and that is not
  modelled. Longer stale arrays and weather files of any sufficient length
  are accepted.
- BIPVEstimator.CountObstructions: the `uint` obstruction counter does not
  wrap. Faces have fewer than `2^32` points in any realistic input.
- The point texture loop uses the literal `12`, and the face loop uses
  `numHours`. Both are the constant `NumHours = 12` here, as the surrounding
  code assumes.
- `Debug.Log` messages, gizmo and debug drawing, and the editor inspector
  files are not modelled.
- BVHTriangle.RayIntersection: does not prove the geometric meaning of an
  accepted hit (`origin + t*dir == (1-u-v)*A + u*B + v*C`). The solver cannot
  discharge the products of cross and dot products it needs. The contract
  states the acceptance conditions and the reported distance only.
- BVH.TraverseBVH: the closest-hit property is relative to the source's box
  rule. It is not stated relative to all triangles of the scene, because
  that rule can prune a subtree holding a valid hit (see Findings).
- Initialize and MidPointSplit require every triangle index to name a
  vertex. The source would raise an index error when computing a centroid
  otherwise. They also require `depth >= 1`, because the source writes slot
  1.
- EarClipping.Triangulate requires at least three points. The source
  indexes `vertexIndices[2]` for the final triangle and fails with fewer.

## Findings

| source | as written | input that shows it | evidently intended | confidence | as-written member | corrected member |
|---|---|---|---|---|---|---|
| Assets/Scripts/BVH/BVHBox.cs:61-65 | The box is accepted only if one reported distance lies in `[near, far]`: the entry distance if it is positive, else the exit distance. | A ray from `(1,1,1)` along `(1,1,1)` with window `[0, 0.5]`, against the box `[1,1.75]^3` of the triangle `(1.75,1,1)`, `(1,1.75,1)`, `(1,1,1.75)`. The entry is 0, so the reported distance is the exit 0.75 > 0.5 and the box is rejected. Yet the ray passes the triangle's centroid at `t = 0.25`, so `TraverseBVH` loses a hit inside the window. | Accept when the ray's stretch inside the box meets the window: `max(entry, near) <= min(exit, far)`. | not executed | BVH.AsWrittenRejectsCrossedBox, BVH.AsWrittenLosesOnlyHit | BVH.WindowHitPasses, BVH.PassMeansWindowHit, BVH.Traverse |
| Assets/Scripts/BIPVEstimator.cs:50 | `testResultList` is never cleared, so a second `ComputeObstructions` appends twelve more arrays. The aggregator reads arrays `0..11` (lines 252, 303), which are the first run's. | One point on an upward roof under an overhead sun: the first run reports it blocked every hour, the rerun reports it free. The aggregator still computes zero direct irradiance instead of the full value. | Each run replaces the stored results, so the aggregator sees the latest run. | not executed | BIPVEstimator.ComputeObstructions, BIPVEstimator.StaleFlagsAfterRerun, BIPVEstimator.StaleFlagsAfterSmallerRerun | BIPVEstimator.ComputeObstructionsFresh |

=== FILE: bipv_estimator.dfy ===
/** `BIPVEstimator`: the bookkeeping around the occlusion pass. Sample points
    of every face of every building are laid out in one flat array, with a
    per-building record of where each face's points lie; the occlusion flags
    of twelve daylight hours are kept one array per hour; the aggregator walks
    the face ranges again and turns flags and hourly weather into average
    irradiance per face and, for walls, per point.

    Floats are exact reals. The samplers (modelled in `EquidistantPoints`),
    the GPU pass, the sun's position, Unity's colour interpolation and all
    file output are outside the model: their results are inputs. */
module BIPVEstimator {
  import opened Geometry
  import opened Heap
  import opened BVHBox
  import opened BVHNode
  import opened BVH
  import opened EquidistantPoints

  // ---------------------------------------------------------------------------
  // Sample points and their metadata

  /** What the sampler returned for one face: the points, the face area, and
      for a wall the grid width and outward normal. */
  datatype FaceSample = FaceSample(points: seq<Vec3>, area: real, width: nat, normal: Vec3)

  /** `TestPointMeta`: the running end of the building's points, the point
      count, area and verticality of every face, and width and normal of every
      wall (every face but the first, the roof). */
  datatype Meta = Meta(limit: nat, counts: seq<nat>, areas: seq<real>, vertical: seq<bool>,
                       widths: seq<nat>, normals: seq<Vec3>)

  /** The points of faces `0..f` of one building, in face order. */
  function FacePoints(faces: seq<FaceSample>, f: nat): seq<Vec3>
    requires f <= |faces|
  {
    if f == 0 then [] else FacePoints(faces, f - 1) + faces[f - 1].points
  }

  /** The points of buildings `0..b`, in building order. */
  function AllPoints(buildings: seq<seq<FaceSample>>, b: nat): seq<Vec3>
    requires b <= |buildings|
  {
    if b == 0 then [] else AllPoints(buildings, b - 1) + FacePoints(buildings[b - 1], |buildings[b - 1]|)
  }

  /** `c[0] + ... + c[f-1]`. */
  function SumCounts(c: seq<nat>, f: nat): nat
    requires f <= |c|
  {
    if f == 0 then 0 else SumCounts(c, f - 1) + c[f - 1]
  }

  /** The shape `SamplePoints` gives a record: one count, area and flag per
      face, only the first face horizontal, and one width and normal per
      wall. */
  predicate MetaShape(m: Meta) {
    && |m.areas| == |m.counts| && |m.vertical| == |m.counts|
    && |m.widths| == |m.normals| == (if |m.counts| == 0 then 0 else |m.counts| - 1)
    && forall j :: 0 <= j < |m.vertical| ==> m.vertical[j] == (j != 0)
  }

  /** Where building `b`'s points start: at the previous building's limit. */
  function BuildingStart(meta: seq<Meta>, b: nat): nat
    requires b < |meta|
  {
    if b == 0 then 0 else meta[b - 1].limit
  }

  /** Records that describe `n` points: every building's faces fill the range
      from its start up to its limit, and no limit passes `n`. */
  ghost predicate Consistent(meta: seq<Meta>, n: nat) {
    forall b :: 0 <= b < |meta| ==> BuildingOk(meta, b, n)
  }

  predicate BuildingOk(meta: seq<Meta>, b: nat, n: nat)
    requires b < |meta|
  {
    && MetaShape(meta[b])
    && BuildingStart(meta, b) + SumCounts(meta[b].counts, |meta[b].counts|) == meta[b].limit
    && meta[b].limit <= n
  }

  /** Where face `f` of building `b` starts. */
  function FaceStart(meta: seq<Meta>, b: nat, f: nat): nat
    requires b < |meta| && f <= |meta[b].counts|
  {
    BuildingStart(meta, b) + SumCounts(meta[b].counts, f)
  }

  /** The face ranges of a building tile its range: face 0 starts the
      building, face `f + 1` starts where face `f` ends, and the last face
      ends at the building's limit, where the next building starts. */
  lemma {:induction false} FacesTile(meta: seq<Meta>, n: nat, b: nat, f: nat)
    requires Consistent(meta, n) && b < |meta| && f < |meta[b].counts|
    ensures FaceStart(meta, b, 0) == BuildingStart(meta, b)
    ensures FaceStart(meta, b, f + 1) == FaceStart(meta, b, f) + meta[b].counts[f]
    ensures FaceStart(meta, b, f) + meta[b].counts[f] <= meta[b].limit <= n
    ensures FaceStart(meta, b, |meta[b].counts|) == meta[b].limit
    ensures b + 1 < |meta| ==> BuildingStart(meta, b + 1) == meta[b].limit
  {
    assert BuildingOk(meta, b, n);
    SumCountsMonotone(meta[b].counts, f + 1, |meta[b].counts|);
  }

  lemma {:induction false} SumCountsMonotone(c: seq<nat>, f: nat, g: nat)
    requires f <= g <= |c|
    ensures SumCounts(c, f) <= SumCounts(c, g)
    decreases g
  {
    if f < g {
      SumCountsMonotone(c, f, g - 1);
    }
  }

  /** `SamplePoints`: the faces of every building sampled in order, the first
      face as the roof and every other face as a wall. */
  method SamplePoints(buildings: seq<seq<FaceSample>>) returns (points: seq<Vec3>, meta: seq<Meta>)
    ensures points == AllPoints(buildings, |buildings|)
    ensures Recorded(buildings, meta)
    ensures Consistent(meta, |points|)
    ensures |meta| > 0 ==> meta[|meta| - 1].limit == |points|
  {
    points := [];
    meta := [];
    var current: nat := 0;
    var b := 0;
    while b < |buildings|
      invariant b <= |buildings| && |meta| == b
      invariant points == AllPoints(buildings, b) && current == |points|
      invariant RecordedUpTo(buildings, meta)
      invariant Consistent(meta, |points|)
      invariant if b == 0 then |points| == 0 else meta[b - 1].limit == |points|
    {
      var m;
      points, current, m := SampleBuilding(buildings[b], points, current);
      AllPointsGrow(buildings, b);
      ConsistentGrow(meta, m, |AllPoints(buildings, b)|, |points|);
      RecordedStep(buildings, meta, m);
      meta := meta + [m];
      b := b + 1;
    }
  }

  /** One record per building, each ending where that building's points end
      and describing its faces. */
  ghost predicate Recorded(buildings: seq<seq<FaceSample>>, meta: seq<Meta>) {
    |meta| == |buildings| && RecordedUpTo(buildings, meta)
  }

  /** The records of the first `|meta|` buildings. */
  ghost predicate RecordedUpTo(buildings: seq<seq<FaceSample>>, meta: seq<Meta>) {
    && |meta| <= |buildings|
    && (forall b :: 0 <= b < |meta| ==> |meta[b].counts| == |buildings[b]|)
    && (forall b :: 0 <= b < |meta| ==> meta[b].limit == |AllPoints(buildings, b + 1)|)
    && (forall b :: 0 <= b < |meta| ==> MetaOf(buildings[b], meta[b]))
  }

  lemma RecordedStep(buildings: seq<seq<FaceSample>>, meta: seq<Meta>, m: Meta)
    requires RecordedUpTo(buildings, meta) && |meta| < |buildings|
    requires MetaOf(buildings[|meta|], m) && m.limit == |AllPoints(buildings, |meta| + 1)|
    ensures RecordedUpTo(buildings, meta + [m])
  {
    var meta' := meta + [m];
    forall b | 0 <= b < |meta'|
      ensures |meta'[b].counts| == |buildings[b]| && meta'[b].limit == |AllPoints(buildings, b + 1)|
      ensures MetaOf(buildings[b], meta'[b])
    {
      if b < |meta| {
        assert meta'[b] == meta[b];
      }
    }
  }

  /** The record `SamplePoints` writes for one building's faces. */
  predicate MetaOf(faces: seq<FaceSample>, m: Meta) {
    && MetaShape(m)
    && |m.counts| == |faces|
    && (forall j :: 0 <= j < |faces| ==> m.counts[j] == |faces[j].points| && m.areas[j] == faces[j].area)
    && (forall j :: 1 <= j < |faces| ==> m.widths[j - 1] == faces[j].width && m.normals[j - 1] == faces[j].normal)
  }

  /** The inner loop of `SamplePoints` over the faces of one building. */
  method SampleBuilding(faces: seq<FaceSample>, points: seq<Vec3>, current: nat)
    returns (points': seq<Vec3>, current': nat, m: Meta)
    requires current == |points|
    ensures points' == points + FacePoints(faces, |faces|) && current' == |points'|
    ensures MetaOf(faces, m) && m.limit == current'
    ensures SumCounts(m.counts, |m.counts|) == |FacePoints(faces, |faces|)|
  {
    var counts: seq<nat> := [];
    var vertical: seq<bool> := [];
    var areas: seq<real> := [];
    var widths: seq<nat> := [];
    var normals: seq<Vec3> := [];
    points' := points;
    current' := current;
    var j := 0;
    while j < |faces|
      invariant j <= |faces| && |counts| == |vertical| == |areas| == j
      invariant |widths| == |normals| == (if j == 0 then 0 else j - 1)
      invariant points' == points + FacePoints(faces, j) && current' == |points'|
      invariant SumCounts(counts, j) == |FacePoints(faces, j)|
      invariant forall k :: 0 <= k < j ==> counts[k] == |faces[k].points| && areas[k] == faces[k].area
      invariant forall k :: 0 <= k < j ==> vertical[k] == (k != 0)
      invariant forall k :: 1 <= k < j ==> widths[k - 1] == faces[k].width && normals[k - 1] == faces[k].normal
    {
      var sample := faces[j];
      if j != 0 {
        widths := widths + [sample.width];
        normals := normals + [sample.normal];
      }
      assert SumCounts(counts + [|sample.points|], j + 1) == SumCounts(counts, j) + |sample.points| by {
        SumCountsPrefix(counts, [|sample.points|], j);
      }
      counts := counts + [|sample.points|];
      vertical := vertical + [j != 0];
      areas := areas + [sample.area];
      current' := current' + |sample.points|;
      points' := points' + sample.points;
      j := j + 1;
    }
    m := Meta(current', counts, areas, vertical, widths, normals);
  }

  /** Appending counts leaves the sums of earlier prefixes alone. */
  lemma {:induction false} SumCountsPrefix(c: seq<nat>, d: seq<nat>, f: nat)
    requires f <= |c|
    ensures SumCounts(c + d, f) == SumCounts(c, f)
  {
    if f > 0 {
      SumCountsPrefix(c, d, f - 1);
      assert (c + d)[f - 1] == c[f - 1];
    }
  }

  lemma AllPointsGrow(buildings: seq<seq<FaceSample>>, b: nat)
    requires b < |buildings|
    ensures AllPoints(buildings, b + 1) == AllPoints(buildings, b) + FacePoints(buildings[b], |buildings[b]|)
  {
  }

  /** A building appended after consistent records, filling the points from
      the old end to the new one, keeps the records consistent. */
  lemma ConsistentGrow(meta: seq<Meta>, m: Meta, n: nat, n': nat)
    requires Consistent(meta, n) && (|meta| > 0 ==> meta[|meta| - 1].limit == n) && (|meta| == 0 ==> n == 0)
    requires MetaShape(m) && m.limit == n' && n + SumCounts(m.counts, |m.counts|) == n'
    ensures Consistent(meta + [m], n')
  {
    var meta' := meta + [m];
    forall b | 0 <= b < |meta'|
      ensures BuildingOk(meta', b, n')
    {
      if b < |meta| {
        assert BuildingOk(meta, b, n);
        assert meta'[b] == meta[b];
        assert BuildingStart(meta', b) == BuildingStart(meta, b);
      } else {
        assert meta'[b] == m && BuildingStart(meta', b) == n;
      }
    }
  }

  /** Face `f` of building `b` occupies the points from `FaceStart(b, f)`
      on, in the order its sampler returned them: the records written by
      `SamplePoints` locate every face in the flat array. */
  lemma FaceRangeHoldsFace(buildings: seq<seq<FaceSample>>, meta: seq<Meta>, b: nat, f: nat, k: nat)
    requires Recorded(buildings, meta)
    requires b < |buildings| && f < |buildings[b]| && k < |buildings[b][f].points|
    ensures FaceStart(meta, b, f) + k < |AllPoints(buildings, |buildings|)|
    ensures AllPoints(buildings, |buildings|)[FaceStart(meta, b, f) + k] == buildings[b][f].points[k]
  {
    var faces := buildings[b];
    var before := AllPoints(buildings, b);
    assert BuildingStart(meta, b) == |before|;
    FacePointsCount(faces, meta[b], f);
    var inner := FacePoints(faces, f + 1);
    assert inner == FacePoints(faces, f) + faces[f].points;
    assert inner[|FacePoints(faces, f)| + k] == faces[f].points[k];
    FacePointsPrefix(faces, f + 1, |faces|);
    var whole := AllPoints(buildings, b + 1);
    assert whole == before + FacePoints(faces, |faces|);
    assert whole[FaceStart(meta, b, f) + k] == faces[f].points[k];
    AllPointsPrefix(buildings, b + 1, |buildings|);
  }

  /** The first `f` faces hold `SumCounts(counts, f)` points. */
  lemma {:induction false} FacePointsCount(faces: seq<FaceSample>, m: Meta, f: nat)
    requires MetaOf(faces, m) && f <= |faces|
    ensures |FacePoints(faces, f)| == SumCounts(m.counts, f)
  {
    if f > 0 {
      FacePointsCount(faces, m, f - 1);
    }
  }

  lemma {:induction false} FacePointsPrefix(faces: seq<FaceSample>, f: nat, g: nat)
    requires f <= g <= |faces|
    ensures |FacePoints(faces, f)| <= |FacePoints(faces, g)|
    ensures FacePoints(faces, g)[..|FacePoints(faces, f)|] == FacePoints(faces, f)
    decreases g
  {
    if f < g {
      FacePointsPrefix(faces, f, g - 1);
      var p := FacePoints(faces, g - 1);
      assert (p + faces[g - 1].points)[..|p|] == p;
    }
  }

  lemma {:induction false} AllPointsPrefix(buildings: seq<seq<FaceSample>>, b: nat, c: nat)
    requires b <= c <= |buildings|
    ensures |AllPoints(buildings, b)| <= |AllPoints(buildings, c)|
    ensures AllPoints(buildings, c)[..|AllPoints(buildings, b)|] == AllPoints(buildings, b)
    decreases c
  {
    if b < c {
      AllPointsPrefix(buildings, b, c - 1);
      var p := AllPoints(buildings, c - 1);
      assert (p + FacePoints(buildings[c - 1], |buildings[c - 1]|))[..|p|] == p;
    }
  }

  // ---------------------------------------------------------------------------
  // GPU buffers

  /** Values of a C# `uint`. */
  const UintRange: nat := 0x1_0000_0000

  /** The `(uint)` cast of an `int`: two's complement wrap-around. */
  function ToUint(x: int): (r: nat)
    ensures r < UintRange
    ensures 0 <= x < UintRange ==> r == x
  {
    x % UintRange
  }

  /** `ColorlessTri`: a triangle's three vertex indices as the shader reads
      them. */
  datatype ColorlessTri = ColorlessTri(v0: nat, v1: nat, v2: nat)

  /** `GetTrisFromBVH`: the BVH's triangles, in their partitioned order. */
  method GetTrisFromBVH(b: Bvh) returns (r: seq<ColorlessTri>)
    ensures |r| == |b.triangles|
    ensures forall i :: 0 <= i < |r| ==>
      r[i] == ColorlessTri(ToUint(b.triangles[i].a), ToUint(b.triangles[i].b), ToUint(b.triangles[i].c))
  {
    r := [];
    var i := 0;
    while i < |b.triangles|
      invariant i <= |b.triangles| && |r| == i
      invariant forall k :: 0 <= k < i ==>
        r[k] == ColorlessTri(ToUint(b.triangles[k].a), ToUint(b.triangles[k].b), ToUint(b.triangles[k].c))
    {
      var t := b.triangles[i];
      r := r + [ColorlessTri(ToUint(t.a), ToUint(t.b), ToUint(t.c))];
      i := i + 1;
    }
  }

  /** With fewer than `2^32` vertices the casts lose nothing: GPU triangle
      `i` is BVH triangle `i` and names an existing vertex at each corner. */
  lemma GpuTrianglesExact(b: Bvh, r: seq<ColorlessTri>)
    requires BVH.Valid(b) && |b.vertices| <= UintRange
    requires |r| == |b.triangles|
    requires forall i :: 0 <= i < |r| ==>
      r[i] == ColorlessTri(ToUint(b.triangles[i].a), ToUint(b.triangles[i].b), ToUint(b.triangles[i].c))
    ensures forall i :: 0 <= i < |r| ==>
      && BVHTriangle.Tri(r[i].v0, r[i].v1, r[i].v2) == b.triangles[i]
      && r[i].v0 < |b.vertices| && r[i].v1 < |b.vertices| && r[i].v2 < |b.vertices|
  {
    forall i | 0 <= i < |r|
      ensures BVHTriangle.Tri(r[i].v0, r[i].v1, r[i].v2) == b.triangles[i]
      ensures r[i].v0 < |b.vertices| && r[i].v1 < |b.vertices| && r[i].v2 < |b.vertices|
    {
      assert BVHTriangle.IndicesIn(b.triangles[i], |b.vertices|);
    }
  }

  /** `BoundingBox`: a node's box and triangle range as the shader reads
      them. */
  datatype BoundingBox = BoundingBox(box: Box, start: nat, count: nat)

  /** Slot 0 is never written and keeps the zeroed struct. */
  const Unset: BoundingBox := BoundingBox(Bounds(Zero, Zero), 0, 0)

  /** `GetBoundsFromBVH`: node `i`'s box and range in slot `i`, from slot 1
      on. The source dereferences every node from slot 1, so each must be
      present. */
  method GetBoundsFromBVH(b: Bvh) returns (r: seq<BoundingBox>)
    requires forall i :: 1 <= i < |b.nodes| ==> b.nodes[i].Some?
    ensures |r| == |b.nodes| && (|r| > 0 ==> r[0] == Unset)
    ensures forall i :: 1 <= i < |r| ==>
      r[i] == BoundingBox(b.nodes[i].value.box, ToUint(b.nodes[i].value.start), ToUint(b.nodes[i].value.count))
  {
    r := if |b.nodes| == 0 then [] else [Unset];
    var i := 1;
    while i < |b.nodes|
      invariant |r| == (if |b.nodes| == 0 then 0 else i) && i <= |b.nodes| + 1
      invariant |b.nodes| > 0 ==> i <= |b.nodes| && r[0] == Unset
      invariant forall k :: 1 <= k < |r| ==>
        r[k] == BoundingBox(b.nodes[k].value.box, ToUint(b.nodes[k].value.start), ToUint(b.nodes[k].value.count))
    {
      var node := b.nodes[i].value;
      r := r + [BoundingBox(node.box, ToUint(node.start), ToUint(node.count))];
      i := i + 1;
    }
  }

  /** The GPU ranges of a built tree: every slot's range lies in the
      triangle array, and an inner slot's range is split between its two
      children, the first child taking the front. */
  lemma GpuBoundsTile(b: Bvh, r: seq<BoundingBox>, i: nat)
    requires b.depth >= 1 && |b.nodes| == Pow2(b.depth) && |b.triangles| < UintRange
    requires WellBuilt(b.nodes, b.triangles, b.vertices, 1, b.depth)
    requires |r| == |b.nodes|
    requires forall k :: 1 <= k < |r| ==>
      b.nodes[k].Some? && r[k] == BoundingBox(b.nodes[k].value.box, ToUint(b.nodes[k].value.start), ToUint(b.nodes[k].value.count))
    requires 1 <= i < |r|
    ensures r[i].start + r[i].count <= |b.triangles|
    ensures i < |r| / 2 ==>
              && 2 * i + 1 < |r|
              && r[2 * i].start == r[i].start
              && r[2 * i + 1].start == r[i].start + r[2 * i].count
              && r[2 * i].count + r[2 * i + 1].count == r[i].count
  {
    LeafIffUnsplit(b.nodes, b.triangles, b.vertices, b.depth, i);
    AllBuilt(b.nodes, b.triangles, b.vertices, b.depth);
    if i < |r| / 2 {
      assert Placed(b.nodes[2 * i].value, 2 * i, b.triangles, b.vertices);
      assert Placed(b.nodes[2 * i + 1].value, 2 * i + 1, b.triangles, b.vertices);
    }
  }

  // ---------------------------------------------------------------------------
  // Occlusion results, hour by hour

  /** The first daylight hour, the number of hours, and the length of a
      weather year. */
  const StartHour: nat := 6
  const NumHours: nat := 12
  const HoursPerYear: nat := 8760

  /** The hour of the year of daylight hour `hour` of day `day`. */
  function HourOfYear(day: nat, hour: nat): nat {
    day * 24 + StartHour + hour
  }

  /** For a day of the year `0..364` the hour index lies in the weather
      year, and the solar-position routine recovers the day as `h / 24` and
      the hour of the day as `h % 24`. */
  lemma HourOfYearSplit(day: nat, hour: nat)
    requires day <= 364 && hour < NumHours
    ensures HourOfYear(day, hour) <= 8753 < HoursPerYear
    ensures HourOfYear(day, hour) / 24 == day
    ensures HourOfYear(day, hour) % 24 == StartHour + hour
  {
  }

  /** `ComputeObstructions` after the GPU pass: for each of the twelve
      hours, the sun direction is taken at that hour of the year and a copy
      of the hour's flags is appended to the results. `gpu[h]` stands for
      what the shader writes for hour `h` and `sunAt` for `SetSunPosition`
      followed by reading the light's direction. */
  method ComputeObstructions(results: seq<seq<nat>>, day: nat, numPoints: nat, gpu: seq<seq<nat>>, sunAt: nat -> Vec3)
    returns (results': seq<seq<nat>>, sun: seq<Vec3>)
    requires |gpu| == NumHours && forall h :: 0 <= h < NumHours ==> |gpu[h]| == numPoints
    ensures results' == results + gpu
    ensures forall k :: |results| <= k < |results'| ==> |results'[k]| == numPoints
    ensures |sun| == NumHours && forall h :: 0 <= h < NumHours ==> sun[h] == sunAt(HourOfYear(day, h))
  {
    results' := results;
    sun := [];
    var hour := 0;
    while hour < NumHours
      invariant hour <= NumHours && |sun| == hour
      invariant results' == results + gpu[..hour]
      invariant forall h :: 0 <= h < hour ==> sun[h] == sunAt(HourOfYear(day, h))
    {
      sun := sun + [sunAt(HourOfYear(day, hour))];
      var copy := gpu[hour];
      results' := results' + [copy];
      hour := hour + 1;
    }
  }

  /** `ComputeObstructions` as it should be: the result list is cleared
      first, as the sampler clears the points and records, so the flags
      read by the aggregator are the ones of this run, whatever ran before. */
  method ComputeObstructionsFresh(results: seq<seq<nat>>, day: nat, numPoints: nat, gpu: seq<seq<nat>>,
                                  sunAt: nat -> Vec3)
    returns (results': seq<seq<nat>>, sun: seq<Vec3>)
    requires |gpu| == NumHours && forall h :: 0 <= h < NumHours ==> |gpu[h]| == numPoints
    ensures |results'| == NumHours
    ensures forall h :: 0 <= h < NumHours ==> results'[h] == gpu[h] && |results'[h]| == numPoints
    ensures |sun| == NumHours && forall h :: 0 <= h < NumHours ==> sun[h] == sunAt(HourOfYear(day, h))
  {
    results', sun := ComputeObstructions([], day, numPoints, gpu, sunAt);
  }

  // ---------------------------------------------------------------------------
  // Irradiance, hour by hour

  /** One record of the weather file: direct normal, diffuse horizontal and
      global horizontal irradiance. */
  datatype Weather = Weather(dirNI: real, difHI: real, globHI: real)

  /** What the aggregator reads besides the records: per-hour flags, sun
      directions, the weather year, the day, and the colour thresholds. */
  datatype Inputs = Inputs(results: seq<seq<nat>>, sun: seq<Vec3>, weather: seq<Weather>, day: nat,
                           minThreshold: real, maxThreshold: real)

  /** Inputs the aggregator can read for `n` points without leaving an
      array: twelve hours of flags reaching every point (longer flag arrays
      left from an earlier, larger run are read too), twelve sun
      directions, and weather records up to the last daylight hour of the
      day. */
  predicate InputsOk(inp: Inputs, n: nat) {
    && |inp.results| >= NumHours && |inp.sun| >= NumHours
    && |inp.weather| > HourOfYear(inp.day, NumHours - 1)
    && forall h :: 0 <= h < NumHours ==> |inp.results[h]| >= n
  }

  /** The weather record of daylight hour `h`. */
  function WeatherAt(inp: Inputs, n: nat, h: nat): Weather
    requires InputsOk(inp, n) && h < NumHours
  {
    inp.weather[HourOfYear(inp.day, h)]
  }

  /** `Mathf.Max`: the first argument when it is strictly greater, else
      the second. */
  function UnityMax(a: real, b: real): real {
    if a > b then a else b
  }

  /** `cos(theta)` clamped at zero: a face turned away from the sun gets no
      direct light. */
  function CosTheta(normal: Vec3, sun: Vec3): (c: real)
    ensures c >= 0.0 && c >= Dot(normal, Neg(sun))
    ensures c == 0.0 || c == Dot(normal, Neg(sun))
  {
    UnityMax(0.0, Dot(normal, Neg(sun)))
  }

  /** The tilt factor: 1 for the roof, 0 for a wall. */
  function TiltFactor(vertical: bool): nat {
    if vertical then 0 else 1
  }

  function Diffuse(w: Weather, tilt: nat): real {
    w.difHI * (1 + tilt) as real / 2.0
  }

  function Reflected(w: Weather, tilt: nat): real {
    w.globHI * 0.2 * (1 - tilt as int) as real / 2.0
  }

  /** The roof sees the whole diffuse sky and no ground reflection; a wall
      sees half the sky and a tenth of the global irradiance reflected. */
  lemma TiltComponents(w: Weather, vertical: bool)
    ensures !vertical ==> Diffuse(w, TiltFactor(vertical)) == w.difHI && Reflected(w, TiltFactor(vertical)) == 0.0
    ensures vertical ==> Diffuse(w, TiltFactor(vertical)) == w.difHI / 2.0
                         && Reflected(w, TiltFactor(vertical)) == w.globHI * 0.1
  {
  }

  /** The number of flagged points among `count` points from `start`. */
  function Blocked(flags: seq<nat>, start: nat, count: nat): nat
    requires start + count <= |flags|
  {
    if count == 0 then 0 else Blocked(flags, start, count - 1) + flags[start + count - 1]
  }

  /** Flags of the occlusion pass: 1 for a blocked point, 0 for a free one. */
  predicate Flags(flags: seq<nat>) {
    forall k :: 0 <= k < |flags| ==> flags[k] <= 1
  }

  /** The share of blocked points; an empty face divides zero by zero, and
      the result is not a number. */
  function ShadowFraction(blocked: nat, count: nat): Option<real> {
    if count == 0 then None else Some(blocked as real / count as real)
  }

  lemma {:induction false} BlockedBound(flags: seq<nat>, start: nat, count: nat)
    requires start + count <= |flags| && Flags(flags)
    ensures Blocked(flags, start, count) <= count
  {
    if count > 0 {
      BlockedBound(flags, start, count - 1);
    }
  }

  /** With 0/1 flags the shadow fraction of a face with points is a share:
      between 0 and 1. */
  lemma ShadowFractionBounds(flags: seq<nat>, start: nat, count: nat)
    requires start + count <= |flags| && Flags(flags) && count > 0
    ensures ShadowFraction(Blocked(flags, start, count), count).Some?
    ensures 0.0 <= ShadowFraction(Blocked(flags, start, count), count).value <= 1.0
  {
    BlockedBound(flags, start, count);
    var c := count as real;
    var b := Blocked(flags, start, count) as real;
    assert b / c <= 1.0 by {
      assert b <= c;
    }
  }

  /** What the aggregator needs of a face: its point range, its tilt factor
      and its outward normal. */
  datatype Face = Face(start: nat, count: nat, tilt: nat, normal: Vec3)

  predicate FaceIn(f: Face, n: nat) {
    f.start + f.count <= n
  }

  /** Direct irradiance on a face with points in hour `h`. */
  function DirectAt(inp: Inputs, n: nat, face: Face, h: nat): real
    requires InputsOk(inp, n) && FaceIn(face, n) && face.count > 0 && h < NumHours
  {
    var sf := ShadowFraction(Blocked(inp.results[h], face.start, face.count), face.count).value;
    WeatherAt(inp, n, h).dirNI * (1.0 - sf) * CosTheta(face.normal, inp.sun[h])
  }

  /** Direct irradiance on the face were nothing in the way. */
  function ClearAt(inp: Inputs, n: nat, face: Face, h: nat): real
    requires InputsOk(inp, n) && h < NumHours
  {
    WeatherAt(inp, n, h).dirNI * CosTheta(face.normal, inp.sun[h])
  }

  function DirectSum(inp: Inputs, n: nat, face: Face, hours: nat): real
    requires InputsOk(inp, n) && FaceIn(face, n) && face.count > 0 && hours <= NumHours
  {
    if hours == 0 then 0.0 else DirectSum(inp, n, face, hours - 1) + DirectAt(inp, n, face, hours - 1)
  }

  function ClearSum(inp: Inputs, n: nat, face: Face, hours: nat): real
    requires InputsOk(inp, n) && hours <= NumHours
  {
    if hours == 0 then 0.0 else ClearSum(inp, n, face, hours - 1) + ClearAt(inp, n, face, hours - 1)
  }

  function DiffuseSum(inp: Inputs, n: nat, tilt: nat, hours: nat): real
    requires InputsOk(inp, n) && hours <= NumHours
  {
    if hours == 0 then 0.0 else DiffuseSum(inp, n, tilt, hours - 1) + Diffuse(WeatherAt(inp, n, hours - 1), tilt)
  }

  function ReflectedSum(inp: Inputs, n: nat, tilt: nat, hours: nat): real
    requires InputsOk(inp, n) && hours <= NumHours
  {
    if hours == 0 then 0.0 else ReflectedSum(inp, n, tilt, hours - 1) + Reflected(WeatherAt(inp, n, hours - 1), tilt)
  }

  /** Non-negative direct irradiance in every daylight hour of the day. */
  predicate DirectNonNegative(inp: Inputs, n: nat)
    requires InputsOk(inp, n)
  {
    forall h :: 0 <= h < NumHours ==> WeatherAt(inp, n, h).dirNI >= 0.0
  }

  predicate AllFlags(inp: Inputs, n: nat)
    requires InputsOk(inp, n)
  {
    forall h :: 0 <= h < NumHours ==> Flags(inp.results[h])
  }

  /** Shadow only takes light away: the direct irradiance a face receives
      lies between none and what it would receive unobstructed. */
  lemma {:induction false} DirectWithinClear(inp: Inputs, n: nat, face: Face, hours: nat)
    requires InputsOk(inp, n) && FaceIn(face, n) && face.count > 0 && hours <= NumHours
    requires DirectNonNegative(inp, n) && AllFlags(inp, n)
    ensures 0.0 <= DirectSum(inp, n, face, hours) <= ClearSum(inp, n, face, hours)
  {
    if hours > 0 {
      DirectWithinClear(inp, n, face, hours - 1);
      DirectHourWithinClear(inp, n, face, hours - 1);
    }
  }

  lemma DirectHourWithinClear(inp: Inputs, n: nat, face: Face, h: nat)
    requires InputsOk(inp, n) && FaceIn(face, n) && face.count > 0 && h < NumHours
    requires DirectNonNegative(inp, n) && AllFlags(inp, n)
    ensures 0.0 <= DirectAt(inp, n, face, h) <= ClearAt(inp, n, face, h)
  {
    ShadowFractionBounds(inp.results[h], face.start, face.count);
    var sf := ShadowFraction(Blocked(inp.results[h], face.start, face.count), face.count).value;
    var d := WeatherAt(inp, n, h).dirNI;
    var c := CosTheta(face.normal, inp.sun[h]);
    assert 0.0 <= d * c;
    assert 0.0 <= (1.0 - sf) * (d * c) <= d * c by {
      assert 0.0 <= 1.0 - sf <= 1.0;
      assert d * c - (1.0 - sf) * (d * c) == sf * (d * c);
    }
    assert DirectAt(inp, n, face, h) == (1.0 - sf) * (d * c);
  }

  /** Every point of the face carries flag `v` in every daylight hour. */
  predicate FaceFlagged(inp: Inputs, n: nat, face: Face, v: nat)
    requires InputsOk(inp, n) && FaceIn(face, n)
  {
    forall h, k :: 0 <= h < NumHours && face.start <= k < face.start + face.count ==> inp.results[h][k] == v
  }

  /** A face blocked at every point in every hour receives no direct
      light. */
  lemma {:induction false} FullyBlocked(inp: Inputs, n: nat, face: Face, hours: nat)
    requires InputsOk(inp, n) && FaceIn(face, n) && face.count > 0 && hours <= NumHours
    requires FaceFlagged(inp, n, face, 1)
    ensures DirectSum(inp, n, face, hours) == 0.0
  {
    if hours > 0 {
      var h := hours - 1;
      FullyBlocked(inp, n, face, h);
      DirectAtShare(inp, n, face, h);
    }
  }

  /** A face free at every point in every hour receives all the direct
      light the sun brings it. */
  lemma {:induction false} FullyFree(inp: Inputs, n: nat, face: Face, hours: nat)
    requires InputsOk(inp, n) && FaceIn(face, n) && face.count > 0 && hours <= NumHours
    requires FaceFlagged(inp, n, face, 0)
    ensures DirectSum(inp, n, face, hours) == ClearSum(inp, n, face, hours)
  {
    if hours > 0 {
      var h := hours - 1;
      FullyFree(inp, n, face, h);
      DirectAtShare(inp, n, face, h);
    }
  }

  /** In an hour where every point of the face is blocked the face gets no
      direct light, and where none is, all of it. */
  lemma DirectAtShare(inp: Inputs, n: nat, face: Face, h: nat)
    requires InputsOk(inp, n) && FaceIn(face, n) && face.count > 0 && h < NumHours
    ensures (forall k :: face.start <= k < face.start + face.count ==> inp.results[h][k] == 1)
            ==> DirectAt(inp, n, face, h) == 0.0
    ensures (forall k :: face.start <= k < face.start + face.count ==> inp.results[h][k] == 0)
            ==> DirectAt(inp, n, face, h) == ClearAt(inp, n, face, h)
  {
    BlockedConstant(inp.results[h], face.start, face.count, 1);
    BlockedConstant(inp.results[h], face.start, face.count, 0);
    var d := WeatherAt(inp, n, h).dirNI;
    var cos := CosTheta(face.normal, inp.sun[h]);
    var sf := ShadowFraction(Blocked(inp.results[h], face.start, face.count), face.count).value;
    assert DirectAt(inp, n, face, h) == d * (1.0 - sf) * cos;
    assert ClearAt(inp, n, face, h) == d * cos;
  }

  /** A range whose flags are all `v` counts `v` per point. */
  lemma {:induction false} BlockedConstant(flags: seq<nat>, start: nat, count: nat, v: nat)
    requires start + count <= |flags|
    ensures (forall k :: start <= k < start + count ==> flags[k] == v) ==> Blocked(flags, start, count) == v * count
  {
    if count > 0 {
      BlockedConstant(flags, start, count - 1, v);
      assert v * count == v * (count - 1) + v;
    }
  }

  // ---------------------------------------------------------------------------
  // Face and pixel reports

  /** The colour factor `max(avg - min, 0) / (max - min)` handed to the
      colour interpolation, in IEEE arithmetic. `Mathf.Max` of a value that
      is not a number returns 0; equal thresholds divide by zero, which
      gives `+inf` for a positive numerator and NaN for zero. */
  function ColourFactor(avg: Option<real>, lo: real, hi: real): Ext {
    var num := match avg
      case Some(a) => UnityMax(a - lo, 0.0)
      case None => 0.0;
    Quot(num, hi - lo)
  }

  /** The factor is clamped from below only: never negative for ordered
      thresholds, zero up to the lower threshold, and above 1 past the upper
      one (the colour interpolation clamps it later). */
  lemma ColourFactorRange(a: real, lo: real, hi: real)
    requires lo < hi
    ensures ColourFactor(Some(a), lo, hi).Fin? && ColourFactor(Some(a), lo, hi).v >= 0.0
    ensures a <= lo ==> ColourFactor(Some(a), lo, hi).v == 0.0
    ensures ColourFactor(Some(a), lo, hi).v > 1.0 <==> a > hi
  {
    if a > lo {
      var f := (a - lo) / (hi - lo);
      assert ColourFactor(Some(a), lo, hi).v == f;
      assert (f - 1.0) * (hi - lo) == a - hi;
      SignOfProduct(f - 1.0, hi - lo, a - hi);
    } else {
      assert 0.0 / (hi - lo) == 0.0;
    }
  }

  /** With equal thresholds the factor is `+inf` exactly when the average
      exceeds the threshold, so the interpolation paints the free colour, and
      NaN otherwise, including for a face whose average is not a number.
      With distinct thresholds a face without an average gets 0. */
  lemma ColourFactorDegenerate(avg: Option<real>, lo: real, hi: real)
    ensures lo == hi ==> (ColourFactor(avg, lo, hi) == PosInf <==> avg.Some? && avg.value > lo)
    ensures lo == hi ==> (ColourFactor(avg, lo, hi).NaN? <==> avg.None? || avg.value <= lo)
    ensures lo != hi && avg.None? ==> ColourFactor(avg, lo, hi) == Fin(0.0)
  {
  }

  /** A product with a positive factor has the other factor's sign. */
  lemma SignOfProduct(x: real, y: real, p: real)
    requires y > 0.0 && p == x * y
    ensures p > 0.0 <==> x > 0.0
  {
    if x > 0.0 {
      assert x * y > 0.0;
    } else {
      assert x * y <= 0.0;
    }
  }

  datatype Pixel = Pixel(irradiance: real, colour: Ext)

  /** One face's line of output: its point range, average total, direct
      and diffuse irradiance (not numbers when the face has no points), its
      colour factor, and for a wall the texture name key `start + f` and,
      when the wall has a grid, the texture. */
  datatype FaceReport = FaceReport(start: nat, count: nat, irradiance: Option<real>, direct: Option<real>,
                                   diffuse: real, colour: Ext, key: Option<nat>,
                                   texture: Option<seq<seq<Pixel>>>)

  /** The irradiance of point `k` of the face, hour `h`. */
  function PointAt(inp: Inputs, n: nat, face: Face, k: nat, h: nat): real
    requires InputsOk(inp, n) && k < n && h < NumHours
  {
    var w := WeatherAt(inp, n, h);
    (1 - inp.results[h][k] as int) as real * w.dirNI * CosTheta(face.normal, inp.sun[h])
      + Diffuse(w, face.tilt) + Reflected(w, face.tilt)
  }

  function PointSum(inp: Inputs, n: nat, face: Face, k: nat, hours: nat): real
    requires InputsOk(inp, n) && k < n && hours <= NumHours
  {
    if hours == 0 then 0.0 else PointSum(inp, n, face, k, hours - 1) + PointAt(inp, n, face, k, hours - 1)
  }

  function PixelOf(inp: Inputs, n: nat, face: Face, k: nat): Pixel
    requires InputsOk(inp, n) && k < n
  {
    var avg := PointSum(inp, n, face, k, NumHours) / NumHours as real;
    Pixel(avg, ColourFactor(Some(avg), inp.minThreshold, inp.maxThreshold))
  }

  /** Pixel `(i, j)` of a grid of height `count / width` lies inside the
      face's points. */
  lemma PixelInFace(count: nat, width: nat, i: nat, j: nat)
    requires width > 0 && i < width && j < count / width
    ensures RectIndex(count / width, i, j) < count
  {
    var h := count / width;
    assert RectIndex(h, i, j) < (i + 1) * h by {
      assert (i + 1) * h == i * h + h;
    }
    assert (i + 1) * h <= width * h by {
      MulMonotone(i + 1, width, h);
    }
    assert width * h <= count;
  }

  lemma MulMonotone(a: nat, b: nat, c: nat)
    requires a <= b
    ensures a * c <= b * c
  {
    assert b * c == a * c + (b - a) * c;
  }

  /** The wall texture: pixel `(i, j)` shows point `start + i*height + j`,
      with `height = count / width`. */
  function Texture(inp: Inputs, n: nat, face: Face, width: nat): (t: seq<seq<Pixel>>)
    requires InputsOk(inp, n) && FaceIn(face, n) && width > 0
  {
    var height := face.count / width;
    seq(width, i requires 0 <= i < width =>
      seq(height, j requires 0 <= j < height =>
        PixelInFace(face.count, width, i, j);
        PixelOf(inp, n, face, face.start + RectIndex(height, i, j))))
  }

  /** The face's average total irradiance over the daylight hours. */
  function FaceTotal(inp: Inputs, n: nat, face: Face): Option<real>
    requires InputsOk(inp, n) && FaceIn(face, n)
  {
    if face.count == 0 then None
    else Some((DirectSum(inp, n, face, NumHours) + DiffuseSum(inp, n, face.tilt, NumHours)
               + ReflectedSum(inp, n, face.tilt, NumHours)) / NumHours as real)
  }

  function FaceDirect(inp: Inputs, n: nat, face: Face): Option<real>
    requires InputsOk(inp, n) && FaceIn(face, n)
  {
    if face.count == 0 then None else Some(DirectSum(inp, n, face, NumHours) / NumHours as real)
  }

  function FaceDiffuse(inp: Inputs, n: nat, face: Face): real
    requires InputsOk(inp, n)
  {
    DiffuseSum(inp, n, face.tilt, NumHours) / NumHours as real
  }

  /** The report of face `f`; `wall` is the grid width of a wall and `None`
      for the roof. */
  function Report(inp: Inputs, n: nat, face: Face, f: nat, wall: Option<nat>): FaceReport
    requires InputsOk(inp, n) && FaceIn(face, n)
  {
    var total := FaceTotal(inp, n, face);
    var texture := match wall
      case None => None
      case Some(w) => if w == 0 then None else Some(Texture(inp, n, face, w));
    FaceReport(face.start, face.count, total, FaceDirect(inp, n, face), FaceDiffuse(inp, n, face),
               ColourFactor(total, inp.minThreshold, inp.maxThreshold),
               if wall.None? then None else Some(face.start + f), texture)
  }

  /** How many faces of a record are reported: all of them, unless a wall
      has no grid, in which case the walk reports that wall and stops. */
  function Shown(m: Meta, f: nat): nat
    requires MetaShape(m) && f <= |m.counts|
    decreases |m.counts| - f
  {
    if f == |m.counts| then f
    else if f > 0 && m.widths[f - 1] == 0 then f + 1
    else Shown(m, f + 1)
  }

  /** From face `f` on, the walk reports every face up to and including the
      first wall without a grid, and all faces when there is none. */
  lemma {:induction false} ShownFrom(m: Meta, f: nat)
    requires MetaShape(m) && f <= |m.counts|
    ensures f <= Shown(m, f) <= |m.counts|
    ensures forall w: nat :: f <= w + 1 && w + 2 < Shown(m, f) ==> m.widths[w] != 0
    ensures Shown(m, f) < |m.counts| ==> 0 < Shown(m, f) - 1 && m.widths[Shown(m, f) - 2] == 0
    ensures (forall w: nat :: f <= w + 1 < |m.counts| ==> m.widths[w] != 0) ==> Shown(m, f) == |m.counts|
    decreases |m.counts| - f
  {
    if f < |m.counts| && !(f > 0 && m.widths[f - 1] == 0) {
      ShownFrom(m, f + 1);
    }
  }

  /** The face of record `b` at index `f`: its point range, tilt factor and
      normal (up for the roof). */
  function FaceOf(meta: seq<Meta>, n: nat, b: nat, f: nat): (face: Face)
    requires Consistent(meta, n) && b < |meta| && f < |meta[b].counts|
    ensures FaceIn(face, n)
  {
    FacesTile(meta, n, b, f);
    assert BuildingOk(meta, b, n);
    var m := meta[b];
    Face(FaceStart(meta, b, f), m.counts[f], TiltFactor(m.vertical[f]), if f == 0 then Up else m.normals[f - 1])
  }

  function ReportOf(inp: Inputs, n: nat, meta: seq<Meta>, b: nat, f: nat): FaceReport
    requires InputsOk(inp, n) && Consistent(meta, n) && b < |meta| && f < |meta[b].counts|
  {
    assert BuildingOk(meta, b, n);
    Report(inp, n, FaceOf(meta, n, b, f), f, if f == 0 then None else Some(meta[b].widths[f - 1]))
  }

  /** The reports of building `b`. */
  function BuildingReports(inp: Inputs, n: nat, meta: seq<Meta>, b: nat): seq<FaceReport>
    requires InputsOk(inp, n) && Consistent(meta, n) && b < |meta|
  {
    assert BuildingOk(meta, b, n);
    ShownFrom(meta[b], 0);
    seq(Shown(meta[b], 0), f requires 0 <= f < Shown(meta[b], 0) => ReportOf(inp, n, meta, b, f))
  }

  /** A wall sampled on a full `width` by `height` grid gets a texture of
      exactly that size, and pixel `(i, j)` shows grid point `(i, j)`: the
      point the wall sampler stored at `RectIndex(height, i, j)`. */
  lemma TextureShowsGrid(inp: Inputs, n: nat, face: Face, width: nat, height: nat, i: nat, j: nat)
    requires InputsOk(inp, n) && FaceIn(face, n) && 0 < width && face.count == width * height
    requires i < width && j < height
    ensures |Texture(inp, n, face, width)| == width
    ensures |Texture(inp, n, face, width)[i]| == height
    ensures RectIndex(height, i, j) < face.count
            && Texture(inp, n, face, width)[i][j] == PixelOf(inp, n, face, face.start + RectIndex(height, i, j))
  {
    assert face.count / width == height by {
      RectRows(width, height);
    }
    PixelInFace(face.count, width, i, j);
  }

  /** The irradiance totals of the first `c` points of the face over the
      first `hours` hours. */
  function PointsTotal(inp: Inputs, n: nat, face: Face, c: nat, hours: nat): real
    requires InputsOk(inp, n) && FaceIn(face, n) && c <= face.count && hours <= NumHours
  {
    if c == 0 then 0.0 else PointsTotal(inp, n, face, c - 1, hours) + PointSum(inp, n, face, face.start + c - 1, hours)
  }

  /** The irradiance of the first `c` points of the face in hour `h`. */
  function HourPoints(inp: Inputs, n: nat, face: Face, c: nat, h: nat): real
    requires InputsOk(inp, n) && FaceIn(face, n) && c <= face.count && h < NumHours
  {
    if c == 0 then 0.0 else HourPoints(inp, n, face, c - 1, h) + PointAt(inp, n, face, face.start + c - 1, h)
  }

  lemma {:induction false} PointsTotalNoHours(inp: Inputs, n: nat, face: Face, c: nat)
    requires InputsOk(inp, n) && FaceIn(face, n) && c <= face.count
    ensures PointsTotal(inp, n, face, c, 0) == 0.0
  {
    if c > 0 {
      PointsTotalNoHours(inp, n, face, c - 1);
    }
  }

  /** One more hour adds that hour's irradiance of every point. */
  lemma {:induction false} PointsTotalHour(inp: Inputs, n: nat, face: Face, c: nat, hours: nat)
    requires InputsOk(inp, n) && FaceIn(face, n) && c <= face.count && 0 < hours <= NumHours
    ensures PointsTotal(inp, n, face, c, hours)
            == PointsTotal(inp, n, face, c, hours - 1) + HourPoints(inp, n, face, c, hours - 1)
  {
    if c > 0 {
      PointsTotalHour(inp, n, face, c - 1, hours);
    }
  }

  /** In one hour, the points of a face together receive the direct light of
      their unblocked points plus the diffuse and reflected light of all. */
  lemma {:induction false} HourPointsSplit(inp: Inputs, n: nat, face: Face, c: nat, h: nat)
    requires InputsOk(inp, n) && FaceIn(face, n) && c <= face.count && h < NumHours
    ensures HourPoints(inp, n, face, c, h)
            == (c - Blocked(inp.results[h], face.start, c) as int) as real * ClearAt(inp, n, face, h)
               + c as real * (Diffuse(WeatherAt(inp, n, h), face.tilt) + Reflected(WeatherAt(inp, n, h), face.tilt))
  {
    if c > 0 {
      HourPointsSplit(inp, n, face, c - 1, h);
      var w := WeatherAt(inp, n, h);
      var k := face.start + c - 1;
      var flag := inp.results[h][k];
      var clear := ClearAt(inp, n, face, h);
      var other := Diffuse(w, face.tilt) + Reflected(w, face.tilt);
      var blocked := Blocked(inp.results[h], face.start, c - 1);
      assert Blocked(inp.results[h], face.start, c) == blocked + flag;
      assert PointAt(inp, n, face, k, h) == (1 - flag as int) as real * clear + other;
      var x := (c - 1 - blocked as int) as real;
      var y := (1 - flag as int) as real;
      assert x * clear + y * clear == (x + y) * clear;
      assert (c - 1) as real * other + other == c as real * other;
    }
  }

  /** The face's total irradiance in hour `h`. */
  function FaceHour(inp: Inputs, n: nat, face: Face, h: nat): real
    requires InputsOk(inp, n) && FaceIn(face, n) && face.count > 0 && h < NumHours
  {
    DirectAt(inp, n, face, h) + Diffuse(WeatherAt(inp, n, h), face.tilt) + Reflected(WeatherAt(inp, n, h), face.tilt)
  }

  function FaceSum(inp: Inputs, n: nat, face: Face, hours: nat): real
    requires InputsOk(inp, n) && FaceIn(face, n) && face.count > 0 && hours <= NumHours
  {
    if hours == 0 then 0.0 else FaceSum(inp, n, face, hours - 1) + FaceHour(inp, n, face, hours - 1)
  }

  lemma {:induction false} FaceSumSplit(inp: Inputs, n: nat, face: Face, hours: nat)
    requires InputsOk(inp, n) && FaceIn(face, n) && face.count > 0 && hours <= NumHours
    ensures FaceSum(inp, n, face, hours)
            == DirectSum(inp, n, face, hours) + DiffuseSum(inp, n, face.tilt, hours) + ReflectedSum(inp, n, face.tilt, hours)
  {
    if hours > 0 {
      FaceSumSplit(inp, n, face, hours - 1);
    }
  }

  /** `x` added up `c` times. */
  function Times(c: nat, x: real): real {
    if c == 0 then 0.0 else Times(c - 1, x) + x
  }

  lemma {:induction false} TimesIsProduct(c: nat, x: real)
    ensures Times(c, x) == c as real * x
  {
    if c > 0 {
      TimesIsProduct(c - 1, x);
      assert (c - 1) as real * x + x == c as real * x;
    }
  }

  lemma {:induction false} TimesAdd(c: nat, x: real, y: real)
    ensures Times(c, x) + Times(c, y) == Times(c, x + y)
  {
    if c > 0 {
      TimesAdd(c - 1, x, y);
    }
  }

  /** All points of a face in one hour receive `count` times the face's
      figure for that hour. */
  lemma HourPointsFace(inp: Inputs, n: nat, face: Face, h: nat)
    requires InputsOk(inp, n) && FaceIn(face, n) && 0 < face.count && h < NumHours
    ensures HourPoints(inp, n, face, face.count, h) == Times(face.count, FaceHour(inp, n, face, h))
  {
    HourPointsSplit(inp, n, face, face.count, h);
    TimesIsProduct(face.count, FaceHour(inp, n, face, h));
    var w := WeatherAt(inp, n, h);
    var c := face.count as real;
    var b := Blocked(inp.results[h], face.start, face.count) as real;
    var d := w.dirNI;
    var cos := CosTheta(face.normal, inp.sun[h]);
    var other := Diffuse(w, face.tilt) + Reflected(w, face.tilt);
    assert DirectAt(inp, n, face, h) == d * (1.0 - b / c) * cos;
    assert c * (d * (1.0 - b / c) * cos) == (c - b) * (d * cos) by {
      assert c * (1.0 - b / c) == c - b;
    }
    assert c * (d * (1.0 - b / c) * cos + other) == c * (d * (1.0 - b / c) * cos) + c * other;
  }

  /** Summed over the hours, the points of a face receive `count` times
      the face's total. */
  lemma {:induction false} FaceIsMeanOfPoints(inp: Inputs, n: nat, face: Face, hours: nat)
    requires InputsOk(inp, n) && FaceIn(face, n) && 0 < face.count && hours <= NumHours
    ensures PointsTotal(inp, n, face, face.count, hours) == Times(face.count, FaceSum(inp, n, face, hours))
  {
    if hours == 0 {
      PointsTotalNoHours(inp, n, face, face.count);
      TimesIsProduct(face.count, 0.0);
    } else {
      var h := hours - 1;
      PointsTotalHour(inp, n, face, face.count, hours);
      FaceIsMeanOfPoints(inp, n, face, h);
      HourPointsFace(inp, n, face, h);
      TimesAdd(face.count, FaceSum(inp, n, face, h), FaceHour(inp, n, face, h));
    }
  }

  /** The average of the face's pixels equals the face's average: the
      face figure is the mean of the point figures. */
  lemma FaceTotalIsPixelMean(inp: Inputs, n: nat, face: Face)
    requires InputsOk(inp, n) && FaceIn(face, n) && 0 < face.count
    ensures FaceTotal(inp, n, face).Some?
    ensures FaceTotal(inp, n, face).value
            == PointsTotal(inp, n, face, face.count, NumHours) / face.count as real / NumHours as real
  {
    FaceIsMeanOfPoints(inp, n, face, NumHours);
    FaceSumSplit(inp, n, face, NumHours);
    var s := FaceSum(inp, n, face, NumHours);
    TimesIsProduct(face.count, s);
    assert face.count as real * s / face.count as real == s;
  }

  /** The reports of a building follow its faces: the first starts the
      building, each starts where the previous one ended, all stay inside the
      building's range, and every wall, and only a wall, carries the texture
      name key `start + f`. */
  lemma BuildingReportsTile(inp: Inputs, n: nat, meta: seq<Meta>, b: nat, f: nat)
    requires InputsOk(inp, n) && Consistent(meta, n) && b < |meta|
    requires f < |BuildingReports(inp, n, meta, b)|
    ensures var r := BuildingReports(inp, n, meta, b);
            && r[0].start == BuildingStart(meta, b)
            && (f + 1 < |r| ==> r[f + 1].start == r[f].start + r[f].count)
            && r[f].start + r[f].count <= meta[b].limit
            && (r[f].key.Some? <==> 0 < f)
            && (0 < f ==> r[f].key.value == r[f].start + f)
  {
    assert BuildingOk(meta, b, n);
    ShownFrom(meta[b], 0);
    FacesTile(meta, n, b, f);
    FacesTile(meta, n, b, 0);
  }

  /** Within a building, later walls get larger texture keys, so no two
      walls of a building write the same texture file. */
  lemma WallKeysIncrease(inp: Inputs, n: nat, meta: seq<Meta>, b: nat, f: nat, g: nat)
    requires InputsOk(inp, n) && Consistent(meta, n) && b < |meta|
    requires 0 < f < g < |BuildingReports(inp, n, meta, b)|
    ensures var r := BuildingReports(inp, n, meta, b);
            r[f].key.Some? && r[g].key.Some? && r[f].key.value < r[g].key.value
  {
    assert BuildingOk(meta, b, n);
    ShownFrom(meta[b], 0);
    SumCountsMonotone(meta[b].counts, f, g);
  }

  /** A run of the occlusion pass on a single point that reports `flag`
      in every hour. */
  function OnePointRun(flag: nat): (r: seq<seq<nat>>)
    ensures |r| == NumHours && forall h :: 0 <= h < NumHours ==> r[h] == [flag]
  {
    seq(NumHours, h => [flag])
  }

  /** A run of the occlusion pass on `count` points that reports `flag`
      for every point in every hour. */
  function PointsRun(count: nat, flag: nat): (r: seq<seq<nat>>)
    ensures |r| == NumHours
    ensures forall h, k :: 0 <= h < NumHours && 0 <= k < count ==> |r[h]| == count && r[h][k] == flag
  {
    seq(NumHours, h => seq(count, k => flag))
  }

  /** A sky with the sun straight overhead all day and unit direct
      irradiance all year. */
  function Overhead(results: seq<seq<nat>>): (inp: Inputs)
    ensures |inp.sun| == NumHours && forall h :: 0 <= h < NumHours ==> inp.sun[h] == Down
    ensures |inp.weather| == HoursPerYear
    ensures forall h :: 0 <= h < HoursPerYear ==> inp.weather[h] == Weather(1.0, 0.0, 0.0)
    ensures inp.results == results && inp.day == 0
  {
    Inputs(results, seq(NumHours, h => Down), seq(HoursPerYear, h => Weather(1.0, 0.0, 0.0)), 0, 0.0, 1.0)
  }

  const Down: Vec3 := Vec3(0.0, -1.0, 0.0)

  lemma {:induction false} ClearSumConstant(inp: Inputs, n: nat, face: Face, hours: nat, c: real)
    requires InputsOk(inp, n) && hours <= NumHours
    requires forall h :: 0 <= h < hours ==> ClearAt(inp, n, face, h) == c
    ensures ClearSum(inp, n, face, hours) == hours as real * c
  {
    if hours > 0 {
      ClearSumConstant(inp, n, face, hours - 1, c);
    }
  }

  /** Running the obstruction pass twice and then aggregating, as the
      editor button does when pressed twice: the result list holds the first
      run's twelve hours in front, and the aggregator reads those. A roof
      with one point, blocked in the first run and free in the second, is
      reported with no direct light in any hour although the latest run
      leaves it in full sun every hour. */
  lemma StaleFlagsAfterRerun()
    ensures InputsOk(Overhead([] + OnePointRun(1) + OnePointRun(0)), 1)
    ensures InputsOk(Overhead(OnePointRun(0)), 1)
    ensures DirectSum(Overhead([] + OnePointRun(1) + OnePointRun(0)), 1, OnePointRoof, NumHours) == 0.0
    ensures DirectSum(Overhead(OnePointRun(0)), 1, OnePointRoof, NumHours) == NumHours as real
  {
    StaleSkyBlocked();
    LatestSkyFree();
  }

  /** The same after the scene shrank between the runs: the first run
      covered two points and reported them blocked, the rerun covers one
      point and reports it free. The first run's arrays are longer than
      the new point count, the aggregator accepts them all the same, and
      the roof still gets no direct light. */
  lemma StaleFlagsAfterSmallerRerun()
    ensures InputsOk(Overhead([] + PointsRun(2, 1) + OnePointRun(0)), 1)
    ensures |Overhead([] + PointsRun(2, 1) + OnePointRun(0)).results[0]| == 2
    ensures DirectSum(Overhead([] + PointsRun(2, 1) + OnePointRun(0)), 1, OnePointRoof, NumHours) == 0.0
  {
    var stale := Overhead([] + PointsRun(2, 1) + OnePointRun(0));
    assert forall h :: 0 <= h < NumHours ==> stale.results[h] == PointsRun(2, 1)[h];
    assert InputsOk(stale, 1);
    assert FaceFlagged(stale, 1, OnePointRoof, 1);
    FullyBlocked(stale, 1, OnePointRoof, NumHours);
  }

  lemma StaleSkyBlocked()
    ensures InputsOk(Overhead([] + OnePointRun(1) + OnePointRun(0)), 1)
    ensures DirectSum(Overhead([] + OnePointRun(1) + OnePointRun(0)), 1, OnePointRoof, NumHours) == 0.0
  {
    var stale := Overhead([] + OnePointRun(1) + OnePointRun(0));
    assert InputsOk(stale, 1);
    assert FaceFlagged(stale, 1, OnePointRoof, 1) by {
      forall h | 0 <= h < NumHours
        ensures stale.results[h] == [1]
      {
        assert stale.results[h] == OnePointRun(1)[h];
      }
    }
    FullyBlocked(stale, 1, OnePointRoof, NumHours);
  }

  lemma LatestSkyFree()
    ensures InputsOk(Overhead(OnePointRun(0)), 1)
    ensures DirectSum(Overhead(OnePointRun(0)), 1, OnePointRoof, NumHours) == NumHours as real
  {
    var latest := Overhead(OnePointRun(0));
    assert InputsOk(latest, 1);
    assert FaceFlagged(latest, 1, OnePointRoof, 0);
    FullyFree(latest, 1, OnePointRoof, NumHours);
    OverheadClear(OnePointRun(0));
  }

  /** Under the overhead sky a horizontal face would get unit direct
      irradiance every hour. */
  lemma OverheadClear(results: seq<seq<nat>>)
    requires InputsOk(Overhead(results), 1)
    ensures ClearSum(Overhead(results), 1, OnePointRoof, NumHours) == NumHours as real
  {
    forall h | 0 <= h < NumHours
      ensures ClearAt(Overhead(results), 1, OnePointRoof, h) == 1.0
    {
      OverheadClearAt(results, h);
    }
    ClearSumConstant(Overhead(results), 1, OnePointRoof, NumHours, 1.0);
  }

  lemma OverheadClearAt(results: seq<seq<nat>>, h: nat)
    requires InputsOk(Overhead(results), 1) && h < NumHours
    ensures ClearAt(Overhead(results), 1, OnePointRoof, h) == 1.0
  {
    var inp := Overhead(results);
    OverheadSunUp();
    assert inp.day == 0;
    assert HourOfYear(inp.day, h) == StartHour + h;
    OverheadWeather(results, StartHour + h);
    assert WeatherAt(inp, 1, h).dirNI == 1.0;
    assert inp.sun[h] == Down;
  }

  /** Every record of the overhead sky's weather year has unit direct
      irradiance. */
  lemma OverheadWeather(results: seq<seq<nat>>, t: nat)
    requires t < HoursPerYear
    ensures t < |Overhead(results).weather| && Overhead(results).weather[t].dirNI == 1.0
  {
  }

  /** A horizontal face looks straight into a sun overhead. */
  lemma OverheadSunUp()
    ensures CosTheta(Up, Down) == 1.0
  {
    assert Neg(Down) == Up;
    assert Dot(Up, Up) == 1.0;
  }

  /** A horizontal roof holding point 0 alone. */
  const OnePointRoof: Face := Face(0, 1, 1, Up)

  // ---------------------------------------------------------------------------
  // The aggregation loops

  /** `numObstructions`: the flags of a face's points in one hour, summed. */
  method CountObstructions(flags: seq<nat>, start: nat, count: nat) returns (blocked: nat)
    requires start + count <= |flags|
    ensures blocked == Blocked(flags, start, count)
  {
    blocked := 0;
    var k := start;
    while k < start + count
      invariant start <= k <= start + count
      invariant blocked == Blocked(flags, start, k - start)
    {
      blocked := blocked + flags[k];
      k := k + 1;
    }
  }

  /** The hour loop over one face: average total, direct and diffuse
      irradiance. On a face without points the shadow fraction, and with
      it the direct and total figures, are not numbers. */
  method FaceHours(inp: Inputs, n: nat, face: Face) returns (total: Option<real>, direct: Option<real>, diffuse: real)
    requires InputsOk(inp, n) && FaceIn(face, n)
    ensures total == FaceTotal(inp, n, face) && direct == FaceDirect(inp, n, face)
    ensures diffuse == FaceDiffuse(inp, n, face)
  {
    var sumTotal, sumDirect, sumDiffuse := 0.0, 0.0, 0.0;
    var hour := 0;
    while hour < NumHours
      invariant hour <= NumHours
      invariant sumDiffuse == DiffuseSum(inp, n, face.tilt, hour)
      invariant face.count > 0 ==> sumDirect == DirectSum(inp, n, face, hour)
      invariant face.count > 0 ==>
        sumTotal == DirectSum(inp, n, face, hour) + DiffuseSum(inp, n, face.tilt, hour) + ReflectedSum(inp, n, face.tilt, hour)
    {
      var eDirect, eDiffuse, eReflected := HourFigures(inp, n, face, hour);
      if eDirect.Some? {
        sumTotal := sumTotal + (eDirect.value + eDiffuse + eReflected);
        sumDirect := sumDirect + eDirect.value;
      }
      sumDiffuse := sumDiffuse + eDiffuse;
      hour := hour + 1;
    }
    var hours := NumHours as real;
    total := if face.count == 0 then None else Some(sumTotal / hours);
    direct := if face.count == 0 then None else Some(sumDirect / hours);
    diffuse := sumDiffuse / hours;
  }

  /** One hour of the face loop: the obstructions counted, the shadow
      fraction taken (not a number on a face without points), and the
      direct, diffuse and reflected irradiance. */
  method HourFigures(inp: Inputs, n: nat, face: Face, hour: nat) returns (eDirect: Option<real>, eDiffuse: real, eReflected: real)
    requires InputsOk(inp, n) && FaceIn(face, n) && hour < NumHours
    ensures eDirect.Some? <==> face.count > 0
    ensures face.count > 0 ==> eDirect.value == DirectAt(inp, n, face, hour)
    ensures eDiffuse == Diffuse(WeatherAt(inp, n, hour), face.tilt)
    ensures eReflected == Reflected(WeatherAt(inp, n, hour), face.tilt)
  {
    var blocked := CountObstructions(inp.results[hour], face.start, face.count);
    var w := inp.weather[HourOfYear(inp.day, hour)];
    var cosTheta := UnityMax(0.0, Dot(face.normal, Neg(inp.sun[hour])));
    eDiffuse := w.difHI * (1 + face.tilt) as real / 2.0;
    eReflected := w.globHI * 0.2 * (1 - face.tilt as int) as real / 2.0;
    match ShadowFraction(blocked, face.count) {
      case Some(sf) =>
        eDirect := Some(w.dirNI * (1.0 - sf) * cosTheta);
      case None =>
        eDirect := None;
    }
  }

  /** The hour loop over one point of a wall. */
  method PointHours(inp: Inputs, n: nat, face: Face, k: nat) returns (p: Pixel)
    requires InputsOk(inp, n) && k < n
    ensures p == PixelOf(inp, n, face, k)
  {
    var sum := 0.0;
    var hour := 0;
    while hour < NumHours
      invariant hour <= NumHours && sum == PointSum(inp, n, face, k, hour)
    {
      var w := inp.weather[HourOfYear(inp.day, hour)];
      var cosTheta := UnityMax(0.0, Dot(face.normal, Neg(inp.sun[hour])));
      var eDiffuse := w.difHI * (1 + face.tilt) as real / 2.0;
      var eReflected := w.globHI * 0.2 * (1 - face.tilt as int) as real / 2.0;
      sum := sum + ((1 - inp.results[hour][k] as int) as real * w.dirNI * cosTheta + eDiffuse + eReflected);
      hour := hour + 1;
    }
    var avg := sum / NumHours as real;
    p := Pixel(avg, ColourFactor(Some(avg), inp.minThreshold, inp.maxThreshold));
  }

  /** Column `i` of a wall texture, read from the running point index
      `p0`. */
  method TextureColumn(inp: Inputs, n: nat, face: Face, width: nat, height: nat, i: nat, p0: nat)
    returns (column: seq<Pixel>)
    requires InputsOk(inp, n) && FaceIn(face, n) && 0 < width && i < width && height == face.count / width
    requires p0 == face.start + RectIndex(height, i, 0)
    ensures column == Texture(inp, n, face, width)[i]
  {
    column := [];
    var j := 0;
    while j < height
      invariant j <= height && |column| == j
      invariant forall j' :: 0 <= j' < j ==> column[j'] == Texture(inp, n, face, width)[i][j']
    {
      PixelInFace(face.count, width, i, j);
      assert p0 + j == face.start + RectIndex(height, i, j);
      var pixel := PointHours(inp, n, face, p0 + j);
      column := column + [pixel];
      j := j + 1;
    }
  }

  /** The texture of a wall with a grid: `width` columns of
      `count / width` pixels, the running point index advancing pixel by
      pixel. */
  method WallTexture(inp: Inputs, n: nat, face: Face, width: nat) returns (texture: seq<seq<Pixel>>)
    requires InputsOk(inp, n) && FaceIn(face, n) && 0 < width
    ensures texture == Texture(inp, n, face, width)
  {
    var height := face.count / width;
    texture := [];
    var pIndex := face.start;
    var i := 0;
    while i < width
      invariant i <= width && |texture| == i
      invariant pIndex == face.start + RectIndex(height, i, 0)
      invariant forall i' :: 0 <= i' < i ==> texture[i'] == Texture(inp, n, face, width)[i']
    {
      var column := TextureColumn(inp, n, face, width, height, i, pIndex);
      texture := texture + [column];
      pIndex := pIndex + height;
      i := i + 1;
    }
  }

  /** The face loop of one building: the reports of its faces, up to and
      including the first wall without a grid. */
  method BuildingFaces(inp: Inputs, n: nat, meta: seq<Meta>, b: nat) returns (reports: seq<FaceReport>)
    requires InputsOk(inp, n) && Consistent(meta, n) && b < |meta|
    ensures reports == BuildingReports(inp, n, meta, b)
  {
    assert BuildingOk(meta, b, n);
    var m := meta[b];
    ShownFrom(m, 0);
    reports := [];
    var current := BuildingStart(meta, b);
    var f := 0;
    while f < |m.counts|
      invariant f <= |m.counts| && |reports| == f && current == FaceStart(meta, b, f)
      invariant Shown(m, 0) == Shown(m, f)
      invariant forall g :: 0 <= g < f ==> reports[g] == ReportOf(inp, n, meta, b, g)
    {
      FacesTile(meta, n, b, f);
      var face := Face(current, m.counts[f], TiltFactor(m.vertical[f]), if f == 0 then Up else m.normals[f - 1]);
      assert face == FaceOf(meta, n, b, f);
      var total, direct, diffuse := FaceHours(inp, n, face);
      var colour := ColourFactor(total, inp.minThreshold, inp.maxThreshold);
      if f == 0 {
        reports := reports + [FaceReport(current, m.counts[f], total, direct, diffuse, colour, None, None)];
      } else {
        var width := m.widths[f - 1];
        if width == 0 {
          reports := reports + [FaceReport(current, m.counts[f], total, direct, diffuse, colour, Some(current + f), None)];
          break;
        }
        var texture := WallTexture(inp, n, face, width);
        reports := reports + [FaceReport(current, m.counts[f], total, direct, diffuse, colour, Some(current + f), Some(texture))];
      }
      current := current + m.counts[f];
      f := f + 1;
    }
  }

  /** `CalculatePerFaceBIPV`: nothing when fewer than twelve hours of
      results, no records, no points or no weather are loaded; otherwise the
      reports of every building in order. */
  method CalculatePerFaceBIPV(meta: seq<Meta>, n: nat, results: seq<seq<nat>>, sun: seq<Vec3>,
                              weather: Option<seq<Weather>>, day: nat, minThreshold: real, maxThreshold: real)
    returns (out: Option<seq<seq<FaceReport>>>)
    requires Consistent(meta, n)
    requires weather.Some? ==> |weather.value| > HourOfYear(day, NumHours - 1)
    requires |results| >= NumHours ==> |sun| >= NumHours && forall h :: 0 <= h < NumHours ==> |results[h]| >= n
    ensures out.None? <==> |results| < NumHours || |meta| == 0 || n == 0 || weather.None?
    ensures out.Some? ==> |out.value| == |meta|
    ensures out.Some? ==> forall b :: 0 <= b < |meta| ==>
      out.value[b] == BuildingReports(Inputs(results, sun, weather.value, day, minThreshold, maxThreshold), n, meta, b)
  {
    if |results| < NumHours || |meta| == 0 || n == 0 || weather.None? {
      return None;
    }
    var inp := Inputs(results, sun, weather.value, day, minThreshold, maxThreshold);
    var all := [];
    var b := 0;
    while b < |meta|
      invariant b <= |meta| && |all| == b
      invariant forall b' :: 0 <= b' < b ==> all[b'] == BuildingReports(inp, n, meta, b')
    {
      var reports := BuildingFaces(inp, n, meta, b);
      all := all + [reports];
      b := b + 1;
    }
    out := Some(all);
  }
}

=== FILE: bvh.dfy ===
/** `BVH`: the tree object. It reads the triangle index buffer, allocates
    `2^depth` node slots, builds the tree from the root by midpoint splits,
    merges the meshes of a scene into one buffer, and answers closest-hit ray
    queries with an explicit stack of node slots. */
module BVH {
  import opened Geometry
  import opened Heap
  import opened BVHBox
  import BVHTriangle
  import opened BVHNode

  type Tri = BVHTriangle.Tri

  /** `vertices`, `nodes`, `triangles`, `depth`. A C# `null` slot is `None`. */
  datatype Bvh = Bvh(vertices: seq<Vec3>, nodes: seq<Option<Node>>, triangles: seq<Tri>, depth: nat)

  // ---------------------------------------------------------------------------
  // Index buffer

  /** The triangles of an index buffer read three indices at a time. */
  function Group(idx: seq<nat>): (r: seq<Tri>)
    decreases |idx|
  {
    if |idx| < 3 then [] else [BVHTriangle.Tri(idx[0], idx[1], idx[2])] + Group(idx[3..])
  }

  /** The index buffer of a triangle list. */
  function Flatten(ts: seq<Tri>): (r: seq<nat>)
    ensures |r| == 3 * |ts|
  {
    if |ts| == 0 then [] else [ts[0].a, ts[0].b, ts[0].c] + Flatten(ts[1..])
  }

  /** Triangle `k` of `Group(idx)` is made of indices `3k`, `3k+1`, `3k+2`. */
  lemma {:induction false} GroupAt(idx: seq<nat>)
    ensures |Group(idx)| == |idx| / 3
    ensures forall k :: 0 <= k < |Group(idx)| ==>
              Group(idx)[k] == BVHTriangle.Tri(idx[3 * k], idx[3 * k + 1], idx[3 * k + 2])
    decreases |idx|
  {
    if |idx| >= 3 {
      GroupAt(idx[3..]);
      var g := Group(idx);
      forall k | 1 <= k < |g|
        ensures g[k] == BVHTriangle.Tri(idx[3 * k], idx[3 * k + 1], idx[3 * k + 2])
      {
        assert g[k] == Group(idx[3..])[k - 1];
        assert idx[3..][3 * (k - 1)] == idx[3 * k];
      }
    }
  }

  /** Reading a buffer whose length is a multiple of three and writing it
      back gives the same buffer. */
  lemma {:induction false} FlattenGroup(idx: seq<nat>)
    requires |idx| % 3 == 0
    ensures Flatten(Group(idx)) == idx
    decreases |idx|
  {
    if |idx| >= 3 {
      FlattenGroup(idx[3..]);
      assert Group(idx)[1..] == Group(idx[3..]);
      assert idx == idx[..3] + idx[3..];
    }
  }

  /** Writing triangles out and reading them back gives the same triangles. */
  lemma {:induction false} GroupFlatten(ts: seq<Tri>)
    ensures Group(Flatten(ts)) == ts
    decreases |ts|
  {
    if |ts| > 0 {
      GroupFlatten(ts[1..]);
      assert Flatten(ts)[3..] == Flatten(ts[1..]);
    }
  }

  /** The triangle loop of `Initialize`: triangle `i / 3` gets indices
      `i`, `i + 1`, `i + 2`. The source steps `i` by 3 up to the buffer
      length, so it needs that length to be a multiple of three. */
  method ReadTriangles(idx: seq<nat>) returns (r: seq<Tri>)
    requires |idx| % 3 == 0
    ensures r == Group(idx)
    ensures Flatten(r) == idx
  {
    r := [];
    var i := 0;
    while i < |idx|
      invariant i % 3 == 0 && i <= |idx| && |r| == i / 3
      invariant forall k :: 0 <= k < |r| ==> r[k] == BVHTriangle.Tri(idx[3 * k], idx[3 * k + 1], idx[3 * k + 2])
    {
      r := r + [BVHTriangle.Tri(idx[i], idx[i + 1], idx[i + 2])];
      i := i + 3;
    }
    GroupAt(idx);
    FlattenGroup(idx);
  }

  lemma GroupValid(idx: seq<nat>, numVerts: nat)
    requires IndicesValid(idx, numVerts)
    ensures ValidTris(Group(idx), numVerts)
  {
    GroupAt(idx);
  }

  // ---------------------------------------------------------------------------
  // Construction

  /** What traversal relies on: `2^depth` slots, every slot from 1 up
      populated with a node whose range lies inside the triangle array, and
      triangles that name existing vertices. */
  ghost predicate Valid(b: Bvh) {
    && b.depth >= 1 && |b.nodes| == Pow2(b.depth)
    && ValidTris(b.triangles, |b.vertices|)
    && forall j :: 1 <= j < |b.nodes| ==> b.nodes[j].Some? && Placed(b.nodes[j].value, j, b.triangles, b.vertices)
  }

  /** `Initialize`: read the triangles, allocate `2^depth` slots, place the
      root at slot 1 and split it with height `depth`. Slot 0 stays empty.
      The source indexes slot 1, so it needs `depth >= 1`. */
  method Initialize(verts: seq<Vec3>, idx: seq<nat>, depth: nat) returns (b: Bvh)
    requires depth >= 1 && |idx| % 3 == 0 && IndicesValid(idx, |verts|)
    ensures b.vertices == verts && b.depth == depth && |b.nodes| == Pow2(depth)
    ensures b.nodes[0] == None
    ensures b.nodes[1] == Some(SetAsRoot(verts, |idx| / 3))
    ensures Permutes(Group(idx), b.triangles, 0, |idx| / 3)
    ensures WellBuilt(b.nodes, b.triangles, verts, 1, depth)
    ensures Valid(b)
  {
    var tris := ReadTriangles(idx);
    GroupAt(idx);
    GroupValid(idx, |verts|);
    Pow2Monotone(1, depth);
    var root := SetAsRoot(verts, |tris|);
    var nodes := seq(Pow2(depth), _ => None)[1 := Some(root)];
    RootPlaced(verts, tris);
    SubtreeFitsLevel(1, depth, depth);
    var nodes', tris' := MidPointSplit(nodes, tris, verts, root, 1, depth);
    b := Bvh(verts, nodes', tris', depth);
    AllBuilt(nodes', tris', verts, depth);
  }

  // ---------------------------------------------------------------------------
  // Shape of a built tree

  /** Every slot below `i` within `h` levels is itself built, with the height
      that remains at its level. */
  lemma {:induction false} SubtreeBuilt(nodes: seq<Option<Node>>, tris: seq<Tri>, verts: seq<Vec3>, i: nat, h: nat, j: nat)
    requires WellBuilt(nodes, tris, verts, i, h)
    requires IsDesc(j, i) && Level(j) < Level(i) + h
    ensures WellBuilt(nodes, tris, verts, j, h - (Level(j) - Level(i)))
    decreases h
  {
    DescLevel(j, i);
    if j != i {
      assert h >= 2;
      DescOfChild(j, i);
      assert Level(2 * i) == Level(i) + 1 && Level(2 * i + 1) == Level(i) + 1 by {
        assert (2 * i) / 2 == i && (2 * i + 1) / 2 == i;
      }
      if IsDesc(j, 2 * i) {
        SubtreeBuilt(nodes, tris, verts, 2 * i, h - 1, j);
      } else {
        SubtreeBuilt(nodes, tris, verts, 2 * i + 1, h - 1, j);
      }
    }
  }

  /** Every slot at or after 1 lies below the root. */
  lemma {:induction false} BelowRoot(j: nat)
    requires j >= 1
    ensures IsDesc(j, 1)
  {
    if j > 1 {
      BelowRoot(j / 2);
    }
  }

  /** Slot `j` of a `2^depth` heap is at a level below `depth`. */
  lemma LevelInHeap(j: nat, depth: nat)
    requires 1 <= j < Pow2(depth)
    ensures Level(j) < depth
  {
    LevelBounds(j);
    if Level(j) >= depth {
      Pow2Monotone(depth, Level(j));
    }
  }

  /** A tree built from the root with height `depth` in `2^depth` slots
      populates every slot from 1 on, and each node holds its triangles. */
  lemma AllBuilt(nodes: seq<Option<Node>>, tris: seq<Tri>, verts: seq<Vec3>, depth: nat)
    requires depth >= 1 && |nodes| == Pow2(depth)
    requires WellBuilt(nodes, tris, verts, 1, depth)
    ensures forall j :: 1 <= j < |nodes| ==> nodes[j].Some? && Placed(nodes[j].value, j, tris, verts)
  {
    forall j | 1 <= j < |nodes| ensures nodes[j].Some? && Placed(nodes[j].value, j, tris, verts) {
      BelowRoot(j);
      LevelInHeap(j, depth);
      SubtreeBuilt(nodes, tris, verts, 1, depth, j);
    }
  }

  /** The traversal's leaf test `index >= nodes.Length / 2` picks out exactly
      the nodes the build did not split: the slots of the last level, whose
      remaining height is 1. Every other slot holds a split node. */
  lemma LeafIffUnsplit(nodes: seq<Option<Node>>, tris: seq<Tri>, verts: seq<Vec3>, depth: nat, j: nat)
    requires depth >= 1 && |nodes| == Pow2(depth)
    requires WellBuilt(nodes, tris, verts, 1, depth)
    requires 1 <= j < |nodes|
    ensures Level(j) < depth
    ensures j >= |nodes| / 2 <==> Level(j) == depth - 1
    ensures WellBuilt(nodes, tris, verts, j, depth - Level(j))
    ensures j < |nodes| / 2 ==>
              2 * j + 1 < |nodes| && nodes[2 * j].Some? && nodes[2 * j + 1].Some?
              && Split(nodes[j].value, nodes[2 * j].value, nodes[2 * j + 1].value, tris, verts)
  {
    BelowRoot(j);
    LevelInHeap(j, depth);
    SubtreeBuilt(nodes, tris, verts, 1, depth, j);
    assert |nodes| / 2 == Pow2(depth - 1);
    LevelBounds(j);
    if j >= |nodes| / 2 {
      LevelFromBounds(j, depth - 1);
    }
  }

  // ---------------------------------------------------------------------------
  // Ray queries

  /** A query: origin, direction, and the accepted distance window. */
  datatype Ray = Ray(o: Vec3, d: Vec3, near: real, far: real)

  /** An accepted triangle hit: distance `t` and triangle slot `k`. */
  datatype Found = Found(t: real, k: nat)

  /** Which box test prunes the traversal: the slab test as the source writes
      it, or the corrected test of the findings. */
  datatype BoxRule = AsWritten | Corrected

  /** The corrected box test: the ray meets the box somewhere in the window. */
  predicate WindowMeetsBox(b: Box, ray: Ray) {
    b.Bounds? && Le(EMax(Entry(b, ray.o, ray.d), Fin(ray.near)), EMin(Exit(b, ray.o, ray.d), Fin(ray.far)))
  }

  predicate BoxPass(rule: BoxRule, b: Box, ray: Ray) {
    match rule
    case AsWritten => BVHBox.RayIntersection(b, ray.o, ray.d, ray.near, ray.far).hit
    case Corrected => WindowMeetsBox(b, ray)
  }

  /** The box test a rule applies to one ray, as a predicate on boxes. */
  function Test(rule: BoxRule, ray: Ray): (r: Box -> bool)
    ensures forall bx :: r(bx) == BoxPass(rule, bx, ray)
  {
    bx => BoxPass(rule, bx, ray)
  }

  /** Of two results seen in order, the closer; the first one on a tie, as the
      strict `t < tHit` keeps it. `None` stands for no hit (`tHit = +inf`). */
  function Earlier(a: Option<Found>, b: Option<Found>): (r: Option<Found>)
    ensures r == a || r == b
    ensures r.None? <==> a.None? && b.None?
    ensures r.Some? && a.Some? ==> r.value.t <= a.value.t
    ensures r.Some? && b.Some? ==> r.value.t <= b.value.t
    ensures a.Some? && b.Some? && a.value.t <= b.value.t ==> r == a
  {
    if b.None? then a else if a.None? || b.value.t < a.value.t then b else a
  }

  lemma EarlierAssoc(a: Option<Found>, b: Option<Found>, c: Option<Found>)
    ensures Earlier(Earlier(a, b), c) == Earlier(a, Earlier(b, c))
  {
  }

  /** The triangle test of slot `k`, as a hit record. */
  function TriTest(b: Bvh, ray: Ray, k: nat): (r: Option<Found>)
    requires k < |b.triangles| && ValidTris(b.triangles, |b.vertices|)
    ensures r.Some? ==> r.value.k == k && ray.near <= r.value.t <= ray.far
  {
    var t := b.triangles[k];
    var h := BVHTriangle.RayIntersection(b.vertices[t.a], b.vertices[t.b], b.vertices[t.c], ray.o, ray.d, ray.near, ray.far);
    if h.hit then Some(Found(h.t, k)) else None
  }

  /** The triangle loop of a leaf over `[lo, hi)`, in slot order. */
  function LeafScan(b: Bvh, ray: Ray, lo: nat, hi: nat): Option<Found>
    requires hi <= |b.triangles| && ValidTris(b.triangles, |b.vertices|)
    decreases hi
  {
    if hi <= lo then None else Earlier(LeafScan(b, ray, lo, hi - 1), TriTest(b, ray, hi - 1))
  }

  /** A leaf reports the first slot of least accepted distance in its range,
      and nothing only when no slot of the range is accepted. */
  lemma {:induction false} LeafScanSpec(b: Bvh, ray: Ray, lo: nat, hi: nat)
    requires hi <= |b.triangles| && ValidTris(b.triangles, |b.vertices|)
    ensures LeafScan(b, ray, lo, hi).Some? ==>
              var f := LeafScan(b, ray, lo, hi).value;
              && lo <= f.k < hi && TriTest(b, ray, f.k) == Some(f)
              && forall k :: lo <= k < f.k && TriTest(b, ray, k).Some? ==> TriTest(b, ray, k).value.t > f.t
    ensures forall k :: lo <= k < hi && TriTest(b, ray, k).Some? ==>
              LeafScan(b, ray, lo, hi).Some? && LeafScan(b, ray, lo, hi).value.t <= TriTest(b, ray, k).value.t
    decreases hi
  {
    if hi > lo {
      LeafScanSpec(b, ray, lo, hi - 1);
    }
  }

  /** The closest hit below slot `j` in the order the traversal meets it:
      nothing if the box test fails; a leaf scans its range; an inner node
      gives child B (popped first) precedence over child A on ties. */
  function RefHit(b: Bvh, ray: Ray, pass: Box -> bool, j: nat): Option<Found>
    requires Valid(b) && 1 <= j < |b.nodes|
    decreases |b.nodes| - j
  {
    var n := b.nodes[j].value;
    if !pass(n.box) then None
    else if j >= |b.nodes| / 2 then LeafScan(b, ray, n.start, n.start + n.count)
    else Earlier(RefHit(b, ray, pass, 2 * j + 1), RefHit(b, ray, pass, 2 * j))
  }

  /** Triangle `k` is accepted at distance `t` in a leaf below `j` whose box,
      and every box on the way down from `j`, passes the test. */
  ghost predicate Candidate(b: Bvh, ray: Ray, pass: Box -> bool, j: nat, k: nat, t: real)
    requires Valid(b) && 1 <= j < |b.nodes|
    decreases |b.nodes| - j
  {
    var n := b.nodes[j].value;
    && pass(n.box)
    && if j >= |b.nodes| / 2 then n.start <= k < n.start + n.count && TriTest(b, ray, k) == Some(Found(t, k))
       else Candidate(b, ray, pass, 2 * j, k, t) || Candidate(b, ray, pass, 2 * j + 1, k, t)
  }

  /** The reference result below `j` is the least candidate: it is a
      candidate, and no candidate is closer; so it is absent exactly when
      there is no candidate. */
  ghost predicate IsLeast(b: Bvh, ray: Ray, pass: Box -> bool, j: nat)
    requires Valid(b) && 1 <= j < |b.nodes|
  {
    && (RefHit(b, ray, pass, j).Some? ==>
          Candidate(b, ray, pass, j, RefHit(b, ray, pass, j).value.k, RefHit(b, ray, pass, j).value.t))
    && (forall k, t :: Candidate(b, ray, pass, j, k, t) ==>
          RefHit(b, ray, pass, j).Some? && RefHit(b, ray, pass, j).value.t <= t)
  }

  lemma {:induction false} RefHitSpec(b: Bvh, ray: Ray, pass: Box -> bool, j: nat)
    requires Valid(b) && 1 <= j < |b.nodes|
    ensures IsLeast(b, ray, pass, j)
    decreases |b.nodes| - j
  {
    if j >= |b.nodes| / 2 {
      LeafIsLeast(b, ray, pass, j);
    } else {
      RefHitSpec(b, ray, pass, 2 * j);
      RefHitSpec(b, ray, pass, 2 * j + 1);
      InnerIsLeast(b, ray, pass, j);
    }
  }

  lemma LeafIsLeast(b: Bvh, ray: Ray, pass: Box -> bool, j: nat)
    requires Valid(b) && |b.nodes| / 2 <= j < |b.nodes|
    ensures IsLeast(b, ray, pass, j)
  {
    var n := b.nodes[j].value;
    LeafScanSpec(b, ray, n.start, n.start + n.count);
  }

  lemma InnerIsLeast(b: Bvh, ray: Ray, pass: Box -> bool, j: nat)
    requires Valid(b) && 1 <= j < |b.nodes| / 2
    requires IsLeast(b, ray, pass, 2 * j) && IsLeast(b, ray, pass, 2 * j + 1)
    ensures IsLeast(b, ray, pass, j)
  {
  }

  // ---------------------------------------------------------------------------
  // Stack traversal

  /** Number of slots in the subtree of `j`: what is left to pop for it. */
  function Weight(len: nat, j: nat): (r: nat)
    requires 1 <= j < len
    ensures r >= 1
    decreases len - j
  {
    if j >= len / 2 then 1 else 1 + Weight(len, 2 * j) + Weight(len, 2 * j + 1)
  }

  predicate InHeap(len: nat, s: seq<nat>) {
    forall k :: 0 <= k < |s| ==> 1 <= s[k] < len
  }

  /** Work left for the slots on the stack. */
  function Pending(len: nat, s: seq<nat>): nat
    requires InHeap(len, s)
  {
    if |s| == 0 then 0 else Pending(len, s[..|s| - 1]) + Weight(len, s[|s| - 1])
  }

  /** The results of the stacked subtrees, top (last) first. */
  function FoldStack(b: Bvh, ray: Ray, pass: Box -> bool, s: seq<nat>): Option<Found>
    requires Valid(b) && InHeap(|b.nodes|, s)
  {
    if |s| == 0 then None
    else Earlier(RefHit(b, ray, pass, s[|s| - 1]), FoldStack(b, ray, pass, s[..|s| - 1]))
  }

  lemma PushOne(b: Bvh, ray: Ray, pass: Box -> bool, s: seq<nat>, v: nat)
    requires Valid(b) && InHeap(|b.nodes|, s) && 1 <= v < |b.nodes|
    ensures InHeap(|b.nodes|, s + [v])
    ensures FoldStack(b, ray, pass, s + [v]) == Earlier(RefHit(b, ray, pass, v), FoldStack(b, ray, pass, s))
    ensures Pending(|b.nodes|, s + [v]) == Pending(|b.nodes|, s) + Weight(|b.nodes|, v)
  {
    assert (s + [v])[..|s|] == s;
  }

  /** The live stack `stack[0..top]` of the `int[depth]` array: slots of the
      heap, and the k-th entry from the bottom at least at level `k + 1`,
      except the top entry, which may share the level of the one below it
      (the two children pushed last). With levels below `depth` this bounds
      the stack height by `depth`. */
  ghost predicate StackOk(b: Bvh, stack: seq<nat>, top: int) {
    && -1 <= top < |stack| && |stack| == b.depth
    && forall k :: 0 <= k <= top ==>
         1 <= stack[k] < |b.nodes| && k + 1 <= Level(stack[k]) + (if k == top then 1 else 0)
  }

  lemma LiveInHeap(b: Bvh, stack: seq<nat>, top: int)
    requires StackOk(b, stack, top)
    ensures InHeap(|b.nodes|, stack[..top + 1])
  {
  }

  /** `TraverseBVH` with a given box test: pop a slot; skip it if its box
      fails; scan a leaf's triangles; push child A then child B of an inner
      node. The answer is the reference result of the root. */
  method Traverse(b: Bvh, ray: Ray, pass: Box -> bool) returns (hit: Option<Found>)
    requires Valid(b)
    ensures hit == RefHit(b, ray, pass, 1)
    ensures hit.Some? ==> hit.value.k < |b.triangles| && TriTest(b, ray, hit.value.k) == hit
  {
    var stack := seq(b.depth, _ => 0)[0 := 1];
    var top := 0;
    hit := None;
    Pow2Monotone(1, b.depth);
    assert stack[..1] == [] + [1];
    PushOne(b, ray, pass, [], 1);
    while top != -1
      invariant StackOk(b, stack, top)
      invariant InHeap(|b.nodes|, stack[..top + 1])
      invariant Earlier(hit, FoldStack(b, ray, pass, stack[..top + 1])) == RefHit(b, ray, pass, 1)
      decreases Pending(|b.nodes|, stack[..top + 1])
    {
      stack, top, hit := Visit(b, ray, pass, stack, top, hit);
    }
    RefHitSpec(b, ray, pass, 1);
    if hit.Some? {
      CandidateHit(b, ray, pass, 1, hit.value.k, hit.value.t);
    }
  }

  /** A candidate is an accepted triangle test. */
  lemma {:induction false} CandidateHit(b: Bvh, ray: Ray, pass: Box -> bool, j: nat, k: nat, t: real)
    requires Valid(b) && 1 <= j < |b.nodes|
    requires Candidate(b, ray, pass, j, k, t)
    ensures k < |b.triangles| && TriTest(b, ray, k) == Some(Found(t, k))
    decreases |b.nodes| - j
  {
    if j < |b.nodes| / 2 {
      if Candidate(b, ray, pass, 2 * j, k, t) {
        CandidateHit(b, ray, pass, 2 * j, k, t);
      } else {
        CandidateHit(b, ray, pass, 2 * j + 1, k, t);
      }
    }
  }

  /** One iteration of the loop keeps the stack well formed, leaves the
      combined result of `hit` and the live stack unchanged, and lowers the
      work left. */
  ghost predicate Progress(b: Bvh, ray: Ray, pass: Box -> bool, stack: seq<nat>, top: int, hit: Option<Found>,
                           stack': seq<nat>, top': int, hit': Option<Found>)
    requires Valid(b)
  {
    && StackOk(b, stack, top) && StackOk(b, stack', top')
    && InHeap(|b.nodes|, stack'[..top' + 1]) && InHeap(|b.nodes|, stack[..top + 1])
    && Earlier(hit', FoldStack(b, ray, pass, stack'[..top' + 1])) == Earlier(hit, FoldStack(b, ray, pass, stack[..top + 1]))
    && Pending(|b.nodes|, stack'[..top' + 1]) < Pending(|b.nodes|, stack[..top + 1])
  }

  /** One iteration of the traversal loop: pop, then skip, scan or push. */
  method Visit(b: Bvh, ray: Ray, pass: Box -> bool, stack: seq<nat>, top: int, hit: Option<Found>)
    returns (stack': seq<nat>, top': int, hit': Option<Found>)
    requires Valid(b)
    requires StackOk(b, stack, top) && top >= 0
    ensures Progress(b, ray, pass, stack, top, hit, stack', top', hit')
  {
    var x := stack[top];
    var node := b.nodes[x].value;
    if !pass(node.box) {
      stack', top', hit' := stack, top - 1, hit;
      PopOnly(b, ray, pass, stack, top, hit, hit');
    } else if node.index >= |b.nodes| / 2 {
      stack', top', hit' := VisitLeaf(b, ray, pass, stack, top, hit);
    } else {
      assert InnerUnfolds(b, ray, pass, x);
      stack', top', hit' := VisitInner(b, ray, pass, stack, top, hit);
    }
  }

  /** The result below an inner slot whose box passes combines its children's,
      child B first. */
  ghost predicate InnerUnfolds(b: Bvh, ray: Ray, pass: Box -> bool, x: nat)
    requires Valid(b) && 1 <= x < |b.nodes| / 2
  {
    RefHit(b, ray, pass, x) == Earlier(RefHit(b, ray, pass, 2 * x + 1), RefHit(b, ray, pass, 2 * x))
  }

  /** A popped leaf whose box passes: scan its triangles. */
  method VisitLeaf(b: Bvh, ray: Ray, pass: Box -> bool, stack: seq<nat>, top: int, hit: Option<Found>)
    returns (stack': seq<nat>, top': int, hit': Option<Found>)
    requires Valid(b)
    requires StackOk(b, stack, top) && top >= 0
    requires pass(b.nodes[stack[top]].value.box) && b.nodes[stack[top]].value.index >= |b.nodes| / 2
    ensures Progress(b, ray, pass, stack, top, hit, stack', top', hit')
  {
    hit' := ScanLeaf(b, ray, b.nodes[stack[top]].value, hit);
    stack', top' := stack, top - 1;
    PopOnly(b, ray, pass, stack, top, hit, hit');
  }

  /** A popped inner slot whose box passes: push child A, then child B. */
  method VisitInner(b: Bvh, ray: Ray, pass: Box -> bool, stack: seq<nat>, top: int, hit: Option<Found>)
    returns (stack': seq<nat>, top': int, hit': Option<Found>)
    requires Valid(b)
    requires StackOk(b, stack, top) && top >= 0
    requires b.nodes[stack[top]].value.index < |b.nodes| / 2 && InnerUnfolds(b, ray, pass, stack[top])
    ensures Progress(b, ray, pass, stack, top, hit, stack', top', hit')
  {
    stack', top' := PushChildren(b, ray, pass, stack, top, stack[top]);
    hit' := hit;
    PopInner(b, ray, pass, stack, top, hit, stack', top');
  }

  /** A popped slot that pushes nothing contributes its own result: nothing
      if its box fails, its triangle scan if it is a leaf. */
  lemma PopOnly(b: Bvh, ray: Ray, pass: Box -> bool, stack: seq<nat>, top: int, hit: Option<Found>, hit': Option<Found>)
    requires Valid(b)
    requires StackOk(b, stack, top) && top >= 0
    requires var n := b.nodes[stack[top]].value;
             if !pass(n.box) then hit' == hit
             else n.index >= |b.nodes| / 2 && hit' == Earlier(hit, LeafScan(b, ray, n.start, n.start + n.count))
    ensures Progress(b, ray, pass, stack, top, hit, stack, top - 1, hit')
  {
    Pop(b, ray, pass, stack, top, hit);
  }

  /** A popped inner slot whose box passes is replaced by its two children. */
  lemma PopInner(b: Bvh, ray: Ray, pass: Box -> bool, stack: seq<nat>, top: int, hit: Option<Found>, stack': seq<nat>, top': int)
    requires Valid(b)
    requires StackOk(b, stack, top)
    requires top >= 0
    requires top' == top + 1
    requires b.nodes[stack[top]].value.index < |b.nodes| / 2
    requires InnerUnfolds(b, ray, pass, stack[top])
    requires StackOk(b, stack', top')
    requires InHeap(|b.nodes|, stack'[..top' + 1])
    requires InHeap(|b.nodes|, stack[..top])
    requires FoldStack(b, ray, pass, stack'[..top' + 1])
          == Earlier(RefHit(b, ray, pass, 2 * stack[top] + 1), Earlier(RefHit(b, ray, pass, 2 * stack[top]), FoldStack(b, ray, pass, stack[..top])))
    requires Pending(|b.nodes|, stack'[..top' + 1]) + 1 == Pending(|b.nodes|, stack[..top]) + Weight(|b.nodes|, stack[top])
    ensures Progress(b, ray, pass, stack, top, hit, stack', top', hit)
  {
    var x := stack[top];
    var rest := stack[..top];
    Pop(b, ray, pass, stack, top, hit);
    EarlierAssoc(RefHit(b, ray, pass, 2 * x + 1), RefHit(b, ray, pass, 2 * x), FoldStack(b, ray, pass, rest));
    EarlierAssoc(hit, RefHit(b, ray, pass, x), FoldStack(b, ray, pass, rest));
  }

  /** Popping the top slot `x` splits the stack's result into `x`'s and the
      rest's, and its pending work into `x`'s subtree and the rest. */
  lemma Pop(b: Bvh, ray: Ray, pass: Box -> bool, stack: seq<nat>, top: int, hit: Option<Found>)
    requires Valid(b)
    requires StackOk(b, stack, top) && top >= 0
    ensures InHeap(|b.nodes|, stack[..top + 1]) && InHeap(|b.nodes|, stack[..top])
    ensures StackOk(b, stack, top - 1)
    ensures Earlier(hit, FoldStack(b, ray, pass, stack[..top + 1]))
         == Earlier(Earlier(hit, RefHit(b, ray, pass, stack[top])), FoldStack(b, ray, pass, stack[..top]))
    ensures Pending(|b.nodes|, stack[..top + 1]) == Pending(|b.nodes|, stack[..top]) + Weight(|b.nodes|, stack[top])
  {
    var rest := stack[..top];
    assert stack[..top + 1] == rest + [stack[top]];
    PushOne(b, ray, pass, rest, stack[top]);
    EarlierAssoc(hit, RefHit(b, ray, pass, stack[top]), FoldStack(b, ray, pass, rest));
  }

  /** `stack[++top] = ChildA; stack[++top] = ChildB;` after popping the inner
      slot `x` from position `top`: both writes stay inside the array. */
  method PushChildren(b: Bvh, ray: Ray, pass: Box -> bool, stack: seq<nat>, top: int, x: nat)
    returns (stack': seq<nat>, top': int)
    requires Valid(b)
    requires StackOk(b, stack, top) && top >= 0 && x == stack[top] && x < |b.nodes| / 2
    ensures top' == top + 1
    ensures StackOk(b, stack', top') && InHeap(|b.nodes|, stack'[..top' + 1]) && InHeap(|b.nodes|, stack[..top])
    ensures FoldStack(b, ray, pass, stack'[..top' + 1])
         == Earlier(RefHit(b, ray, pass, 2 * x + 1), Earlier(RefHit(b, ray, pass, 2 * x), FoldStack(b, ray, pass, stack[..top])))
    ensures Pending(|b.nodes|, stack'[..top' + 1]) + 1 == Pending(|b.nodes|, stack[..top]) + Weight(|b.nodes|, x)
  {
    ChildLevel(b, x);
    stack' := stack[top := ChildA(x)][top + 1 := ChildB(x)];
    top' := top + 1;
    assert stack'[..top' + 1] == stack[..top] + [2 * x, 2 * x + 1];
    PushTwo(b, ray, pass, stack[..top], x, stack'[..top' + 1]);
  }

  lemma PushTwo(b: Bvh, ray: Ray, pass: Box -> bool, rest: seq<nat>, x: nat, s: seq<nat>)
    requires Valid(b) && InHeap(|b.nodes|, rest)
    requires 1 <= x < |b.nodes| / 2 && s == rest + [2 * x, 2 * x + 1]
    ensures InHeap(|b.nodes|, s)
    ensures FoldStack(b, ray, pass, s)
         == Earlier(RefHit(b, ray, pass, 2 * x + 1), Earlier(RefHit(b, ray, pass, 2 * x), FoldStack(b, ray, pass, rest)))
    ensures Pending(|b.nodes|, s) + 1 == Pending(|b.nodes|, rest) + Weight(|b.nodes|, x)
  {
    assert rest + [2 * x, 2 * x + 1] == rest + [2 * x] + [2 * x + 1];
    PushOne(b, ray, pass, rest, 2 * x);
    PushOne(b, ray, pass, rest + [2 * x], 2 * x + 1);
  }

  /** An inner slot sits at least two levels above the bottom, and its
      children one level below it. */
  lemma ChildLevel(b: Bvh, x: nat)
    requires Valid(b) && 1 <= x < |b.nodes| / 2
    ensures Level(x) + 2 <= b.depth
    ensures 2 * x + 1 < |b.nodes|
    ensures Level(2 * x) == Level(x) + 1 && Level(2 * x + 1) == Level(x) + 1
  {
    assert |b.nodes| / 2 == Pow2(b.depth - 1);
    LevelInHeap(x, b.depth - 1);
    assert (2 * x) / 2 == x && (2 * x + 1) / 2 == x;
  }

  /** The triangle loop of a leaf: keep a hit only if strictly closer. */
  method ScanLeaf(b: Bvh, ray: Ray, node: Node, hit: Option<Found>) returns (hit': Option<Found>)
    requires ValidTris(b.triangles, |b.vertices|) && node.start + node.count <= |b.triangles|
    ensures hit' == Earlier(hit, LeafScan(b, ray, node.start, node.start + node.count))
  {
    hit' := hit;
    var triIndex := node.start;
    while triIndex < node.start + node.count
      invariant node.start <= triIndex <= node.start + node.count
      invariant hit' == Earlier(hit, LeafScan(b, ray, node.start, triIndex))
    {
      var t := b.triangles[triIndex];
      var h := BVHTriangle.RayIntersection(b.vertices[t.a], b.vertices[t.b], b.vertices[t.c], ray.o, ray.d, ray.near, ray.far);
      EarlierAssoc(hit, LeafScan(b, ray, node.start, triIndex), TriTest(b, ray, triIndex));
      if h.hit {
        if hit'.None? || h.t < hit'.value.t {
          hit' := Some(Found(h.t, triIndex));
        }
      }
      triIndex := triIndex + 1;
    }
  }

  /** `TraverseBVH`: the closest triangle and its distance, `None` standing
      for the source's `null` and `tHit = +inf`. */
  method TraverseBVH(b: Bvh, ray: Ray) returns (closest: Option<Tri>, tHit: Option<real>)
    requires Valid(b)
    ensures closest.None? <==> tHit.None?
    ensures closest.None? ==> forall k: nat, t: real :: !Candidate(b, ray, Test(AsWritten, ray), 1, k, t)
    ensures closest.Some? ==>
              exists k: nat :: k < |b.triangles| && Candidate(b, ray, Test(AsWritten, ray), 1, k, tHit.value) && closest.value == b.triangles[k]
    ensures tHit.Some? ==> forall k, t :: Candidate(b, ray, Test(AsWritten, ray), 1, k, t) ==> tHit.value <= t
  {
    var hit := Traverse(b, ray, Test(AsWritten, ray));
    RefHitSpec(b, ray, Test(AsWritten, ray), 1);
    if hit.Some? {
      var k := hit.value.k;
      assert Candidate(b, ray, Test(AsWritten, ray), 1, k, hit.value.t);
      CandidateHit(b, ray, Test(AsWritten, ray), 1, k, hit.value.t);
      closest, tHit := Some(b.triangles[k]), Some(hit.value.t);
    } else {
      closest, tHit := None, None;
    }
  }

  /** With `depth == 1` the root is the only node and a leaf: the result is
      the root's triangle scan when its box passes. */
  lemma DepthOneRoot(b: Bvh, ray: Ray, pass: Box -> bool)
    requires Valid(b) && b.depth == 1
    requires b.nodes[1] == Some(SetAsRoot(b.vertices, |b.triangles|))
    ensures |b.nodes| == 2
    ensures RefHit(b, ray, pass, 1)
         == if pass(b.nodes[1].value.box) then LeafScan(b, ray, 0, |b.triangles|) else None
  {
    assert Pow2(1) == 2;
  }

  /** With `depth == 1`, whenever the root box passes, the traversal is the
      brute-force scan of every triangle: the first triangle of least
      accepted distance, or nothing when no triangle is accepted. */
  lemma DepthOneBruteForce(b: Bvh, ray: Ray, pass: Box -> bool)
    requires Valid(b) && b.depth == 1
    requires b.nodes[1] == Some(SetAsRoot(b.vertices, |b.triangles|))
    requires pass(b.nodes[1].value.box)
    ensures RefHit(b, ray, pass, 1).None? <==> forall k :: 0 <= k < |b.triangles| ==> TriTest(b, ray, k).None?
    ensures RefHit(b, ray, pass, 1).Some? ==>
              && RefHit(b, ray, pass, 1).value.k < |b.triangles|
              && TriTest(b, ray, RefHit(b, ray, pass, 1).value.k) == RefHit(b, ray, pass, 1)
              && (forall k :: 0 <= k < |b.triangles| && TriTest(b, ray, k).Some? ==>
                    RefHit(b, ray, pass, 1).value.t <= TriTest(b, ray, k).value.t)
              && (forall k :: 0 <= k < RefHit(b, ray, pass, 1).value.k && TriTest(b, ray, k).Some? ==>
                    RefHit(b, ray, pass, 1).value.t < TriTest(b, ray, k).value.t)
  {
    DepthOneRoot(b, ray, pass);
    LeafScanSpec(b, ray, 0, |b.triangles|);
  }

  // ---------------------------------------------------------------------------
  // The box test and the window

  /** The corrected test passes every fitted box that some ray point of the
      window `[near, far]` lies in. */
  lemma WindowHitPasses(b: Box, ray: Ray, s: real)
    requires BVHBox.Valid(b) && b.Bounds?
    requires ray.near <= s <= ray.far && Contains(b, RayPoint(ray.o, ray.d, s))
    ensures BoxPass(Corrected, b, ray)
  {
    SlabMeansInside(b, ray.o, ray.d, s);
  }

  /** Where the window meets the box: the later of the box entry and `near`. */
  function WindowStart(b: Box, ray: Ray): real
    requires b.Bounds?
  {
    var e := EMax(Entry(b, ray.o, ray.d), Fin(ray.near));
    if e.Fin? then e.v else ray.near
  }

  /** Conversely, a box the corrected test passes holds the ray point at the
      later of the box entry and `near`, which lies in the window. */
  lemma PassMeansWindowHit(b: Box, ray: Ray)
    requires BVHBox.Valid(b) && BoxPass(Corrected, b, ray)
    ensures b.Bounds? && ray.near <= WindowStart(b, ray) <= ray.far
    ensures Contains(b, RayPoint(ray.o, ray.d, WindowStart(b, ray)))
  {
    BVHBox.SlabFacts(b, ray.o, ray.d);
    SlabMeansInside(b, ray.o, ray.d, WindowStart(b, ray));
  }

  /** A ray from a box corner along the diagonal, with a window that ends
      inside the box. */
  const CornerRay := Ray(Vec3(1.0, 1.0, 1.0), Vec3(1.0, 1.0, 1.0), 0.0, 0.5)

  /** A slanted triangle across that diagonal, and the box fitted to it. */
  const SliverA := Vec3(1.75, 1.0, 1.0)
  const SliverB := Vec3(1.0, 1.75, 1.0)
  const SliverC := Vec3(1.0, 1.0, 1.75)
  const SliverBox := Bounds(Vec3(1.0, 1.0, 1.0), Vec3(1.75, 1.75, 1.75))

  /** The box test as written rejects the sliver's box: the ray starts on
      the box, so the reported distance is the exit 0.75, beyond `far`,
      although the ray is inside the box for the whole window and passes
      through the triangle's centroid at 0.25. The corrected test passes
      the box. */
  lemma AsWrittenRejectsCrossedBox()
    ensures FitAll(Empty, [SliverA, SliverB, SliverC]) == SliverBox
    ensures BVHBox.Defined(SliverBox, CornerRay.o, CornerRay.d) && BVHBox.Valid(SliverBox)
    ensures RayPoint(CornerRay.o, CornerRay.d, 0.25) == BVHTriangle.Centre(SliverA, SliverB, SliverC)
    ensures CornerRay.near <= 0.25 <= CornerRay.far
    ensures Contains(SliverBox, RayPoint(CornerRay.o, CornerRay.d, 0.25))
    ensures !BoxPass(AsWritten, SliverBox, CornerRay)
    ensures BoxPass(Corrected, SliverBox, CornerRay)
  {
    var ab := Bounds(Vec3(1.0, 1.0, 1.0), Vec3(1.75, 1.75, 1.0));
    assert [SliverA, SliverB, SliverC][1..] == [SliverB, SliverC] && [SliverB, SliverC][1..] == [SliverC];
    assert FitVertex(Bounds(SliverA, SliverA), SliverB) == ab && FitVertex(ab, SliverC) == SliverBox;
    assert FitAll(Empty, [SliverA, SliverB, SliverC]) == FitAll(ab, [SliverC]) == FitAll(SliverBox, []);
    assert Entry(SliverBox, CornerRay.o, CornerRay.d) == Fin(0.0);
    assert Exit(SliverBox, CornerRay.o, CornerRay.d) == Fin(0.75);
  }

  /** So in a one-leaf tree over the sliver the traversal as written
      reports nothing, whatever the triangle test says, while with the
      corrected test it reports the triangle test of the sliver. */
  lemma AsWrittenLosesOnlyHit(b: Bvh)
    requires Valid(b) && b.depth == 1 && b.nodes[1] == Some(SetAsRoot(b.vertices, |b.triangles|))
    requires b.vertices == [SliverA, SliverB, SliverC] && b.triangles == [BVHTriangle.Tri(0, 1, 2)]
    ensures RefHit(b, CornerRay, Test(AsWritten, CornerRay), 1).None?
    ensures RefHit(b, CornerRay, Test(Corrected, CornerRay), 1) == TriTest(b, CornerRay, 0)
  {
    AsWrittenRejectsCrossedBox();
    DepthOneRoot(b, CornerRay, Test(AsWritten, CornerRay));
    DepthOneRoot(b, CornerRay, Test(Corrected, CornerRay));
    assert LeafScan(b, CornerRay, 0, 1) == Earlier(LeafScan(b, CornerRay, 0, 0), TriTest(b, CornerRay, 0));
  }

  // ---------------------------------------------------------------------------
  // Scene merge

  /** One child mesh: local vertices and its triangle index buffer. */
  datatype Mesh = Mesh(verts: seq<Vec3>, tris: seq<nat>)

  /** Unity hands out whole triangles whose indices name the mesh's own vertices. */
  predicate MeshOk(m: Mesh) {
    |m.tris| % 3 == 0 && IndicesValid(m.tris, |m.verts|)
  }

  /** The world-space vertices of child `i`; `place` stands for `TransformPoint`. */
  function WorldVerts(place: (nat, Vec3) -> Vec3, i: nat, vs: seq<Vec3>): (r: seq<Vec3>)
    ensures |r| == |vs| && forall k :: 0 <= k < |vs| ==> r[k] == place(i, vs[k])
  {
    seq(|vs|, k requires 0 <= k < |vs| => place(i, vs[k]))
  }

  /** The vertex list after the first `n` children. */
  function AllVerts(meshes: seq<Mesh>, place: (nat, Vec3) -> Vec3, n: nat): seq<Vec3>
    requires n <= |meshes|
  {
    if n == 0 then [] else AllVerts(meshes, place, n - 1) + WorldVerts(place, n - 1, meshes[n - 1].verts)
  }

  /** Total vertex count of the first `n` children: where child `n` starts. */
  function VertOffset(meshes: seq<Mesh>, n: nat): nat
    requires n <= |meshes|
  {
    if n == 0 then 0 else VertOffset(meshes, n - 1) + |meshes[n - 1].verts|
  }

  /** The index list after the first `n` children. */
  function AllIdx(meshes: seq<Mesh>, n: nat): seq<nat>
    requires n <= |meshes|
  {
    if n == 0 then [] else AllIdx(meshes, n - 1) + Shift(meshes[n - 1].tris, VertOffset(meshes, n - 1))
  }

  lemma {:induction false} AllVertsLength(meshes: seq<Mesh>, place: (nat, Vec3) -> Vec3, n: nat)
    requires n <= |meshes|
    ensures |AllVerts(meshes, place, n)| == VertOffset(meshes, n)
  {
    if n > 0 {
      AllVertsLength(meshes, place, n - 1);
    }
  }

  /** If every child's indices name its own vertices, every merged index
      names a merged vertex, and the merged buffer is whole triangles. */
  lemma {:induction false} MergedInRange(meshes: seq<Mesh>, n: nat)
    requires n <= |meshes| && forall i :: 0 <= i < |meshes| ==> MeshOk(meshes[i])
    ensures IndicesValid(AllIdx(meshes, n), VertOffset(meshes, n))
    ensures |AllIdx(meshes, n)| % 3 == 0
  {
    if n > 0 {
      MergedInRange(meshes, n - 1);
      var prev := AllIdx(meshes, n - 1);
      var sh := Shift(meshes[n - 1].tris, VertOffset(meshes, n - 1));
      assert MeshOk(meshes[n - 1]);
      forall k | 0 <= k < |prev + sh| ensures (prev + sh)[k] < VertOffset(meshes, n) {
        if k >= |prev| {
          assert (prev + sh)[k] == sh[k - |prev|];
        }
      }
    }
  }

  /** Vertex `j` of child `i` lands at `VertOffset(i) + j`, and its triangle
      entry `j` becomes that offset plus the local index: the offset is the
      vertex count of the earlier children. */
  lemma {:induction false} MergedLayout(meshes: seq<Mesh>, place: (nat, Vec3) -> Vec3, n: nat, i: nat)
    requires i < n <= |meshes|
    ensures VertOffset(meshes, i) + |meshes[i].verts| <= |AllVerts(meshes, place, n)|
    ensures forall j :: 0 <= j < |meshes[i].verts| ==>
              AllVerts(meshes, place, n)[VertOffset(meshes, i) + j] == place(i, meshes[i].verts[j])
    ensures |AllIdx(meshes, i)| + |meshes[i].tris| <= |AllIdx(meshes, n)|
    ensures forall j :: 0 <= j < |meshes[i].tris| ==>
              AllIdx(meshes, n)[|AllIdx(meshes, i)| + j] == VertOffset(meshes, i) + meshes[i].tris[j]
  {
    AllVertsLength(meshes, place, n);
    AllVertsLength(meshes, place, i);
    if n - 1 > i {
      MergedLayout(meshes, place, n - 1, i);
    }
  }

  /** `CreateBVH`'s loop: append each child's placed vertices, then its
      indices shifted by the running vertex count `vertIndex`. */
  method MergeMeshes(meshes: seq<Mesh>, place: (nat, Vec3) -> Vec3) returns (verts: seq<Vec3>, idx: seq<nat>)
    ensures verts == AllVerts(meshes, place, |meshes|)
    ensures idx == AllIdx(meshes, |meshes|)
  {
    verts, idx := [], [];
    var vertIndex := 0;
    var i := 0;
    while i < |meshes|
      invariant i <= |meshes|
      invariant verts == AllVerts(meshes, place, i) && idx == AllIdx(meshes, i)
      invariant vertIndex == VertOffset(meshes, i)
    {
      var m := meshes[i];
      var j := 0;
      while j < |m.verts|
        invariant j <= |m.verts|
        invariant verts == AllVerts(meshes, place, i) + WorldVerts(place, i, m.verts[..j])
      {
        verts := verts + [place(i, m.verts[j])];
        j := j + 1;
      }
      assert m.verts[..j] == m.verts;
      j := 0;
      while j < |m.tris|
        invariant j <= |m.tris|
        invariant idx == AllIdx(meshes, i) + Shift(m.tris[..j], vertIndex)
      {
        idx := idx + [vertIndex + m.tris[j]];
        j := j + 1;
      }
      assert m.tris[..j] == m.tris;
      vertIndex := vertIndex + |m.verts|;
      i := i + 1;
    }
  }

  /** `CreateBVH`: merge the children into one vertex and index buffer and
      build the tree over it. */
  method CreateBVH(meshes: seq<Mesh>, place: (nat, Vec3) -> Vec3, depth: nat) returns (b: Bvh)
    requires depth >= 1 && forall i :: 0 <= i < |meshes| ==> MeshOk(meshes[i])
    ensures b.vertices == AllVerts(meshes, place, |meshes|) && b.depth == depth
    ensures |b.triangles| * 3 == |AllIdx(meshes, |meshes|)|
    ensures Permutes(Group(AllIdx(meshes, |meshes|)), b.triangles, 0, |b.triangles|)
    ensures WellBuilt(b.nodes, b.triangles, b.vertices, 1, depth)
    ensures Valid(b)
  {
    var verts, idx := MergeMeshes(meshes, place);
    MergedInRange(meshes, |meshes|);
    AllVertsLength(meshes, place, |meshes|);
    b := Initialize(verts, idx, depth);
    GroupAt(idx);
  }
}

=== FILE: bvh_box.dfy ===
/** `BVHBox`: an axis-aligned bounding box that starts empty and grows to fit
    vertices, and the slab test that clips a ray against it.

    The source starts a box at `Min = +inf, Max = -inf`; here that state is the
    explicit constructor `Empty`, and every fitted box is `Bounds(lo, hi)`. */
module BVHBox {
  import opened Geometry

  datatype Box = Empty | Bounds(lo: Vec3, hi: Vec3)

  /** `v` lies in the closed box. An empty box contains nothing. */
  predicate Contains(b: Box, v: Vec3) {
    b.Bounds? && LeqV(b.lo, v) && LeqV(v, b.hi)
  }

  /** Every point of `inner` is a point of `outer`. */
  predicate Within(inner: Box, outer: Box) {
    inner.Empty? || (outer.Bounds? && LeqV(outer.lo, inner.lo) && LeqV(inner.hi, outer.hi))
  }

  /** A box that is empty or has `lo <= hi` on every axis: what fitting produces. */
  predicate Valid(b: Box) {
    b.Bounds? ==> LeqV(b.lo, b.hi)
  }

  lemma WithinContains(inner: Box, outer: Box, v: Vec3)
    requires Within(inner, outer) && Contains(inner, v)
    ensures Contains(outer, v)
  {
  }

  lemma WithinTransitive(a: Box, b: Box, c: Box)
    requires Within(a, b) && Within(b, c)
    ensures Within(a, c)
  {
  }

  /** `FitVertex`: grow the box just enough to hold `v`. */
  function FitVertex(b: Box, v: Vec3): (r: Box)
    ensures Contains(r, v)
    ensures Within(b, r)
    ensures Valid(b) ==> Valid(r)
  {
    match b
    case Empty => Bounds(v, v)
    case Bounds(lo, hi) => Bounds(MinV(lo, v), MaxV(hi, v))
  }

  /** The fitted box is the least box that holds the old box and `v`. */
  lemma FitVertexLeast(b: Box, v: Vec3, c: Box)
    requires Within(b, c) && Contains(c, v)
    ensures Within(FitVertex(b, v), c)
  {
  }

  /** `FitTriangle`: fit the three vertices in order A, B, C. */
  function FitTriangle(b: Box, va: Vec3, vb: Vec3, vc: Vec3): (r: Box)
    ensures Contains(r, va) && Contains(r, vb) && Contains(r, vc)
    ensures Within(b, r)
    ensures Valid(b) ==> Valid(r)
    ensures r.Bounds?
  {
    var r1 := FitVertex(b, va);
    var r2 := FitVertex(r1, vb);
    var r3 := FitVertex(r2, vc);
    WithinContains(r1, r2, va);
    WithinContains(r2, r3, va);
    WithinContains(r2, r3, vb);
    r3
  }

  /** Fitting a triangle whose vertices `c` already holds keeps the box inside `c`. */
  lemma FitTriangleLeast(b: Box, va: Vec3, vb: Vec3, vc: Vec3, c: Box)
    requires Within(b, c) && Contains(c, va) && Contains(c, vb) && Contains(c, vc)
    ensures Within(FitTriangle(b, va, vb, vc), c)
  {
    FitVertexLeast(b, va, c);
    FitVertexLeast(FitVertex(b, va), vb, c);
    FitVertexLeast(FitVertex(FitVertex(b, va), vb), vc, c);
  }

  /** `Centre`: the midpoint `(Min + Max) * 0.5` of a non-empty box. */
  function Centre(b: Box): (r: Vec3)
    requires b.Bounds?
    ensures Scale(2.0, r) == Add(b.lo, b.hi)
    ensures Valid(b) ==> Contains(b, r)
  {
    Scale(0.5, Add(b.lo, b.hi))
  }

  /** `Size`: the extent `Max - Min` of a non-empty box. */
  function Size(b: Box): (r: Vec3)
    requires b.Bounds?
    ensures Valid(b) <==> LeqV(Zero, r)
    ensures Add(b.lo, r) == b.hi
  {
    Sub(b.hi, b.lo)
  }

  // ---------------------------------------------------------------------------
  // Slab test

  /** A float as the slab test meets it: a finite value, one of the two
      infinities a division by a zero direction component gives, or the NaN
      of `0 / 0`. */
  datatype Ext = NegInf | Fin(v: real) | PosInf | NaN

  /** IEEE `a < b`: the order of the extended line, and false whenever a NaN
      is involved. */
  predicate Lt(a: Ext, b: Ext) {
    match (a, b)
    case (NaN, _) => false
    case (_, NaN) => false
    case (NegInf, _) => !b.NegInf?
    case (_, PosInf) => !a.PosInf?
    case (Fin(x), Fin(y)) => x < y
    case _ => false
  }

  /** IEEE `a <= b`. */
  predicate Le(a: Ext, b: Ext) {
    !a.NaN? && !b.NaN? && !Lt(b, a)
  }

  /** IEEE division of a finite numerator by a direction component, the zero
      component read as `+0.0`. */
  function Quot(n: real, d: real): (r: Ext)
    ensures r.NaN? <==> n == 0.0 && d == 0.0
    ensures d != 0.0 ==> r == Fin(n / d)
    ensures d == 0.0 ==> (r == PosInf <==> n > 0.0) && (r == NegInf <==> n < 0.0)
  {
    if d != 0.0 then Fin(n / d)
    else if n > 0.0 then PosInf
    else if n < 0.0 then NegInf
    else NaN
  }

  /** The larger of two NaN-free values. */
  function EMax(a: Ext, b: Ext): Ext { if Lt(a, b) then b else a }

  /** The smaller of two NaN-free values. */
  function EMin(a: Ext, b: Ext): Ext { if Lt(b, a) then b else a }

  /** The result of the box test: acceptance and the reported distance `t`. */
  datatype BoxHit = BoxHit(hit: bool, t: Ext)

  /** The result of a triangle test: acceptance and the reported distance `t`. */
  datatype Hit = Hit(hit: bool, t: real)

  /** `Swap` applied when the first bound exceeds the second. */
  function Ordered(a: Ext, b: Ext): (Ext, Ext) {
    if Lt(b, a) then (b, a) else (a, b)
  }

  /** The slab bounds as the source computes them, in IEEE arithmetic. */
  function SlabInterval(lo: real, hi: real, o: real, d: real): (Ext, Ext) {
    Ordered(Quot(lo - o, d), Quot(hi - o, d))
  }

  /** The parameters at which the ray is between the two planes of one axis.
      A ray parallel to the planes is between them for every parameter or
      for none; the bounds of the second case are the infinities IEEE
      division gives, so that the two definitions agree off the planes. */
  function ExactSlab(lo: real, hi: real, o: real, d: real): (Ext, Ext) {
    if d != 0.0 then Ordered(Fin((lo - o) / d), Fin((hi - o) / d))
    else if lo <= o <= hi then (NegInf, PosInf)
    else if o < lo then (PosInf, PosInf)
    else (NegInf, NegInf)
  }

  /** On one axis no `0 / 0` occurs: the direction component is nonzero, or
      the origin lies off both planes of that axis. */
  predicate AxisDefined(lo: real, hi: real, o: real, d: real) {
    d != 0.0 || (o != lo && o != hi)
  }

  /** The source's computation involves no NaN on any axis. */
  predicate Defined(b: Box, o: Vec3, d: Vec3) {
    b.Bounds? ==>
      && AxisDefined(b.lo.x, b.hi.x, o.x, d.x)
      && AxisDefined(b.lo.y, b.hi.y, o.y, d.y)
      && AxisDefined(b.lo.z, b.hi.z, o.z, d.z)
  }

  /** Off the planes, the IEEE bounds are the exact slab. A parallel ray
      strictly between the planes gets `(-inf, +inf)`, so that axis never
      limits the test, and one outside gets two equal infinities. */
  lemma SlabIsExact(lo: real, hi: real, o: real, d: real)
    requires lo <= hi && AxisDefined(lo, hi, o, d)
    ensures SlabInterval(lo, hi, o, d) == ExactSlab(lo, hi, o, d)
    ensures d == 0.0 && lo < o < hi ==> SlabInterval(lo, hi, o, d) == (NegInf, PosInf)
    ensures d == 0.0 && !(lo <= o <= hi) ==>
              SlabInterval(lo, hi, o, d).0 == SlabInterval(lo, hi, o, d).1 != Fin(0.0)
  {
  }

  /** Entry parameter of the ray into the box: the latest slab entry. */
  function Entry(b: Box, o: Vec3, d: Vec3): Ext
    requires b.Bounds?
  {
    EMax(EMax(ExactSlab(b.lo.x, b.hi.x, o.x, d.x).0, ExactSlab(b.lo.y, b.hi.y, o.y, d.y).0),
         ExactSlab(b.lo.z, b.hi.z, o.z, d.z).0)
  }

  /** Exit parameter of the ray from the box: the earliest slab exit. */
  function Exit(b: Box, o: Vec3, d: Vec3): Ext
    requires b.Bounds?
  {
    EMin(EMin(ExactSlab(b.lo.x, b.hi.x, o.x, d.x).1, ExactSlab(b.lo.y, b.hi.y, o.y, d.y).1),
         ExactSlab(b.lo.z, b.hi.z, o.z, d.z).1)
  }

  /** The ray meets the box somewhere at a non-negative parameter. */
  predicate Overlaps(b: Box, o: Vec3, d: Vec3) {
    b.Bounds? && Le(Entry(b, o, d), Exit(b, o, d)) && Le(Fin(0.0), Exit(b, o, d))
  }

  /** The distance the slab test reports: entry if in front of the origin, else exit. */
  function ReportedT(b: Box, o: Vec3, d: Vec3): Ext
    requires b.Bounds?
  {
    if Lt(Fin(0.0), Entry(b, o, d)) then Entry(b, o, d) else Exit(b, o, d)
  }

  /** One "merge" block of the source: reject when the current interval and
      the next slab are disjoint, otherwise raise the start to the slab's
      entry and lower the end to the slab's exit. */
  function Narrow(cur: (Ext, Ext), slab: (Ext, Ext)): Option<(Ext, Ext)> {
    if Lt(slab.1, cur.0) || Lt(cur.1, slab.0) then None
    else Some((if Lt(cur.0, slab.0) then slab.0 else cur.0, if Lt(slab.1, cur.1) then slab.1 else cur.1))
  }

  /** The comparisons that follow the divisions: merge y into x, then z,
      then the `tMax < 0` reject and the window on the reported `t`. */
  function Steps(x: (Ext, Ext), y: (Ext, Ext), z: (Ext, Ext), near: real, far: real): (r: BoxHit)
    ensures r.hit ==> r.t.Fin? && 0.0 <= r.t.v && near <= r.t.v <= far
  {
    match Narrow(x, y)
    case None => BoxHit(false, Fin(0.0))
    case Some(m) =>
      match Narrow(m, z)
      case None => BoxHit(false, Fin(0.0))
      case Some(n) =>
        if Lt(n.1, Fin(0.0)) then BoxHit(false, Fin(0.0))
        else
          var t := if Lt(Fin(0.0), n.0) then n.0 else n.1;
          BoxHit(Le(Fin(near), t) && Le(t, Fin(far)), t)
  }

  /** A NaN-free interval that is not reversed. */
  predicate Proper(iv: (Ext, Ext)) {
    !iv.0.NaN? && !iv.1.NaN? && Le(iv.0, iv.1)
  }

  /** Merging is intersection: it fails exactly when the intersection is
      reversed, and otherwise yields it. */
  lemma NarrowIsMeet(cur: (Ext, Ext), slab: (Ext, Ext))
    requires Proper(cur) && Proper(slab)
    ensures Narrow(cur, slab).Some? <==> Le(EMax(cur.0, slab.0), EMin(cur.1, slab.1))
    ensures Narrow(cur, slab).Some? ==>
              Narrow(cur, slab).value == (EMax(cur.0, slab.0), EMin(cur.1, slab.1)) && Proper(Narrow(cur, slab).value)
  {
  }

  /** Intersecting further can only shrink a reversed interval further. */
  lemma MeetShrinks(a: Ext, b: Ext, c: Ext, e: Ext)
    requires !a.NaN? && !b.NaN? && !c.NaN? && !e.NaN?
    requires Le(EMax(a, c), EMin(b, e))
    ensures Le(a, b)
  {
  }

  /** The comparisons compute the exact slab test of the three intervals. */
  lemma StepsAreMeet(x: (Ext, Ext), y: (Ext, Ext), z: (Ext, Ext), near: real, far: real)
    requires Proper(x) && Proper(y) && Proper(z)
    ensures var lo := EMax(EMax(x.0, y.0), z.0);
            var hi := EMin(EMin(x.1, y.1), z.1);
            var t := if Lt(Fin(0.0), lo) then lo else hi;
            && (Steps(x, y, z, near, far).hit <==> Le(lo, hi) && Le(Fin(0.0), hi) && Le(Fin(near), t) && Le(t, Fin(far)))
            && (Le(lo, hi) && Le(Fin(0.0), hi) ==> Steps(x, y, z, near, far).t == t)
            && (!(Le(lo, hi) && Le(Fin(0.0), hi)) ==> Steps(x, y, z, near, far).t == Fin(0.0))
  {
    NarrowIsMeet(x, y);
    var m := (EMax(x.0, y.0), EMin(x.1, y.1));
    if Le(m.0, m.1) {
      NarrowIsMeet(m, z);
    } else if Le(EMax(m.0, z.0), EMin(m.1, z.1)) {
      MeetShrinks(m.0, m.1, z.0, z.1);
    }
  }

  /** `CalculateRayIntersection` of the box as the source does it in IEEE
      arithmetic: the three slab divisions, then `Steps`. An empty box is
      rejected; its `t = 0` is a placeholder. In the source its infinite
      corners give every slab `(-inf, +inf)` and the reported `t` is `+inf`,
      which no window passes because `far` here is always a finite real.
      What acceptance means is `RayIntersectionIsSlabTest`. */
  function RayIntersection(b: Box, o: Vec3, d: Vec3, near: real, far: real): (r: BoxHit)
    ensures r.hit ==> b.Bounds? && r.t.Fin? && 0.0 <= r.t.v && near <= r.t.v <= far
  {
    match b
    case Empty => BoxHit(false, Fin(0.0))
    case Bounds(lo, hi) =>
      Steps(SlabInterval(lo.x, hi.x, o.x, d.x), SlabInterval(lo.y, hi.y, o.y, d.y), SlabInterval(lo.z, hi.z, o.z, d.z),
            near, far)
  }

  /** Whenever no `0 / 0` occurs, the box test is the exact slab test: it
      accepts exactly when the entry/exit interval is non-empty, not behind
      the origin, and its reported end lies in the window; for a fitted box
      that interval is where the ray is inside the box (`SlabMeansInside`). */
  lemma RayIntersectionIsSlabTest(b: Box, o: Vec3, d: Vec3, near: real, far: real)
    requires Valid(b) && Defined(b, o, d)
    ensures var r := RayIntersection(b, o, d, near, far);
            && (r.hit <==> Overlaps(b, o, d) && Le(Fin(near), ReportedT(b, o, d)) && Le(ReportedT(b, o, d), Fin(far)))
            && (Overlaps(b, o, d) ==> r.t == ReportedT(b, o, d))
            && (!Overlaps(b, o, d) ==> r.t == Fin(0.0))
  {
    if b.Bounds? {
      SlabFacts(b, o, d);
      StepsAreMeet(ExactSlab(b.lo.x, b.hi.x, o.x, d.x), ExactSlab(b.lo.y, b.hi.y, o.y, d.y),
                   ExactSlab(b.lo.z, b.hi.z, o.z, d.z), near, far);
    }
  }

  /** On a fitted box without `0 / 0`, the three IEEE slabs are the exact ones. */
  lemma SlabFacts(b: Box, o: Vec3, d: Vec3)
    requires b.Bounds?
    ensures Valid(b) && Defined(b, o, d) ==>
              && SlabInterval(b.lo.x, b.hi.x, o.x, d.x) == ExactSlab(b.lo.x, b.hi.x, o.x, d.x)
              && SlabInterval(b.lo.y, b.hi.y, o.y, d.y) == ExactSlab(b.lo.y, b.hi.y, o.y, d.y)
              && SlabInterval(b.lo.z, b.hi.z, o.z, d.z) == ExactSlab(b.lo.z, b.hi.z, o.z, d.z)
    ensures Valid(b) ==>
              && Proper(ExactSlab(b.lo.x, b.hi.x, o.x, d.x))
              && Proper(ExactSlab(b.lo.y, b.hi.y, o.y, d.y))
              && Proper(ExactSlab(b.lo.z, b.hi.z, o.z, d.z))
  {
    if Valid(b) && Defined(b, o, d) {
      SlabIsExact(b.lo.x, b.hi.x, o.x, d.x);
      SlabIsExact(b.lo.y, b.hi.y, o.y, d.y);
      SlabIsExact(b.lo.z, b.hi.z, o.z, d.z);
    }
  }

  /** One slab: the parameter `s` lies in the slab's interval exactly when the
      ray point at `s` lies between the two planes. */
  lemma SlabAxis(lo: real, hi: real, o: real, d: real, s: real)
    requires lo <= hi
    ensures var iv := ExactSlab(lo, hi, o, d);
            Le(iv.0, Fin(s)) && Le(Fin(s), iv.1) <==> lo <= o + s * d <= hi
  {
    if d > 0.0 {
      DivideByPositive(lo - o, d, s);
      DivideByPositive(hi - o, d, s);
      DivideByPositive(lo - o, d, (hi - o) / d);
    } else if d < 0.0 {
      DivideByNegative(lo - o, d, s);
      DivideByNegative(hi - o, d, s);
      DivideByNegative(hi - o, d, (lo - o) / d);
    } else {
      assert o + s * d == o;
    }
  }

  /** Comparing with a quotient by a positive number. */
  lemma DivideByPositive(n: real, d: real, s: real)
    requires d > 0.0
    ensures n / d <= s <==> n <= s * d
    ensures s <= n / d <==> s * d <= n
    ensures (s / d) * d == s
  {
    assert (n / d) * d == n;
    assert (s - n / d) * d == s * d - n;
  }

  /** Comparing with a quotient by a negative number flips the comparison. */
  lemma DivideByNegative(n: real, d: real, s: real)
    requires d < 0.0
    ensures n / d <= s <==> s * d <= n
    ensures s <= n / d <==> n <= s * d
    ensures (s / d) * d == s
  {
    assert (n / d) * d == n;
    assert (s - n / d) * d == s * d - n;
  }

  /** The slab model is the box: for a fitted box, the ray point at `s` is in
      the box exactly when `s` lies between the entry and exit parameters. */
  lemma SlabMeansInside(b: Box, o: Vec3, d: Vec3, s: real)
    requires b.Bounds? && Valid(b)
    ensures Le(Entry(b, o, d), Fin(s)) && Le(Fin(s), Exit(b, o, d)) <==> Contains(b, RayPoint(o, d, s))
  {
    var p := RayPoint(o, d, s);
    var x := ExactSlab(b.lo.x, b.hi.x, o.x, d.x);
    var y := ExactSlab(b.lo.y, b.hi.y, o.y, d.y);
    var z := ExactSlab(b.lo.z, b.hi.z, o.z, d.z);
    SlabFacts(b, o, d);
    SlabAxisPoint(b.lo.x, b.hi.x, o.x, d.x, s, p.x);
    SlabAxisPoint(b.lo.y, b.hi.y, o.y, d.y, s, p.y);
    SlabAxisPoint(b.lo.z, b.hi.z, o.z, d.z, s, p.z);
    InMeetOfThree(x, y, z, Fin(s));
  }

  /** One axis of the box, phrased on the coordinate `p` of the ray point. */
  lemma SlabAxisPoint(lo: real, hi: real, o: real, d: real, s: real, p: real)
    requires lo <= hi && p == o + s * d
    ensures Le(ExactSlab(lo, hi, o, d).0, Fin(s)) && Le(Fin(s), ExactSlab(lo, hi, o, d).1) <==> lo <= p <= hi
  {
    SlabAxis(lo, hi, o, d, s);
  }

  /** A value lies in the meet of three intervals exactly when it lies in
      each of them. */
  lemma InMeetOfThree(x: (Ext, Ext), y: (Ext, Ext), z: (Ext, Ext), s: Ext)
    requires Proper(x) && Proper(y) && Proper(z) && !s.NaN?
    ensures Le(EMax(EMax(x.0, y.0), z.0), s) && Le(s, EMin(EMin(x.1, y.1), z.1))
            <==> Le(x.0, s) && Le(s, x.1) && Le(y.0, s) && Le(s, y.1) && Le(z.0, s) && Le(s, z.1)
  {
    InMeet(x, y, s);
    InMeet((EMax(x.0, y.0), EMin(x.1, y.1)), z, s);
  }

  /** A value lies in the intersection of two intervals exactly when it lies
      in both. */
  lemma InMeet(a: (Ext, Ext), b: (Ext, Ext), s: Ext)
    requires !a.0.NaN? && !a.1.NaN? && !b.0.NaN? && !b.1.NaN? && !s.NaN?
    ensures Le(EMax(a.0, b.0), s) && Le(s, EMin(a.1, b.1)) <==> Le(a.0, s) && Le(s, a.1) && Le(b.0, s) && Le(s, b.1)
    ensures !EMax(a.0, b.0).NaN? && !EMin(a.1, b.1).NaN?
  {
  }

  /** A ray parallel to an axis whose origin lies outside that axis's slab is
      rejected, as the infinite bounds of the source make it. */
  lemma ParallelOutsideMisses(b: Box, o: Vec3, d: Vec3, near: real, far: real)
    requires b.Bounds? && Valid(b) && Defined(b, o, d)
    requires d.x == 0.0 && !(b.lo.x <= o.x <= b.hi.x)
    ensures !RayIntersection(b, o, d, near, far).hit
  {
    RayIntersectionIsSlabTest(b, o, d, near, far);
  }
}

=== FILE: bvh_node.dfy ===
/** `BVHNode`: one slot of the implicit node heap, and the recursive midpoint
    split that builds the tree by partitioning the shared triangle array in
    place (Lomuto style) around the centre of the longest box axis. */
module BVHNode {
  import opened Geometry
  import opened Heap
  import opened BVHBox
  import BVHTriangle

  type Tri = BVHTriangle.Tri

  /** `box`, `index`, `startTriangle`, `triCount`. The back-reference to the
      owning tree is not modelled: the tree is passed explicitly. */
  datatype Node = Node(box: Box, index: nat, start: nat, count: nat)

  /** `ChildA`: the left child slot. */
  function ChildA(i: nat): (r: nat)
    requires i >= 1
    ensures r / 2 == i && r % 2 == 0 && IsDesc(r, i)
  {
    ChildrenAreDesc(i);
    2 * i
  }

  /** `ChildB`: the right child slot, the sibling just after `ChildA`. */
  function ChildB(i: nat): (r: nat)
    requires i >= 1
    ensures r / 2 == i && r % 2 == 1 && r == ChildA(i) + 1 && IsDesc(r, i)
  {
    ChildrenAreDesc(i);
    2 * i + 1
  }

  // ---------------------------------------------------------------------------
  // Triangles against boxes

  predicate ValidTris(tris: seq<Tri>, n: nat) {
    forall k :: 0 <= k < |tris| ==> BVHTriangle.IndicesIn(tris[k], n)
  }

  /** The box holds all three vertices of `t`. */
  predicate HoldsTri(b: Box, verts: seq<Vec3>, t: Tri) {
    && BVHTriangle.IndicesIn(t, |verts|)
    && Contains(b, verts[t.a]) && Contains(b, verts[t.b]) && Contains(b, verts[t.c])
  }

  predicate HoldsAll(b: Box, verts: seq<Vec3>, ts: seq<Tri>) {
    forall t :: t in ts ==> HoldsTri(b, verts, t)
  }

  /** `b` is the least box holding `ts`: it lies within every box that holds
      them, as a box fitted from empty to exactly those triangles does. */
  ghost predicate Least(b: Box, verts: seq<Vec3>, ts: seq<Tri>) {
    forall c :: HoldsAll(c, verts, ts) ==> Within(b, c)
  }

  function TriCentre(verts: seq<Vec3>, t: Tri): Vec3
    requires BVHTriangle.IndicesIn(t, |verts|)
  {
    BVHTriangle.Centre(verts[t.a], verts[t.b], verts[t.c])
  }

  /** `GetSplitAxis`: the axis of the largest extent, ties going to the later
      axis (`x` only if strictly largest, then `y` only if strictly above `z`).
      For the empty box the source compares infinities and answers `z`. */
  function SplitAxis(b: Box): (r: Axis)
    ensures b.Bounds? ==> forall a: Axis :: Comp(Size(b), a) <= Comp(Size(b), r)
    ensures b.Bounds? ==> forall a: Axis :: a > r ==> Comp(Size(b), a) < Comp(Size(b), r)
    ensures b.Empty? ==> r == 2
  {
    if b.Empty? then 2
    else
      var s := Size(b);
      if s.x > MaxR(s.y, s.z) then 0 else if s.y > s.z then 1 else 2
  }

  /** `isSideA`: the triangle's centroid is at or below the box centre on the
      split axis. The empty box has a NaN centre in the source, so every
      comparison with it is false and everything goes to side B. */
  predicate SideA(parent: Box, verts: seq<Vec3>, t: Tri) {
    && parent.Bounds?
    && BVHTriangle.IndicesIn(t, |verts|)
    && Comp(TriCentre(verts, t), SplitAxis(parent)) <= Comp(Centre(parent), SplitAxis(parent))
  }

  predicate AllSideA(parent: Box, verts: seq<Vec3>, ts: seq<Tri>) {
    forall t :: t in ts ==> SideA(parent, verts, t)
  }

  predicate NoneSideA(parent: Box, verts: seq<Vec3>, ts: seq<Tri>) {
    forall t :: t in ts ==> !SideA(parent, verts, t)
  }

  /** Membership predicates depend only on the multiset of triangles. */
  lemma HoldsAllPermutation(b: Box, verts: seq<Vec3>, x: seq<Tri>, y: seq<Tri>)
    requires multiset(x) == multiset(y) && HoldsAll(b, verts, x)
    ensures HoldsAll(b, verts, y)
  {
    forall t | t in y ensures HoldsTri(b, verts, t) {
      assert t in multiset(y);
    }
  }

  lemma LeastPermutation(b: Box, verts: seq<Vec3>, x: seq<Tri>, y: seq<Tri>)
    requires multiset(x) == multiset(y) && Least(b, verts, x)
    ensures Least(b, verts, y)
  {
    forall c | HoldsAll(c, verts, y) ensures Within(b, c) {
      HoldsAllPermutation(c, verts, y, x);
    }
  }

  lemma SidesPermutation(b: Box, verts: seq<Vec3>, x: seq<Tri>, y: seq<Tri>)
    requires multiset(x) == multiset(y)
    ensures AllSideA(b, verts, x) ==> AllSideA(b, verts, y)
    ensures NoneSideA(b, verts, x) ==> NoneSideA(b, verts, y)
  {
    forall t | t in y ensures t in x {
      assert t in multiset(y);
    }
  }

  // ---------------------------------------------------------------------------
  // Root

  /** Fit every vertex in order, starting from `b`. */
  function FitAll(b: Box, vs: seq<Vec3>): (r: Box)
    ensures forall k :: 0 <= k < |vs| ==> Contains(r, vs[k])
    ensures Within(b, r)
    ensures Valid(b) ==> Valid(r)
    ensures r.Empty? <==> b.Empty? && |vs| == 0
    decreases |vs|
  {
    if |vs| == 0 then b
    else
      var r := FitAll(FitVertex(b, vs[0]), vs[1..]);
      assert forall k :: 1 <= k < |vs| ==> vs[k] == vs[1..][k - 1];
      WithinContains(FitVertex(b, vs[0]), r, vs[0]);
      WithinTransitive(b, FitVertex(b, vs[0]), r);
      r
  }

  /** `SetAsRoot`: slot 1, covering every triangle, with a box fitted to every
      vertex of the mesh. */
  function SetAsRoot(verts: seq<Vec3>, numTris: nat): (n: Node)
    ensures n.index == 1 && n.start == 0 && n.count == numTris
    ensures forall k :: 0 <= k < |verts| ==> Contains(n.box, verts[k])
    ensures Valid(n.box)
    ensures n.box.Empty? <==> |verts| == 0
  {
    Node(FitAll(Empty, verts), 1, 0, numTris)
  }

  /** A node placed at slot `i` whose box holds its own triangle range. */
  predicate Placed(n: Node, i: nat, tris: seq<Tri>, verts: seq<Vec3>) {
    && n.index == i
    && n.start + n.count <= |tris|
    && HoldsAll(n.box, verts, tris[n.start .. n.start + n.count])
  }

  lemma RootPlaced(verts: seq<Vec3>, tris: seq<Tri>)
    requires ValidTris(tris, |verts|)
    ensures Placed(SetAsRoot(verts, |tris|), 1, tris, verts)
  {
    var n := SetAsRoot(verts, |tris|);
    assert tris[0..|tris|] == tris;
    forall t | t in tris ensures HoldsTri(n.box, verts, t) {
      var k :| 0 <= k < |tris| && tris[k] == t;
      assert BVHTriangle.IndicesIn(tris[k], |verts|);
    }
  }

  // ---------------------------------------------------------------------------
  // Partition

  /** The partition loop of `MidPointSplit` over the range `[start, start + count)`:
      every side-A triangle is swapped down to `partition`, and each child box
      is fitted, from empty, to the triangles that go to that child, so it is
      the least box holding them. Returns the reordered array, the first
      side-B position, and the two child boxes. */
  method Partition(tris: seq<Tri>, verts: seq<Vec3>, parent: Box, start: nat, count: nat)
    returns (out: seq<Tri>, split: nat, boxA: Box, boxB: Box)
    requires start + count <= |tris| && ValidTris(tris, |verts|)
    requires HoldsAll(parent, verts, tris[start..start + count])
    ensures ValidTris(out, |verts|) && Permutes(tris, out, start, start + count)
    ensures start <= split <= start + count
    ensures AllSideA(parent, verts, out[start..split])
    ensures NoneSideA(parent, verts, out[split..start + count])
    ensures HoldsAll(boxA, verts, out[start..split]) && HoldsAll(boxB, verts, out[split..start + count])
    ensures Least(boxA, verts, out[start..split]) && Least(boxB, verts, out[split..start + count])
    ensures boxA.Empty? <==> split == start
    ensures boxB.Empty? <==> split == start + count
    ensures Valid(boxA) && Valid(boxB)
    ensures Within(boxA, parent) && Within(boxB, parent)
  {
    out := tris;
    var partition: int := start - 1;
    boxA, boxB := Empty, Empty;
    var triI := start;
    while triI < start + count
      invariant PartitionInv(tris, verts, parent, start, count, out, partition, triI, boxA, boxB)
      invariant TightInv(verts, out, start, partition, triI, boxA, boxB)
      decreases start + count - triI
    {
      out, partition, boxA, boxB := PartitionStep(tris, verts, parent, start, count, out, partition, triI, boxA, boxB);
      triI := triI + 1;
    }
    split := partition + 1;
    PartitionDone(tris, verts, parent, start, count, out, partition, boxA, boxB);
    TightLeast(boxA, verts, out, start, split);
    TightLeast(boxB, verts, out, split, start + count);
  }

  /** What the finished loop leaves: the range permuted, side A then side B,
      and each child box holding its run. */
  lemma PartitionDone(tris: seq<Tri>, verts: seq<Vec3>, parent: Box, start: nat, count: nat,
                      out: seq<Tri>, partition: int, boxA: Box, boxB: Box)
    requires PartitionInv(tris, verts, parent, start, count, out, partition, start + count, boxA, boxB)
    ensures ValidTris(out, |verts|) && Permutes(tris, out, start, start + count)
    ensures start <= partition + 1 <= start + count
    ensures AllSideA(parent, verts, out[start..partition + 1])
    ensures NoneSideA(parent, verts, out[partition + 1..start + count])
    ensures HoldsAll(boxA, verts, out[start..partition + 1]) && HoldsAll(boxB, verts, out[partition + 1..start + count])
  {
    var split := partition + 1;
    assert out[..start] == tris[..start];
    assert out[start + count..] == tris[start + count..];
    MiddleMultiset(out, tris, start, start + count);
    RangeSides(parent, verts, boxA, out, start, split, true);
    RangeSides(parent, verts, boxB, out, split, start + count, false);
  }

  /** One iteration of the partition loop at position `triI`: fit the
      triangle into its child's box and, for side A, swap it down to the end
      of the side-A run. */
  method PartitionStep(tris: seq<Tri>, verts: seq<Vec3>, parent: Box, start: nat, count: nat,
                       out: seq<Tri>, partition: int, triI: nat, boxA: Box, boxB: Box)
    returns (out': seq<Tri>, partition': int, boxA': Box, boxB': Box)
    requires PartitionInv(tris, verts, parent, start, count, out, partition, triI, boxA, boxB)
    requires TightInv(verts, out, start, partition, triI, boxA, boxB)
    requires triI < start + count
    ensures PartitionInv(tris, verts, parent, start, count, out', partition', triI + 1, boxA', boxB')
    ensures TightInv(verts, out', start, partition', triI + 1, boxA', boxB')
  {
    var triangle := out[triI];
    var va, vb, vc := verts[triangle.a], verts[triangle.b], verts[triangle.c];
    var isSideA := SideA(parent, verts, triangle);
    if isSideA {
      PartitionStepA(tris, verts, parent, start, count, out, partition, triI, boxA, boxB);
      TightStepA(boxA, boxB, verts, out, start, partition, triI);
      boxA' := FitTriangle(boxA, va, vb, vc);
      partition' := partition + 1;
      out' := Swap(out, triI, partition');
      boxB' := boxB;
    } else {
      PartitionStepB(tris, verts, parent, start, count, out, partition, triI, boxA, boxB);
      TightGrow(boxB, verts, out, partition + 1, triI);
      boxB' := FitTriangle(boxB, va, vb, vc);
      out', partition', boxA' := out, partition, boxA;
    }
  }

  /** The loop invariant of the partition: `out[start..partition]` is side A
      and fitted by `boxA`, `out[partition+1..triI]` is side B and fitted by
      `boxB`, the unvisited tail and everything outside the range are as they
      were, and the child boxes stay inside the parent. */
  ghost predicate PartitionInv(tris: seq<Tri>, verts: seq<Vec3>, parent: Box, start: nat, count: nat,
                               out: seq<Tri>, partition: int, triI: nat, boxA: Box, boxB: Box)
  {
    && start + count <= |tris| && ValidTris(tris, |verts|)
    && HoldsAll(parent, verts, tris[start..start + count])
    && start <= triI <= start + count
    && start - 1 <= partition < triI
    && |out| == |tris| && ValidTris(out, |verts|)
    && (forall k :: 0 <= k < start || triI <= k < |tris| ==> out[k] == tris[k])
    && multiset(out) == multiset(tris)
    && Sided(parent, verts, out, start, partition + 1, true)
    && Sided(parent, verts, out, partition + 1, triI, false)
    && Fitted(boxA, verts, out, start, partition + 1)
    && Fitted(boxB, verts, out, partition + 1, triI)
    && (boxA.Empty? <==> partition == start - 1)
    && (boxB.Empty? <==> partition == triI - 1)
    && Valid(boxA) && Valid(boxB)
    && Within(boxA, parent) && Within(boxB, parent)
  }

  lemma PartitionStepA(tris: seq<Tri>, verts: seq<Vec3>, parent: Box, start: nat, count: nat,
                       out: seq<Tri>, partition: int, triI: nat, boxA: Box, boxB: Box)
    requires PartitionInv(tris, verts, parent, start, count, out, partition, triI, boxA, boxB)
    requires triI < start + count && SideA(parent, verts, out[triI])
    ensures PartitionInv(tris, verts, parent, start, count, Swap(out, triI, partition + 1), partition + 1, triI + 1,
                         FitTriangle(boxA, verts[out[triI].a], verts[out[triI].b], verts[out[triI].c]), boxB)
  {
    var t := out[triI];
    assert t == tris[triI] == tris[start..start + count][triI - start];
    assert t in tris[start..start + count];
    FitTriangleLeast(boxA, verts[t.a], verts[t.b], verts[t.c], parent);
    var grown := FitTriangle(boxA, verts[t.a], verts[t.b], verts[t.c]);
    FittedStepA(boxA, grown, boxB, verts, out, start, partition, triI);
    SidedStepA(parent, verts, out, start, partition, triI);
  }

  lemma PartitionStepB(tris: seq<Tri>, verts: seq<Vec3>, parent: Box, start: nat, count: nat,
                       out: seq<Tri>, partition: int, triI: nat, boxA: Box, boxB: Box)
    requires PartitionInv(tris, verts, parent, start, count, out, partition, triI, boxA, boxB)
    requires triI < start + count && !SideA(parent, verts, out[triI])
    ensures PartitionInv(tris, verts, parent, start, count, out, partition, triI + 1,
                         boxA, FitTriangle(boxB, verts[out[triI].a], verts[out[triI].b], verts[out[triI].c]))
  {
    var t := out[triI];
    assert t == tris[triI] == tris[start..start + count][triI - start];
    assert t in tris[start..start + count];
    FitTriangleLeast(boxB, verts[t.a], verts[t.b], verts[t.c], parent);
    var grown := FitTriangle(boxB, verts[t.a], verts[t.b], verts[t.c]);
    FittedGrow(boxB, grown, verts, out, partition + 1, triI);
    SidedGrow(parent, verts, out, partition + 1, triI, false);
  }

  /** Every triangle of `s[lo..hi]` is on side A (`isA`) or on side B (`!isA`). */
  ghost predicate Sided(parent: Box, verts: seq<Vec3>, s: seq<Tri>, lo: nat, hi: nat, isA: bool)
    requires lo <= hi <= |s|
  {
    forall k :: lo <= k < hi ==> SideA(parent, verts, s[k]) == isA
  }

  lemma SidedGrow(parent: Box, verts: seq<Vec3>, s: seq<Tri>, lo: nat, hi: nat, isA: bool)
    requires lo <= hi < |s| && Sided(parent, verts, s, lo, hi, isA) && SideA(parent, verts, s[hi]) == isA
    ensures Sided(parent, verts, s, lo, hi + 1, isA)
  {
  }

  lemma SidedStepA(parent: Box, verts: seq<Vec3>, s: seq<Tri>, lo: nat, p: int, i: nat)
    requires lo - 1 <= p < i < |s| && SideA(parent, verts, s[i])
    requires Sided(parent, verts, s, lo, p + 1, true) && Sided(parent, verts, s, p + 1, i, false)
    ensures Sided(parent, verts, Swap(s, i, p + 1), lo, p + 2, true)
    ensures Sided(parent, verts, Swap(s, i, p + 1), p + 2, i + 1, false)
  {
  }

  /** Every triangle of `s[lo..hi]` lies in `box`. */
  ghost predicate Fitted(box: Box, verts: seq<Vec3>, s: seq<Tri>, lo: nat, hi: nat)
    requires lo <= hi <= |s|
  {
    forall k :: lo <= k < hi ==> HoldsTri(box, verts, s[k])
  }

  /** Growing a box, then fitting the next triangle, keeps the range fitted. */
  lemma FittedGrow(b: Box, b': Box, verts: seq<Vec3>, s: seq<Tri>, lo: nat, hi: nat)
    requires lo <= hi < |s| && Fitted(b, verts, s, lo, hi)
    requires Within(b, b') && HoldsTri(b', verts, s[hi])
    ensures Fitted(b', verts, s, lo, hi + 1)
  {
    forall k | lo <= k < hi ensures HoldsTri(b', verts, s[k]) {
      var t := s[k];
      WithinContains(b, b', verts[t.a]);
      WithinContains(b, b', verts[t.b]);
      WithinContains(b, b', verts[t.c]);
    }
  }

  /** The side-A step: the new triangle is swapped to `p + 1`, and the side-B
      triangle that sat there moves to the end of the side-B run. */
  lemma FittedStepA(a: Box, a': Box, b: Box, verts: seq<Vec3>, s: seq<Tri>, lo: nat, p: int, i: nat)
    requires lo - 1 <= p < i < |s|
    requires Fitted(a, verts, s, lo, p + 1) && Fitted(b, verts, s, p + 1, i)
    requires Within(a, a') && HoldsTri(a', verts, s[i])
    ensures Fitted(a', verts, Swap(s, i, p + 1), lo, p + 2)
    ensures Fitted(b, verts, Swap(s, i, p + 1), p + 2, i + 1)
  {
    var s' := Swap(s, i, p + 1);
    forall k | lo <= k < p + 2 ensures HoldsTri(a', verts, s'[k]) {
      if k < p + 1 {
        var t := s[k];
        WithinContains(a, a', verts[t.a]);
        WithinContains(a, a', verts[t.b]);
        WithinContains(a, a', verts[t.c]);
      }
    }
  }

  /** The second loop invariant of the partition: each child box is the
      least box holding its run so far. */
  ghost predicate TightInv(verts: seq<Vec3>, out: seq<Tri>, start: nat, partition: int, triI: nat, boxA: Box, boxB: Box) {
    && start <= partition + 1 <= triI <= |out|
    && Tight(boxA, verts, out, start, partition + 1)
    && Tight(boxB, verts, out, partition + 1, triI)
  }

  /** `box` lies within every box that holds the triangles of `s[lo..hi]`. */
  ghost predicate Tight(box: Box, verts: seq<Vec3>, s: seq<Tri>, lo: nat, hi: nat)
    requires lo <= hi <= |s|
  {
    forall c :: Fitted(c, verts, s, lo, hi) ==> Within(box, c)
  }

  /** Fitting the next triangle into a tight box keeps it tight for the
      longer range. */
  lemma TightGrow(b: Box, verts: seq<Vec3>, s: seq<Tri>, lo: nat, hi: nat)
    requires lo <= hi < |s| && Tight(b, verts, s, lo, hi) && BVHTriangle.IndicesIn(s[hi], |verts|)
    ensures Tight(FitTriangle(b, verts[s[hi].a], verts[s[hi].b], verts[s[hi].c]), verts, s, lo, hi + 1)
  {
    var t := s[hi];
    forall c | Fitted(c, verts, s, lo, hi + 1)
      ensures Within(FitTriangle(b, verts[t.a], verts[t.b], verts[t.c]), c)
    {
      assert Fitted(c, verts, s, lo, hi);
      FitTriangleLeast(b, verts[t.a], verts[t.b], verts[t.c], c);
    }
  }

  /** The side-A step keeps both boxes tight: A gains the swapped-in
      triangle, and B's run holds the same triangles, rotated by one. */
  lemma TightStepA(a: Box, b: Box, verts: seq<Vec3>, s: seq<Tri>, lo: nat, p: int, i: nat)
    requires lo - 1 <= p < i < |s| && BVHTriangle.IndicesIn(s[i], |verts|)
    requires Tight(a, verts, s, lo, p + 1) && Tight(b, verts, s, p + 1, i)
    ensures Tight(FitTriangle(a, verts[s[i].a], verts[s[i].b], verts[s[i].c]), verts, Swap(s, i, p + 1), lo, p + 2)
    ensures Tight(b, verts, Swap(s, i, p + 1), p + 2, i + 1)
  {
    var s' := Swap(s, i, p + 1);
    var t := s[i];
    forall c | Fitted(c, verts, s', lo, p + 2)
      ensures Within(FitTriangle(a, verts[t.a], verts[t.b], verts[t.c]), c)
    {
      assert Fitted(c, verts, s, lo, p + 1) by {
        forall k | lo <= k < p + 1 ensures HoldsTri(c, verts, s[k]) {
          assert s'[k] == s[k];
        }
      }
      assert HoldsTri(c, verts, s'[p + 1]);
      FitTriangleLeast(a, verts[t.a], verts[t.b], verts[t.c], c);
    }
    forall c | Fitted(c, verts, s', p + 2, i + 1) ensures Within(b, c) {
      assert Fitted(c, verts, s, p + 1, i) by {
        forall k | p + 1 <= k < i ensures HoldsTri(c, verts, s[k]) {
          if k == p + 1 {
            assert s'[i] == s[k];
          } else {
            assert s'[k] == s[k];
          }
        }
      }
    }
  }

  /** A tight range box is the least box of the range's triangles. */
  lemma TightLeast(box: Box, verts: seq<Vec3>, s: seq<Tri>, lo: nat, hi: nat)
    requires lo <= hi <= |s| && Tight(box, verts, s, lo, hi)
    ensures Least(box, verts, s[lo..hi])
  {
    forall c | HoldsAll(c, verts, s[lo..hi]) ensures Within(box, c) {
      assert Fitted(c, verts, s, lo, hi) by {
        forall k | lo <= k < hi ensures HoldsTri(c, verts, s[k]) {
          assert s[k] in s[lo..hi];
        }
      }
    }
  }

  /** Index-wise facts about a range, restated over its members. */
  lemma RangeSides(parent: Box, verts: seq<Vec3>, box: Box, s: seq<Tri>, lo: nat, hi: nat, isA: bool)
    requires lo <= hi <= |s|
    requires Sided(parent, verts, s, lo, hi, isA) && Fitted(box, verts, s, lo, hi)
    ensures isA ==> AllSideA(parent, verts, s[lo..hi])
    ensures !isA ==> NoneSideA(parent, verts, s[lo..hi])
    ensures HoldsAll(box, verts, s[lo..hi])
  {
    forall t | t in s[lo..hi]
      ensures SideA(parent, verts, t) == isA && HoldsTri(box, verts, t)
    {
      var k :| 0 <= k < hi - lo && s[lo..hi][k] == t;
      assert s[lo + k] == t;
    }
  }

  /** Exchange two positions; everything else stays, and so does the multiset. */
  function Swap(s: seq<Tri>, i: nat, j: nat): (r: seq<Tri>)
    requires i < |s| && j < |s|
    ensures |r| == |s| && r[i] == s[j] && r[j] == s[i]
    ensures forall k :: 0 <= k < |s| && k != i && k != j ==> r[k] == s[k]
    ensures multiset(r) == multiset(s)
  {
    s[i := s[j]][j := s[i]]
  }

  /** Equal multisets and equal outer parts give equal middle multisets. */
  lemma MiddleMultiset(x: seq<Tri>, y: seq<Tri>, lo: nat, hi: nat)
    requires lo <= hi <= |x| == |y|
    requires multiset(x) == multiset(y)
    requires x[..lo] == y[..lo] && x[hi..] == y[hi..]
    ensures multiset(x[lo..hi]) == multiset(y[lo..hi])
  {
    assert x == x[..lo] + x[lo..hi] + x[hi..];
    assert y == y[..lo] + y[lo..hi] + y[hi..];
    assert multiset(x) == multiset(x[..lo]) + multiset(x[lo..hi]) + multiset(x[hi..]);
    assert multiset(y) == multiset(y[..lo]) + multiset(y[lo..hi]) + multiset(y[hi..]);
    assert multiset(x[lo..hi]) == multiset(x) - multiset(x[..lo]) - multiset(x[hi..]);
  }

  /** `y` is `x` with the range `[lo, hi)` permuted and everything else kept. */
  predicate Permutes(x: seq<Tri>, y: seq<Tri>, lo: nat, hi: nat) {
    && |x| == |y| && lo <= hi <= |x|
    && y[..lo] == x[..lo] && y[hi..] == x[hi..]
    && multiset(x[lo..hi]) == multiset(y[lo..hi])
  }

  /** Permuting a sub-range of an already permuted range permutes the range. */
  lemma PermutesCompose(x: seq<Tri>, y: seq<Tri>, z: seq<Tri>, lo: nat, hi: nat, lo': nat, hi': nat)
    requires Permutes(x, y, lo, hi) && Permutes(y, z, lo', hi')
    requires lo <= lo' <= hi' <= hi
    ensures Permutes(x, z, lo, hi)
  {
    PermutesKeeps(y, z, lo', hi', 0, lo);
    PermutesKeeps(y, z, lo', hi', lo, lo');
    PermutesKeeps(y, z, lo', hi', hi', hi);
    PermutesKeeps(y, z, lo', hi', hi, |y|);
    assert z[..lo] == z[0..lo] && y[..lo] == y[0..lo];
    assert z[hi..] == z[hi..|z|] && y[hi..] == y[hi..|y|];
    assert y[lo..hi] == y[lo..lo'] + y[lo'..hi'] + y[hi'..hi];
    assert z[lo..hi] == z[lo..lo'] + z[lo'..hi'] + z[hi'..hi];
  }

  /** The elements of a range kept by a permutation of a disjoint range. */
  lemma PermutesKeeps(x: seq<Tri>, y: seq<Tri>, lo: nat, hi: nat, lo': nat, hi': nat)
    requires Permutes(x, y, lo, hi) && lo' <= hi' <= |x|
    requires hi' <= lo || hi <= lo'
    ensures y[lo'..hi'] == x[lo'..hi']
  {
    forall k | lo' <= k < hi' ensures y[k] == x[k] {
      if k < lo {
        assert y[k] == y[..lo][k] && x[k] == x[..lo][k];
      } else {
        assert y[k] == y[hi..][k - hi] && x[k] == x[hi..][k - hi];
      }
    }
  }

  // ---------------------------------------------------------------------------
  // Midpoint split

  /** Node `n` is split into `a` and `b`: the children tile the parent's range
      side A first, their boxes are inside the parent's and are the least
      boxes holding their runs, a child box is empty exactly when the child
      has no triangles, and the parent's split rule sends the first run to
      side A and the second to side B. */
  ghost predicate Split(n: Node, a: Node, b: Node, tris: seq<Tri>, verts: seq<Vec3>) {
    && a.start == n.start && b.start == a.start + a.count && a.count + b.count == n.count
    && n.start + n.count <= |tris|
    && Within(a.box, n.box) && Within(b.box, n.box)
    && Least(a.box, verts, tris[a.start..a.start + a.count]) && Least(b.box, verts, tris[b.start..b.start + b.count])
    && (a.box.Empty? <==> a.count == 0) && (b.box.Empty? <==> b.count == 0)
    && AllSideA(n.box, verts, tris[a.start..a.start + a.count])
    && NoneSideA(n.box, verts, tris[b.start..b.start + b.count])
  }

  /** The subtree of height `h` at slot `i` is built: every node in it is
      placed at its own slot with a box that holds its triangles, and every
      inner node is split into its two children. */
  ghost predicate WellBuilt(nodes: seq<Option<Node>>, tris: seq<Tri>, verts: seq<Vec3>, i: nat, h: nat)
    decreases h
  {
    && 1 <= i < |nodes| && nodes[i].Some?
    && Placed(nodes[i].value, i, tris, verts)
    && (h >= 2 ==>
          && 2 * i + 1 < |nodes| && nodes[2 * i].Some? && nodes[2 * i + 1].Some?
          && Split(nodes[i].value, nodes[2 * i].value, nodes[2 * i + 1].value, tris, verts)
          && WellBuilt(nodes, tris, verts, 2 * i, h - 1)
          && WellBuilt(nodes, tris, verts, 2 * i + 1, h - 1))
  }

  /** A built subtree stays built when neither its slots nor its triangle
      range change. */
  lemma {:induction false} WellBuiltFrame(n1: seq<Option<Node>>, t1: seq<Tri>, n2: seq<Option<Node>>, t2: seq<Tri>,
                                          verts: seq<Vec3>, r: Node, i: nat, h: nat)
    requires WellBuilt(n1, t1, verts, i, h) && n1[i] == Some(r)
    requires |n2| == |n1| && forall j :: 0 <= j < |n1| && IsDesc(j, i) ==> n2[j] == n1[j]
    requires |t2| == |t1| && t2[r.start..r.start + r.count] == t1[r.start..r.start + r.count]
    ensures WellBuilt(n2, t2, verts, i, h)
    decreases h
  {
    assert IsDesc(i, i);
    PlacedFrame(r, i, t1, t2, verts);
    if h >= 2 {
      var a, b := n1[2 * i].value, n1[2 * i + 1].value;
      ChildrenAreDesc(i);
      SubSlice(t1, t2, r.start, r.start + r.count, a.start, a.start + a.count);
      SubSlice(t1, t2, r.start, r.start + r.count, b.start, b.start + b.count);
      forall j | 0 <= j < |n1| && IsDesc(j, 2 * i) ensures n2[j] == n1[j] {
        DescTransitive(j, 2 * i, i);
      }
      forall j | 0 <= j < |n1| && IsDesc(j, 2 * i + 1) ensures n2[j] == n1[j] {
        DescTransitive(j, 2 * i + 1, i);
      }
      SplitKept(r, a, b, t1, t2, verts);
      WellBuiltFrame(n1, t1, n2, t2, verts, a, 2 * i, h - 1);
      WellBuiltFrame(n1, t1, n2, t2, verts, b, 2 * i + 1, h - 1);
      BuiltFromChildren(n2, t2, verts, i, h, r, a, b);
    }
  }

  /** A node stays placed when its own triangle range is unchanged. */
  lemma PlacedFrame(n: Node, i: nat, t1: seq<Tri>, t2: seq<Tri>, verts: seq<Vec3>)
    requires Placed(n, i, t1, verts) && |t2| == |t1|
    requires t2[n.start..n.start + n.count] == t1[n.start..n.start + n.count]
    ensures Placed(n, i, t2, verts)
  {
  }

  /** A split stays a split when the children's triangle runs are unchanged. */
  lemma SplitKept(n: Node, a: Node, b: Node, t1: seq<Tri>, t2: seq<Tri>, verts: seq<Vec3>)
    requires Split(n, a, b, t1, verts) && |t2| == |t1|
    requires t2[a.start..a.start + a.count] == t1[a.start..a.start + a.count]
    requires t2[b.start..b.start + b.count] == t1[b.start..b.start + b.count]
    ensures Split(n, a, b, t2, verts)
  {
  }

  lemma SubSlice(x: seq<Tri>, y: seq<Tri>, lo: nat, hi: nat, lo': nat, hi': nat)
    requires lo <= lo' <= hi' <= hi <= |x| && hi <= |y| && x[lo..hi] == y[lo..hi]
    ensures x[lo'..hi'] == y[lo'..hi']
  {
    forall k | lo' <= k < hi' ensures x[k] == y[k] {
      assert x[k] == x[lo..hi][k - lo];
    }
  }

  /** The triangle-range half of a split: after the partition (`tris` to
      `out`) and the two child splits (`out` to `mid` on A's run, `mid` to
      `fin` on B's run), the parent's range is still a permutation holding
      the same triangles, and each run still holds only its own side. */
  lemma SplitRanges(tris: seq<Tri>, out: seq<Tri>, mid: seq<Tri>, fin: seq<Tri>, verts: seq<Vec3>,
                    box: Box, lo: nat, m: nat, hi: nat)
    requires lo <= m <= hi
    requires Permutes(tris, out, lo, hi) && HoldsAll(box, verts, tris[lo..hi])
    requires AllSideA(box, verts, out[lo..m]) && NoneSideA(box, verts, out[m..hi])
    requires Permutes(out, mid, lo, m) && Permutes(mid, fin, m, hi)
    ensures Permutes(tris, fin, lo, hi) && HoldsAll(box, verts, fin[lo..hi])
    ensures AllSideA(box, verts, fin[lo..m]) && NoneSideA(box, verts, fin[m..hi])
    ensures fin[lo..m] == mid[lo..m]
  {
    PermutesKeeps(out, mid, lo, m, m, hi);
    PermutesKeeps(mid, fin, m, hi, lo, m);
    PermutesCompose(tris, out, mid, lo, hi, lo, m);
    PermutesCompose(tris, mid, fin, lo, hi, m, hi);
    HoldsAllPermutation(box, verts, tris[lo..hi], fin[lo..hi]);
    SidesPermutation(box, verts, out[lo..m], mid[lo..m]);
    SidesPermutation(box, verts, mid[m..hi], fin[m..hi]);
  }

  /** The subtree of height `h` under slot `i` lies inside an array of `n` slots. */
  predicate SubtreeFits(i: nat, h: nat, n: nat)
    decreases h
  {
    1 <= i < n && (h >= 2 ==> SubtreeFits(2 * i, h - 1, n) && SubtreeFits(2 * i + 1, h - 1, n))
  }

  /** In a heap of `2^depth` slots, every slot of level `depth - h` has a
      full subtree of height `h` below it. */
  lemma {:induction false} SubtreeFitsLevel(i: nat, h: nat, depth: nat)
    requires 1 <= h <= depth
    requires Pow2(depth - h) <= i < Pow2(depth - h + 1)
    ensures SubtreeFits(i, h, Pow2(depth))
    decreases h
  {
    Pow2Monotone(depth - h + 1, depth);
    if h >= 2 {
      assert Pow2(depth - (h - 1)) == 2 * Pow2(depth - h);
      assert Pow2(depth - (h - 1) + 1) == 2 * Pow2(depth - h + 1);
      SubtreeFitsLevel(2 * i, h - 1, depth);
      SubtreeFitsLevel(2 * i + 1, h - 1, depth);
    }
  }

  /** `MidPointSplit(height)` of the node `n` at slot `i`: partition its
      range, create both children, and split them with one less height, until
      height 1. Only the subtree under `i` and the node's own triangle range
      change. */
  method MidPointSplit(nodes: seq<Option<Node>>, tris: seq<Tri>, verts: seq<Vec3>, n: Node, i: nat, height: nat)
    returns (nodes': seq<Option<Node>>, tris': seq<Tri>)
    requires ValidTris(tris, |verts|)
    requires height >= 1 && SubtreeFits(i, height, |nodes|)
    requires nodes[i] == Some(n) && Placed(n, i, tris, verts)
    ensures |nodes'| == |nodes| && ValidTris(tris', |verts|)
    ensures forall j :: 0 <= j < |nodes| && !IsDesc(j, i) ==> nodes'[j] == nodes[j]
    ensures nodes'[i] == Some(n)
    ensures Permutes(tris, tris', n.start, n.start + n.count)
    ensures WellBuilt(nodes', tris', verts, i, height)
    decreases height, 2
  {
    if height <= 1 {
      return nodes, tris;
    }
    var nodes1, out, a, b := CreateChildren(nodes, tris, verts, n, i);
    nodes', tris' := SplitChildren(nodes, tris, nodes1, out, verts, n, i, height, a, b);
  }

  /** The second half of `MidPointSplit`: split child A, then child B, each
      with one less height. */
  method SplitChildren(nodes: seq<Option<Node>>, tris: seq<Tri>, nodes1: seq<Option<Node>>, out: seq<Tri>,
                       verts: seq<Vec3>, n: Node, i: nat, height: nat, a: Node, b: Node)
    returns (nodes': seq<Option<Node>>, tris': seq<Tri>)
    requires height >= 2 && SubtreeFits(i, height, |nodes|) && 2 * i + 1 < |nodes|
    requires nodes[i] == Some(n) && Placed(n, i, tris, verts)
    requires ChildrenMade(n, i, tris, out, verts, a, b)
    requires ValidTris(out, |verts|)
    requires Placed(a, 2 * i, out, verts) && Placed(b, 2 * i + 1, out, verts)
    requires |nodes1| == |nodes| && nodes1[2 * i] == Some(a) && nodes1[2 * i + 1] == Some(b)
    requires forall j :: 0 <= j < |nodes| && j != 2 * i && j != 2 * i + 1 ==> nodes1[j] == nodes[j]
    ensures |nodes'| == |nodes| && ValidTris(tris', |verts|)
    ensures forall j :: 0 <= j < |nodes| && !IsDesc(j, i) ==> nodes'[j] == nodes[j]
    ensures nodes'[i] == Some(n)
    ensures Permutes(tris, tris', n.start, n.start + n.count)
    ensures WellBuilt(nodes', tris', verts, i, height)
    decreases height, 1
  {
    var nodes2, tris2 := MidPointSplit(nodes1, out, verts, a, 2 * i, height - 1);
    PermutesKeeps(out, tris2, a.start, a.start + a.count, b.start, b.start + b.count);
    assert !IsDesc(2 * i + 1, 2 * i) by {
      assert (2 * i + 1) / 2 == i;
    }
    nodes', tris' := MidPointSplit(nodes2, tris2, verts, b, 2 * i + 1, height - 1);
    FinishSplit(nodes, tris, nodes1, out, nodes2, tris2, nodes', tris', verts, n, i, height, a, b);
  }

  /** The first half of `MidPointSplit`: create both children of slot `i`,
      partition its range, and give each child its run and fitted box. */
  method CreateChildren(nodes: seq<Option<Node>>, tris: seq<Tri>, verts: seq<Vec3>, n: Node, i: nat)
    returns (nodes1: seq<Option<Node>>, out: seq<Tri>, a: Node, b: Node)
    requires ValidTris(tris, |verts|)
    requires 1 <= i && 2 * i + 1 < |nodes|
    requires nodes[i] == Some(n) && Placed(n, i, tris, verts)
    ensures ChildrenMade(n, i, tris, out, verts, a, b)
    ensures ValidTris(out, |verts|)
    ensures Placed(a, 2 * i, out, verts) && Placed(b, 2 * i + 1, out, verts)
    ensures |nodes1| == |nodes| && nodes1[2 * i] == Some(a) && nodes1[2 * i + 1] == Some(b)
    ensures forall j :: 0 <= j < |nodes| && j != 2 * i && j != 2 * i + 1 ==> nodes1[j] == nodes[j]
  {
    var split, boxA, boxB;
    out, split, boxA, boxB := Partition(tris, verts, n.box, n.start, n.count);
    a := Node(boxA, ChildA(i), n.start, split - n.start);
    b := Node(boxB, ChildB(i), n.start + a.count, n.count - a.count);
    assert out[a.start..a.start + a.count] == out[n.start..split];
    assert out[b.start..b.start + b.count] == out[split..n.start + n.count];
    nodes1 := nodes[ChildA(i) := Some(a)][ChildB(i) := Some(b)];
  }

  /** The children `a` and `b` of the node `n` at slot `i`, as the first half
      of the split leaves them: they tile the parent's range (now permuted into
      `out`), side A first, inside the parent's box, each child box the least
      box of its run, and a child box is empty exactly when its run is. */
  ghost predicate ChildrenMade(n: Node, i: nat, tris: seq<Tri>, out: seq<Tri>, verts: seq<Vec3>, a: Node, b: Node) {
    && a.index == 2 * i && b.index == 2 * i + 1
    && a.start == n.start && b.start == n.start + a.count && a.count + b.count == n.count
    && Permutes(tris, out, n.start, n.start + n.count)
    && AllSideA(n.box, verts, out[a.start..a.start + a.count])
    && NoneSideA(n.box, verts, out[b.start..b.start + b.count])
    && Within(a.box, n.box) && Within(b.box, n.box)
    && Least(a.box, verts, out[a.start..a.start + a.count]) && Least(b.box, verts, out[b.start..b.start + b.count])
    && (a.box.Empty? <==> a.count == 0) && (b.box.Empty? <==> b.count == 0)
  }

  /** What the two child splits leave behind: the parent `n` at slot `i` is
      split into `a` and `b` and both subtrees are built, and nothing outside
      the subtree or the parent's range changed. */
  lemma FinishSplit(nodes: seq<Option<Node>>, tris: seq<Tri>, nodes1: seq<Option<Node>>, out: seq<Tri>,
                    nodes2: seq<Option<Node>>, tris2: seq<Tri>, nodes3: seq<Option<Node>>, tris3: seq<Tri>,
                    verts: seq<Vec3>, n: Node, i: nat, height: nat, a: Node, b: Node)
    requires 1 <= i && 2 * i + 1 < |nodes| && height >= 2
    requires nodes[i] == Some(n) && Placed(n, i, tris, verts)
    requires ChildrenMade(n, i, tris, out, verts, a, b)
    requires |nodes1| == |nodes| && nodes1[2 * i] == Some(a) && nodes1[2 * i + 1] == Some(b)
    requires forall j :: 0 <= j < |nodes| && j != 2 * i && j != 2 * i + 1 ==> nodes1[j] == nodes[j]
    requires |nodes2| == |nodes1|
    requires forall j :: 0 <= j < |nodes1| && !IsDesc(j, 2 * i) ==> nodes2[j] == nodes1[j]
    requires nodes2[2 * i] == Some(a)
    requires Permutes(out, tris2, a.start, a.start + a.count)
    requires WellBuilt(nodes2, tris2, verts, 2 * i, height - 1)
    requires |nodes3| == |nodes2|
    requires forall j :: 0 <= j < |nodes2| && !IsDesc(j, 2 * i + 1) ==> nodes3[j] == nodes2[j]
    requires nodes3[2 * i + 1] == Some(b)
    requires Permutes(tris2, tris3, b.start, b.start + b.count)
    requires WellBuilt(nodes3, tris3, verts, 2 * i + 1, height - 1)
    ensures forall j :: 0 <= j < |nodes| && !IsDesc(j, i) ==> nodes3[j] == nodes[j]
    ensures nodes3[i] == Some(n)
    ensures Permutes(tris, tris3, n.start, n.start + n.count)
    ensures WellBuilt(nodes3, tris3, verts, i, height)
  {
    SplitTriangles(n, i, a, b, tris, out, tris2, tris3, verts);
    SplitFrame(nodes, nodes1, nodes2, nodes3, i);
    WellBuiltFrame(nodes2, tris2, nodes3, tris3, verts, a, 2 * i, height - 1);
    BuiltFromChildren(nodes3, tris3, verts, i, height, n, a, b);
  }

  /** The triangle-range half of `FinishSplit`. */
  lemma SplitTriangles(n: Node, i: nat, a: Node, b: Node, tris: seq<Tri>, out: seq<Tri>, tris2: seq<Tri>,
                       tris3: seq<Tri>, verts: seq<Vec3>)
    requires Placed(n, i, tris, verts) && ChildrenMade(n, i, tris, out, verts, a, b)
    requires Permutes(out, tris2, a.start, a.start + a.count)
    requires Permutes(tris2, tris3, b.start, b.start + b.count)
    ensures Permutes(tris, tris3, n.start, n.start + n.count)
    ensures Placed(n, i, tris3, verts) && Split(n, a, b, tris3, verts)
    ensures tris3[a.start..a.start + a.count] == tris2[a.start..a.start + a.count]
  {
    SplitRanges(tris, out, tris2, tris3, verts, n.box, a.start, b.start, b.start + b.count);
    PermutesKeeps(out, tris2, a.start, a.start + a.count, b.start, b.start + b.count);
    LeastPermutation(a.box, verts, out[a.start..a.start + a.count], tris3[a.start..a.start + a.count]);
    LeastPermutation(b.box, verts, out[b.start..b.start + b.count], tris3[b.start..b.start + b.count]);
  }

  /** Slot bookkeeping of a split: the first child's split changes only its
      own subtree and the second child's only its own, so together they change
      only the subtree under `i`, and the second leaves the first's alone. */
  lemma SplitFrame(nodes: seq<Option<Node>>, nodes1: seq<Option<Node>>, nodes2: seq<Option<Node>>,
                   nodes3: seq<Option<Node>>, i: nat)
    requires 1 <= i && 2 * i + 1 < |nodes|
    requires |nodes1| == |nodes| && |nodes2| == |nodes| && |nodes3| == |nodes|
    requires forall j :: 0 <= j < |nodes| && j != 2 * i && j != 2 * i + 1 ==> nodes1[j] == nodes[j]
    requires forall j :: 0 <= j < |nodes1| && !IsDesc(j, 2 * i) ==> nodes2[j] == nodes1[j]
    requires forall j :: 0 <= j < |nodes2| && !IsDesc(j, 2 * i + 1) ==> nodes3[j] == nodes2[j]
    ensures forall j :: 0 <= j < |nodes2| && IsDesc(j, 2 * i) ==> nodes3[j] == nodes2[j]
    ensures forall j :: 0 <= j < |nodes| && !IsDesc(j, i) ==> nodes3[j] == nodes[j]
    ensures nodes3[i] == nodes[i] && nodes3[2 * i] == nodes2[2 * i]
  {
    ChildrenAreDesc(i);
    assert !IsDesc(i, 2 * i) && !IsDesc(i, 2 * i + 1);
    assert !IsDesc(2 * i + 1, 2 * i) by {
      assert (2 * i + 1) / 2 == i;
    }
    forall j | 0 <= j < |nodes| && IsDesc(j, 2 * i) ensures nodes3[j] == nodes2[j] {
      SiblingsDisjoint(j, i);
    }
    forall j | 0 <= j < |nodes| && !IsDesc(j, i) ensures nodes3[j] == nodes[j] {
      if IsDesc(j, 2 * i) {
        DescTransitive(j, 2 * i, i);
      }
      if IsDesc(j, 2 * i + 1) {
        DescTransitive(j, 2 * i + 1, i);
      }
    }
  }

  lemma BuiltFromChildren(nodes: seq<Option<Node>>, tris: seq<Tri>, verts: seq<Vec3>, i: nat, h: nat, n: Node, a: Node, b: Node)
    requires 1 <= i && 2 * i + 1 < |nodes| && h >= 2
    requires nodes[i] == Some(n) && nodes[2 * i] == Some(a) && nodes[2 * i + 1] == Some(b)
    requires Placed(n, i, tris, verts) && Split(n, a, b, tris, verts)
    requires WellBuilt(nodes, tris, verts, 2 * i, h - 1) && WellBuilt(nodes, tris, verts, 2 * i + 1, h - 1)
    ensures WellBuilt(nodes, tris, verts, i, h)
  {
  }
}

=== FILE: bvh_triangle.dfy ===
/** `BVHTriangle`: a triangle held as three indices into the shared vertex
    buffer, its centroid, and the Moller-Trumbore ray test (Moller & Trumbore,
    "Fast, Minimum Storage Ray/Triangle Intersection", 1997). */
module BVHTriangle {
  import opened Geometry
  import opened BVHBox

  /** `vAIndex`, `vBIndex`, `vCIndex`. */
  datatype Tri = Tri(a: nat, b: nat, c: nat)

  predicate IndicesIn(t: Tri, n: nat) {
    t.a < n && t.b < n && t.c < n
  }

  /** `Centre`: the centroid `(A + B + C) / 3`. */
  function Centre(va: Vec3, vb: Vec3, vc: Vec3): (r: Vec3)
    ensures Scale(3.0, r) == Add(va, Add(vb, vc))
  {
    Scale(1.0 / 3.0, Add(va, Add(vb, vc)))
  }

  /** The centroid lies in the triangle's own bounding box, so a box holding
      the triangle holds its centroid. */
  lemma CentreInBox(va: Vec3, vb: Vec3, vc: Vec3, b: Box)
    requires Contains(b, va) && Contains(b, vb) && Contains(b, vc)
    ensures Contains(FitTriangle(Empty, va, vb, vc), Centre(va, vb, vc))
    ensures Contains(b, Centre(va, vb, vc))
  {
  }

  /** The determinant magnitude below which the ray counts as parallel (`1e-6f`). */
  const Epsilon: real := 0.000001

  function Abs(x: real): real { if x < 0.0 then -x else x }

  /** The quantities of the algorithm: determinant, barycentric `u` and `v`,
      and ray parameter `t`, the last three scaled by `f = 1 / det`. */
  datatype Solution = Solution(det: real, u: real, v: real, t: real)

  function Solve(va: Vec3, vb: Vec3, vc: Vec3, o: Vec3, d: Vec3): Solution {
    var e1 := Sub(vb, va);
    var e2 := Sub(vc, va);
    var h := Cross(d, e2);
    var det := Dot(e1, h);
    var s := Sub(o, va);
    var q := Cross(s, e1);
    if det == 0.0 then Solution(det, 0.0, 0.0, 0.0)
    else
      var f := 1.0 / det;
      Solution(det, f * Dot(s, h), f * Dot(d, q), f * Dot(e2, q))
  }

  /** The barycentric coordinates lie in the triangle: the source's `u` and
      `v` tests both pass. */
  predicate InTriangle(sol: Solution) {
    0.0 <= sol.u <= 1.0 && 0.0 <= sol.v && sol.u + sol.v <= 1.0
  }

  /** `CalculateRayIntersection`: the early rejections in source order, each
      leaving `t = 0`, then the `near <= t <= far` window on the computed `t`. */
  function RayIntersection(va: Vec3, vb: Vec3, vc: Vec3, o: Vec3, d: Vec3, near: real, far: real): (r: Hit)
    ensures Abs(Solve(va, vb, vc, o, d).det) < Epsilon ==> !r.hit && r.t == 0.0
    ensures Epsilon <= Abs(Solve(va, vb, vc, o, d).det) && !InTriangle(Solve(va, vb, vc, o, d)) ==> !r.hit && r.t == 0.0
    ensures r.hit ==> InTriangle(Solve(va, vb, vc, o, d)) && r.t == Solve(va, vb, vc, o, d).t && near <= r.t <= far
    ensures !r.hit && r.t != 0.0 ==> r.t == Solve(va, vb, vc, o, d).t && !(near <= r.t <= far)
    ensures (Epsilon <= Abs(Solve(va, vb, vc, o, d).det) && InTriangle(Solve(va, vb, vc, o, d))
             && near <= Solve(va, vb, vc, o, d).t <= far) ==> r.hit
  {
    var e1 := Sub(vb, va);
    var e2 := Sub(vc, va);
    var h := Cross(d, e2);
    var a := Dot(e1, h);
    if Abs(a) < Epsilon then Hit(false, 0.0)
    else
      var f := 1.0 / a;
      var s := Sub(o, va);
      var u := f * Dot(s, h);
      if u < 0.0 || u > 1.0 then Hit(false, 0.0)
      else
        var q := Cross(s, e1);
        var v := f * Dot(d, q);
        if v < 0.0 || u + v > 1.0 then Hit(false, 0.0)
        else
          var t := f * Dot(e2, q);
          if t >= near && t <= far then Hit(true, t) else Hit(false, t)
  }
}

=== FILE: ear_clipping.dfy ===
/** `EarClippingTriangulation`: triangulating a building footprint by
    cutting off ears, in the xz-plane. The remaining polygon is a list of
    point indices; each round removes the first index whose corner is an
    ear, and the last three indices form the final triangle. */
module EarClipping {
  import opened Geometry

  // ---------------------------------------------------------------------------
  // Orientation and containment in the xz-plane

  /** `Sign(p1, p2, p3)`: which side of the line through `p2` and `p3` the
      point `p1` lies on, as a cross product in xz. */
  function Sign(p1: Vec3, p2: Vec3, p3: Vec3): real {
    (p1.x - p3.x) * (p2.z - p3.z) - (p2.x - p3.x) * (p1.z - p3.z)
  }

  /** A strict left turn from `a` through `b` to `c`. */
  predicate IsCounterClockwise(a: Vec3, b: Vec3, c: Vec3) {
    (b.x - a.x) * (c.z - a.z) - (b.z - a.z) * (c.x - a.x) > 0.0
  }

  /** The closed triangle test: `p` is inside unless it lies strictly on
      opposite sides of two of the edges, so the edges and corners count as
      inside. */
  predicate PointInTriangle(p: Vec3, a: Vec3, b: Vec3, c: Vec3) {
    var d1 := Sign(p, a, b);
    var d2 := Sign(p, b, c);
    var d3 := Sign(p, c, a);
    var hasNegative := d1 < 0.0 || d2 < 0.0 || d3 < 0.0;
    var hasPositive := d1 > 0.0 || d2 > 0.0 || d3 > 0.0;
    !(hasNegative && hasPositive)
  }

  /** The orientation test is the third `Sign` of the triangle's own
      corner: `(a, b, c)` turns left exactly when `b` lies on the positive
      side of the line from `c` to `a`. */
  lemma CounterClockwiseIsSign(a: Vec3, b: Vec3, c: Vec3)
    ensures IsCounterClockwise(a, b, c) <==> Sign(b, c, a) > 0.0
  {
    assert Sign(b, c, a) == (b.x - a.x) * (c.z - a.z) - (b.z - a.z) * (c.x - a.x) by {
      assert (c.x - a.x) * (b.z - a.z) == (b.z - a.z) * (c.x - a.x);
    }
  }

  /** The point `t` of the way from `a` to `b`, in xz. */
  function OnEdge(a: Vec3, b: Vec3, t: real): Vec3 {
    Vec3(a.x + t * (b.x - a.x), a.y, a.z + t * (b.z - a.z))
  }

  /** `Sign` is affine in its first argument along an edge. */
  lemma SignAlongEdge(a: Vec3, b: Vec3, q: Vec3, r: Vec3, t: real)
    ensures Sign(OnEdge(a, b, t), q, r) == (1.0 - t) * Sign(a, q, r) + t * Sign(b, q, r)
  {
    var p := OnEdge(a, b, t);
    assert p.x - r.x == (1.0 - t) * (a.x - r.x) + t * (b.x - r.x);
    assert p.z - r.z == (1.0 - t) * (a.z - r.z) + t * (b.z - r.z);
  }

  /** The triangle is closed: every point of the edge from `a` to `b`,
      corners included, is inside, whatever the orientation. */
  lemma EdgeIsInside(a: Vec3, b: Vec3, c: Vec3, t: real)
    requires 0.0 <= t <= 1.0
    ensures PointInTriangle(OnEdge(a, b, t), a, b, c)
  {
    var p := OnEdge(a, b, t);
    var d := Sign(a, b, c);
    SignAlongEdge(a, b, a, b, t);
    SignAlongEdge(a, b, b, c, t);
    SignAlongEdge(a, b, c, a, t);
    assert Sign(a, a, b) == 0.0 && Sign(b, a, b) == 0.0;
    assert Sign(b, b, c) == 0.0 && Sign(a, c, a) == 0.0;
    assert Sign(b, c, a) == d;
    assert Sign(p, a, b) == 0.0;
    assert Sign(p, b, c) == (1.0 - t) * d;
    assert Sign(p, c, a) == t * d;
    SameSign(1.0 - t, t, d);
  }

  /** Two non-negative multiples of one number never have strictly
      opposite signs. */
  lemma SameSign(s: real, t: real, d: real)
    requires s >= 0.0 && t >= 0.0
    ensures !(s * d < 0.0 && t * d > 0.0) && !(s * d > 0.0 && t * d < 0.0)
  {
    if d >= 0.0 {
      assert s * d >= 0.0 && t * d >= 0.0;
    } else {
      assert s * d <= 0.0 && t * d <= 0.0;
    }
  }

  // ---------------------------------------------------------------------------
  // The remaining polygon

  /** Indices that all name points. */
  predicate IndicesIn(r: seq<nat>, n: nat) {
    forall k :: 0 <= k < |r| ==> r[k] < n
  }

  /** A subsequence of `0..n-1` in its original order. */
  predicate Increasing(r: seq<nat>) {
    forall a, b :: 0 <= a < b < |r| ==> r[a] < r[b]
  }

  /** The indices of all `n` points, in order. */
  function AllIndices(n: nat): (r: seq<nat>)
    ensures |r| == n && IndicesIn(r, n) && Increasing(r)
    ensures forall k :: 0 <= k < n ==> r[k] == k
  {
    seq(n, k => k)
  }

  /** The index before position `i`, cyclically. */
  function Before(r: seq<nat>, i: nat): nat
    requires i < |r|
  {
    r[(i - 1 + |r|) % |r|]
  }

  /** The index after position `i`, cyclically. */
  function After(r: seq<nat>, i: nat): nat
    requires i < |r|
  {
    r[(i + 1) % |r|]
  }

  function RemoveAt(r: seq<nat>, i: nat): seq<nat>
    requires i < |r|
  {
    r[..i] + r[i + 1..]
  }

  /** Removing an index keeps the rest in their order and in range. */
  lemma RemoveAtKeepsOrder(r: seq<nat>, i: nat, n: nat)
    requires i < |r| && IndicesIn(r, n) && Increasing(r)
    ensures |RemoveAt(r, i)| == |r| - 1
    ensures IndicesIn(RemoveAt(r, i), n) && Increasing(RemoveAt(r, i))
    ensures forall k :: 0 <= k < |RemoveAt(r, i)| ==> RemoveAt(r, i)[k] in r
  {
    var s := RemoveAt(r, i);
    assert forall k :: 0 <= k < |s| ==> s[k] == if k < i then r[k] else r[k + 1];
  }

  /** The corner at position `i` and its two neighbours are three different
      points when at least three remain and no index repeats. */
  lemma CornerDistinct(r: seq<nat>, i: nat)
    requires 3 <= |r| && i < |r| && Increasing(r)
    ensures Before(r, i) != r[i] && r[i] != After(r, i) && Before(r, i) != After(r, i)
    ensures Before(r, i) in r && After(r, i) in r
  {
    var m := |r|;
    var p := PrevPos(m, i);
    var q := NextPos(m, i);
    assert Before(r, i) == r[p] && After(r, i) == r[q];
    Distinct(r, p, i);
    Distinct(r, i, q);
    Distinct(r, p, q);
  }

  /** The position before `i` among `m`, wrapping from the front to the
      back. */
  function PrevPos(m: nat, i: nat): (p: nat)
    requires i < m
    ensures p < m && p == (i - 1 + m) % m
    ensures 3 <= m ==> p != i && p != NextPos(m, i)
  {
    if i == 0 then m - 1 else ModShift(i - 1 + m, m); i - 1
  }

  /** The position after `i` among `m`, wrapping from the back to the
      front. */
  function NextPos(m: nat, i: nat): (q: nat)
    requires i < m
    ensures q < m && q == (i + 1) % m && (2 <= m ==> q != i)
  {
    if i == m - 1 then ModShift(m, m); 0 else i + 1
  }

  lemma ModShift(x: int, m: int)
    requires 0 < m && m <= x < 2 * m
    ensures x % m == x - m
  {
    assert (x - m) % m == x % m;
    assert (x - m) % m == x - m;
  }

  lemma Distinct(r: seq<nat>, a: nat, b: nat)
    requires a < |r| && b < |r| && a != b && Increasing(r)
    ensures r[a] != r[b]
  {
    if a < b {
      assert r[a] < r[b];
    } else {
      assert r[b] < r[a];
    }
  }

  // ---------------------------------------------------------------------------
  // Ears

  /** `IsEar`: a strict left turn at the corner, and no other remaining
      point in the closed triangle. */
  predicate Ear(points: seq<Vec3>, prev: nat, curr: nat, next: nat, r: seq<nat>)
    requires prev < |points| && curr < |points| && next < |points| && IndicesIn(r, |points|)
  {
    && IsCounterClockwise(points[prev], points[curr], points[next])
    && forall k :: 0 <= k < |r| && r[k] != prev && r[k] != curr && r[k] != next ==>
         !PointInTriangle(points[r[k]], points[prev], points[curr], points[next])
  }

  /** `IsEar` as written: the orientation test, then a scan of the
      remaining indices that skips the corner's own three. */
  method IsEar(points: seq<Vec3>, prev: nat, curr: nat, next: nat, r: seq<nat>) returns (ear: bool)
    requires prev < |points| && curr < |points| && next < |points| && IndicesIn(r, |points|)
    ensures ear == Ear(points, prev, curr, next, r)
  {
    var a, b, c := points[prev], points[curr], points[next];
    if !IsCounterClockwise(a, b, c) {
      return false;
    }
    var i := 0;
    while i < |r|
      invariant i <= |r|
      invariant forall k :: 0 <= k < i && r[k] != prev && r[k] != curr && r[k] != next ==>
                  !PointInTriangle(points[r[k]], a, b, c)
    {
      var vi := r[i];
      if vi != prev && vi != curr && vi != next {
        if PointInTriangle(points[vi], a, b, c) {
          return false;
        }
      }
      i := i + 1;
    }
    return true;
  }

  /** The position of the first ear at or after position `i`. */
  function FirstEar(points: seq<Vec3>, r: seq<nat>, i: nat): (e: Option<nat>)
    requires 0 < |r| && i <= |r| && IndicesIn(r, |points|)
    ensures e.Some? ==> i <= e.value < |r|
    decreases |r| - i
  {
    if i == |r| then None
    else if Ear(points, Before(r, i), r[i], After(r, i), r) then Some(i)
    else FirstEar(points, r, i + 1)
  }

  /** Triangle indices and whether the polygon was used up. */
  datatype Triangulation = Triangulation(triangles: seq<nat>, complete: bool)

  /** The triangulation of the remaining polygon `r`: clip the first ear
      and go on, emitting `(before, after, corner)`; stop with what was
      emitted when there is no ear; emit `(r[0], r[2], r[1])` for the last
      three. */
  function Clip(points: seq<Vec3>, r: seq<nat>): Triangulation
    requires 3 <= |r| && IndicesIn(r, |points|) && Increasing(r)
    decreases |r|
  {
    if |r| == 3 then Triangulation([r[0], r[2], r[1]], true)
    else match FirstEar(points, r, 0)
      case None => Triangulation([], false)
      case Some(i) =>
        RemoveAtKeepsOrder(r, i, |points|);
        var rest := Clip(points, RemoveAt(r, i));
        Triangulation([Before(r, i), After(r, i), r[i]] + rest.triangles, rest.complete)
  }

  /** Every triple of `t` names three different members of `r`. */
  predicate Triples(t: seq<nat>, r: seq<nat>) {
    && |t| % 3 == 0
    && (forall k :: 0 <= k < |t| ==> t[k] in r)
    && forall j :: 0 <= j < |t| / 3 ==> t[3 * j] != t[3 * j + 1] && t[3 * j + 1] != t[3 * j + 2] && t[3 * j] != t[3 * j + 2]
  }

  /** A complete triangulation of `m` remaining points has `m - 2`
      triangles; an incomplete one stops at least one ear short of
      leaving three points. Every triangle names three different remaining
      points. */
  lemma {:induction false} ClipShape(points: seq<Vec3>, r: seq<nat>)
    requires 3 <= |r| && IndicesIn(r, |points|) && Increasing(r)
    ensures Clip(points, r).complete ==> |Clip(points, r).triangles| == 3 * (|r| - 2)
    ensures !Clip(points, r).complete ==> |Clip(points, r).triangles| + 12 <= 3 * |r|
    ensures Triples(Clip(points, r).triangles, r)
    decreases |r|
  {
    if |r| == 3 {
      assert Increasing(r);
      Distinct(r, 0, 1);
      Distinct(r, 1, 2);
      Distinct(r, 0, 2);
    } else if FirstEar(points, r, 0).Some? {
      var i := FirstEar(points, r, 0).value;
      RemoveAtKeepsOrder(r, i, |points|);
      var s := RemoveAt(r, i);
      ClipShape(points, s);
      CornerDistinct(r, i);
      ClipStep(points, r, i);
      PrependTriple(Before(r, i), After(r, i), r[i], Clip(points, s).triangles, s, r);
    }
  }

  /** Clipping an ear at position `i` emits it ahead of the rest. */
  lemma ClipStep(points: seq<Vec3>, r: seq<nat>, i: nat)
    requires 3 < |r| && IndicesIn(r, |points|) && Increasing(r)
    requires FirstEar(points, r, 0) == Some(i)
    ensures IndicesIn(RemoveAt(r, i), |points|) && Increasing(RemoveAt(r, i)) && 3 <= |RemoveAt(r, i)|
    ensures Clip(points, r).triangles == [Before(r, i), After(r, i), r[i]] + Clip(points, RemoveAt(r, i)).triangles
    ensures Clip(points, r).complete == Clip(points, RemoveAt(r, i)).complete
  {
    RemoveAtKeepsOrder(r, i, |points|);
  }

  /** Three different members of `r` ahead of triples drawn from a part of
      `r` are again triples of `r`. */
  lemma PrependTriple(a: nat, b: nat, c: nat, rest: seq<nat>, s: seq<nat>, r: seq<nat>)
    requires a != b && b != c && a != c && a in r && b in r && c in r
    requires Triples(rest, s) && forall k :: 0 <= k < |s| ==> s[k] in r
    ensures Triples([a, b, c] + rest, r)
  {
    var t := [a, b, c] + rest;
    forall k | 0 <= k < |t|
      ensures t[k] in r
    {
      if k >= 3 {
        assert t[k] == rest[k - 3];
      }
    }
    forall j | 0 <= j < |t| / 3
      ensures t[3 * j] != t[3 * j + 1] && t[3 * j + 1] != t[3 * j + 2] && t[3 * j] != t[3 * j + 2]
    {
      if j > 0 {
        var j' := j - 1;
        assert t[3 * j] == rest[3 * j'] && t[3 * j + 1] == rest[3 * j' + 1] && t[3 * j + 2] == rest[3 * j' + 2];
      }
    }
  }

  /** The first triangle of a clipped polygon larger than a triangle is an
      ear: a left turn with no other remaining point inside. */
  lemma ClipStartsWithEar(points: seq<Vec3>, r: seq<nat>)
    requires 3 < |r| && IndicesIn(r, |points|) && Increasing(r)
    requires |Clip(points, r).triangles| > 0
    ensures var t := Clip(points, r).triangles;
            3 <= |t| && t[0] < |points| && t[1] < |points| && t[2] < |points|
            && t[0] in r && t[1] in r && t[2] in r
            && Ear(points, t[0], t[2], t[1], r)
  {
    var i := FirstEar(points, r, 0).value;
    FirstEarIsEar(points, r, 0, i);
    CornerDistinct(r, i);
  }

  lemma {:induction false} FirstEarIsEar(points: seq<Vec3>, r: seq<nat>, i: nat, e: nat)
    requires 0 < |r| && i <= |r| && IndicesIn(r, |points|)
    requires FirstEar(points, r, i) == Some(e)
    ensures e < |r| && Ear(points, Before(r, e), r[e], After(r, e), r)
    decreases |r| - i
  {
    if e != i {
      FirstEarIsEar(points, r, i + 1, e);
    }
  }

  /** Without an ear at or after `i`, no corner from `i` on is an ear. */
  lemma {:induction false} NoEarFrom(points: seq<Vec3>, r: seq<nat>, i: nat, k: nat)
    requires 0 < |r| && i <= k < |r| && IndicesIn(r, |points|)
    requires FirstEar(points, r, i).None?
    ensures !Ear(points, Before(r, k), r[k], After(r, k), r)
    decreases k - i
  {
    if i < k {
      NoEarFrom(points, r, i + 1, k);
    }
  }

  // ---------------------------------------------------------------------------
  // The loop as written

  /** `Triangulate`: start from all indices; while more than three remain,
      scan for the first ear, emit it and remove its corner, or give up and
      return what was emitted; then emit the last triangle. */
  method Triangulate(points: seq<Vec3>) returns (triangles: seq<nat>)
    requires 3 <= |points|
    ensures triangles == Clip(points, AllIndices(|points|)).triangles
  {
    var whole := Clip(points, AllIndices(|points|));
    triangles := [];
    var r := AllIndices(|points|);
    while |r| > 3
      invariant 3 <= |r| && IndicesIn(r, |points|) && Increasing(r)
      invariant triangles + Clip(points, r).triangles == whole.triangles
      decreases |r|
    {
      var earAt := FindEar(points, r);
      if earAt.None? {
        assert Clip(points, r).triangles == [];
        return;
      }
      var e := earAt.value;
      ClipStep(points, r, e);
      var removed := RemoveAt(r, e);
      triangles := triangles + [Before(r, e), After(r, e), r[e]];
      r := removed;
    }
    triangles := triangles + [r[0], r[2], r[1]];
  }

  /** The scan of one round: the first position whose corner is an ear,
      asking `IsEar` in order and stopping at the first yes. */
  method FindEar(points: seq<Vec3>, r: seq<nat>) returns (earAt: Option<nat>)
    requires 0 < |r| && IndicesIn(r, |points|)
    ensures earAt == FirstEar(points, r, 0)
  {
    earAt := None;
    var i := 0;
    while i < |r|
      invariant i <= |r|
      invariant FirstEar(points, r, 0) == FirstEar(points, r, i)
    {
      var prev, curr, next := Before(r, i), r[i], After(r, i);
      var ear := IsEar(points, prev, curr, next, r);
      if ear {
        earAt := Some(i);
        return;
      }
      i := i + 1;
    }
  }

  /** What the caller of `Triangulate` gets: on success `3 * (n - 2)`
      indices, otherwise a whole number of triangles that stops short; in
      either case every index names a point and no triangle repeats a
      point. */
  lemma TriangulateShape(points: seq<Vec3>)
    requires 3 <= |points|
    ensures var t := Clip(points, AllIndices(|points|));
            && (t.complete ==> |t.triangles| == 3 * (|points| - 2))
            && (!t.complete ==> |t.triangles| + 12 <= 3 * |points|)
            && Triples(t.triangles, AllIndices(|points|))
            && forall k :: 0 <= k < |t.triangles| ==> t.triangles[k] < |points|
  {
    var r := AllIndices(|points|);
    ClipShape(points, r);
    var t := Clip(points, r).triangles;
    forall k | 0 <= k < |t|
      ensures t[k] < |points|
    {
      assert t[k] in r;
    }
  }
}

=== FILE: equidistant_points.dfy ===
/** `EquidistantPoints`: the sample-point and mesh generators.

    Three routines walk the same triangular lattice of resolution `n`: rows
    `i = 0..n`, row `i` holding the points `j = 0..n-i`, stored row by row.
    `SamplePointsBarycentric` places a shrunken copy of the lattice strictly
    inside each roof triangle; `GenerateTriangle` and
    `RefineMeshUsingBarycentric` place the lattice itself and stitch it into
    `n*n` small triangles. `SampleRectanglePoints` lays a `width x height`
    grid centred on a wall quad.

    Square roots (`magnitude`, `normalized`, `Sqrt`) and `CeilToInt` are not
    computed here: their results are inputs. `RectInputs` ties the wall
    lengths to the vertices, while triangle areas and lattice orders are
    free inputs. A division by `n == 0`, which yields NaN in the source, is
    the value `None`. */
module EquidistantPoints {
  import opened Geometry

  // ---------------------------------------------------------------------------
  // The triangular lattice

  /** Index of the first point of row `i`; row `k` holds `n - k + 1` points. */
  function RowStart(n: nat, i: nat): nat
    requires i <= n + 1
  {
    if i == 0 then 0 else RowStart(n, i - 1) + (n - i + 2)
  }

  /** Number of lattice points of resolution `n`. */
  function GridSize(n: nat): nat {
    RowStart(n, n + 1)
  }

  lemma {:induction false} RowStartClosed(n: nat, i: nat)
    requires i <= n + 1
    ensures 2 * RowStart(n, i) == i * (2 * n + 3 - i)
  {
    if i > 0 {
      RowStartClosed(n, i - 1);
      assert i * (2 * n + 3 - i) == (i - 1) * (2 * n + 3 - (i - 1)) + 2 * (n - i + 2);
    }
  }

  /** The lattice of resolution `n` has `(n+1)(n+2)/2` points. */
  lemma GridSizeClosed(n: nat)
    ensures 2 * GridSize(n) == (n + 1) * (n + 2)
  {
    RowStartClosed(n, n + 1);
  }

  lemma {:induction false} RowStartMonotone(n: nat, i: nat, k: nat)
    requires i <= k <= n + 1
    ensures RowStart(n, i) + (k - i) <= RowStart(n, k)
  {
    if i < k {
      RowStartMonotone(n, i, k - 1);
    }
  }

  predicate InGrid(n: nat, i: nat, j: nat) {
    i <= n && j <= n - i
  }

  /** Where lattice point `(i, j)` is stored. */
  function GridIndex(n: nat, i: nat, j: nat): (r: nat)
    requires InGrid(n, i, j)
    ensures RowStart(n, i) <= r < RowStart(n, i + 1)
  {
    RowStart(n, i) + j
  }

  /** Each lattice point has its own slot, and every slot is in the list. */
  lemma GridIndexUnique(n: nat, i: nat, j: nat, i': nat, j': nat)
    requires InGrid(n, i, j) && InGrid(n, i', j')
    ensures GridIndex(n, i, j) < GridSize(n)
    ensures GridIndex(n, i, j) == GridIndex(n, i', j') <==> i == i' && j == j'
  {
    RowStartMonotone(n, i + 1, n + 1);
    if i < i' {
      RowStartMonotone(n, i + 1, i');
    } else if i' < i {
      RowStartMonotone(n, i' + 1, i);
    }
  }

  /** The double loop `for i in 0..n, for j in 0..n-i` shared by the three
      triangle routines, collecting `point(i, j)` in loop order. */
  method Enumerate<T>(n: nat, point: (nat, nat) -> T) returns (pts: seq<T>)
    ensures |pts| == GridSize(n)
    ensures forall i: nat, j: nat | InGrid(n, i, j) :: GridIndex(n, i, j) < |pts| && pts[GridIndex(n, i, j)] == point(i, j)
  {
    pts := [];
    var i := 0;
    while i <= n
      invariant i <= n + 1 && |pts| == RowStart(n, i)
      invariant forall i': nat, j': nat | InGrid(n, i', j') && i' < i ::
        RowStart(n, i' + 1) <= RowStart(n, i) && pts[GridIndex(n, i', j')] == point(i', j')
    {
      var j := 0;
      while j <= n - i
        invariant j <= n - i + 1 && |pts| == RowStart(n, i) + j
        invariant forall i': nat, j': nat | InGrid(n, i', j') && i' < i ::
          RowStart(n, i' + 1) <= RowStart(n, i) && pts[GridIndex(n, i', j')] == point(i', j')
        invariant forall j': nat | j' < j :: pts[GridIndex(n, i, j')] == point(i, j')
      {
        pts := pts + [point(i, j)];
        j := j + 1;
      }
      i := i + 1;
    }
  }

  // ---------------------------------------------------------------------------
  // Barycentric weights

  /** The weights `(u, v, w)` of the first, second and third vertex. */
  datatype Weights = Weights(u: real, v: real, w: real)

  /** `u * a + v * b + w * c`, summed in the source's order. */
  function Mix(wt: Weights, a: Vec3, b: Vec3, c: Vec3): Vec3 {
    Add(Add(Scale(wt.u, a), Scale(wt.v, b)), Scale(wt.w, c))
  }

  predicate InClosedTriangle(wt: Weights) {
    wt.u + wt.v + wt.w == 1.0 && 0.0 <= wt.u && 0.0 <= wt.v && 0.0 <= wt.w
  }

  /** The lattice weights `u = i/n`, `v = j/n`, `w = 1 - u - v` of
      `GenerateTriangle` and `RefineMeshUsingBarycentric`. */
  function GridWeights(n: nat, i: nat, j: nat): Option<Weights> {
    if n == 0 then None
    else
      var u := i as real / n as real;
      var v := j as real / n as real;
      Some(Weights(u, v, 1.0 - u - v))
  }

  /** Lattice points lie in the closed triangle, and its corners are the
      triangle's vertices. */
  lemma GridWeightsInTriangle(n: nat, i: nat, j: nat)
    requires n >= 1 && InGrid(n, i, j)
    ensures GridWeights(n, i, j).Some? && InClosedTriangle(GridWeights(n, i, j).value)
    ensures i == n ==> GridWeights(n, i, j).value == Weights(1.0, 0.0, 0.0)
    ensures j == n ==> GridWeights(n, i, j).value == Weights(0.0, 1.0, 0.0)
    ensures i == 0 && j == 0 ==> GridWeights(n, i, j).value == Weights(0.0, 0.0, 1.0)
  {
    Fractions(n, i, j);
    var nr := n as real;
    assert nr / nr == 1.0;
    assert 0.0 / nr == 0.0;
  }

  /** The lattice fractions `i/n` and `j/n` are in `[0, 1]` and sum to at most one. */
  lemma Fractions(n: nat, i: nat, j: nat)
    requires n >= 1 && InGrid(n, i, j)
    ensures 0.0 < 1.0 / n as real <= 1.0
    ensures 0.0 <= i as real / n as real && 0.0 <= j as real / n as real
    ensures i as real / n as real + j as real / n as real <= 1.0
  {
    var nr := n as real;
    assert (i + j) as real <= nr;
    assert i as real / nr + j as real / nr == (i + j) as real / nr;
  }

  function GridPoint(n: nat, i: nat, j: nat, a: Vec3, b: Vec3, c: Vec3): Option<Vec3> {
    match GridWeights(n, i, j)
    case None => None
    case Some(wt) => Some(Mix(wt, a, b, c))
  }

  /** The lattice of `GenerateTriangle` and `RefineMeshUsingBarycentric`
      placed in the triangle `a, b, c`. */
  method LatticePoints(n: nat, a: Vec3, b: Vec3, c: Vec3) returns (pts: seq<Option<Vec3>>)
    ensures |pts| == GridSize(n)
    ensures forall i: nat, j: nat | InGrid(n, i, j) ::
      GridIndex(n, i, j) < |pts| && pts[GridIndex(n, i, j)] == GridPoint(n, i, j, a, b, c)
  {
    pts := Enumerate(n, (i, j) => GridPoint(n, i, j, a, b, c));
  }

  /** The weights of `SamplePointsBarycentric`: the lattice scaled by
      `epsilon = 1 - 1/n` towards the centroid. */
  function SampleWeights(n: nat, i: nat, j: nat): Option<Weights> {
    if n == 0 then None
    else
      var nr := n as real;
      Some(Shrunk(1.0 / nr, i as real / nr, j as real / nr))
  }

  /** The lattice fractions `fi`, `fj` moved towards the centroid with
      `epsilon = 1 - q`. */
  function Shrunk(q: real, fi: real, fj: real): Weights {
    var eps := 1.0 - q;
    var u := fi * eps + (1.0 - eps) / 3.0;
    var v := fj * eps + (1.0 - eps) / 3.0;
    Weights(u, v, 1.0 - u - v)
  }

  /** Every sample point is strictly inside its triangle: the weights sum to
      one and each is at least `1/(3n)`. */
  lemma SampleWeightsInterior(n: nat, i: nat, j: nat)
    requires n >= 1 && InGrid(n, i, j)
    ensures SampleWeights(n, i, j).Some?
    ensures var wt := SampleWeights(n, i, j).value;
            && wt.u + wt.v + wt.w == 1.0
            && wt.u >= 1.0 / (3.0 * n as real)
            && wt.v >= 1.0 / (3.0 * n as real)
            && wt.w >= 1.0 / (3.0 * n as real)
  {
    var nr := n as real;
    var q := 1.0 / nr;
    assert 1.0 / (3.0 * nr) == q / 3.0;
    Fractions(n, i, j);
    ShrunkBounds(q, i as real / nr, j as real / nr);
  }

  /** The shrink towards the centroid, free of division: with `q = 1/n` and
      lattice fractions `fi`, `fj` inside the triangle, every weight is at
      least `q/3`. */
  lemma ShrunkBounds(q: real, fi: real, fj: real)
    requires 0.0 < q <= 1.0 && 0.0 <= fi && 0.0 <= fj && fi + fj <= 1.0
    ensures Shrunk(q, fi, fj).u >= q / 3.0
    ensures Shrunk(q, fi, fj).v >= q / 3.0
    ensures Shrunk(q, fi, fj).w >= q / 3.0
  {
    var eps := 1.0 - q;
    assert 0.0 <= fi * eps && 0.0 <= fj * eps;
    assert fi * eps + fj * eps <= eps by {
      assert fi * eps + fj * eps == (fi + fj) * eps;
      assert (fi + fj) * eps <= 1.0 * eps;
    }
  }

  function SamplePoint(n: nat, i: nat, j: nat, a: Vec3, b: Vec3, c: Vec3): Option<Vec3> {
    match SampleWeights(n, i, j)
    case None => None
    case Some(wt) => Some(Mix(wt, a, b, c))
  }

  // ---------------------------------------------------------------------------
  // Roof sampling

  /** The three corners of triangle `t` of an index buffer. */
  function Corners<T>(verts: seq<T>, tris: seq<nat>, t: nat): (T, T, T)
    requires 3 * t + 2 < |tris| && IndicesValid(tris, |verts|)
  {
    (verts[tris[3 * t]], verts[tris[3 * t + 1]], verts[tris[3 * t + 2]])
  }

  function SumReal(xs: seq<real>): real {
    if |xs| == 0 then 0.0 else SumReal(xs[..|xs| - 1]) + xs[|xs| - 1]
  }

  /** Points emitted for the triangles before `t`. */
  function PointsBefore(ns: seq<nat>, t: nat): nat
    requires t <= |ns|
  {
    if t == 0 then 0 else PointsBefore(ns, t - 1) + GridSize(ns[t - 1])
  }

  /** `SamplePointsBarycentric`. `areas[t]` stands for the area of triangle
      `t` (`CalculateTriangleArea`) and `ns[t]` for its point count
      `CeilToInt(Sqrt(area))`. Triangle `t` contributes its lattice of
      resolution `ns[t]`, in a block after the earlier triangles' points. */
  method SamplePointsBarycentric(verts: seq<Vec3>, tris: seq<nat>, areas: seq<real>, ns: seq<nat>)
    returns (points: seq<Option<Vec3>>, faceArea: real)
    requires |tris| % 3 == 0 && IndicesValid(tris, |verts|)
    requires |areas| == |tris| / 3 && |ns| == |tris| / 3
    ensures faceArea == SumReal(areas)
    ensures |points| == PointsBefore(ns, |ns|)
    ensures forall t: nat, i: nat, j: nat | t < |ns| && InGrid(ns[t], i, j) ::
      PointsBefore(ns, t) + GridIndex(ns[t], i, j) < |points| &&
      points[PointsBefore(ns, t) + GridIndex(ns[t], i, j)]
        == SamplePoint(ns[t], i, j, Corners(verts, tris, t).0, Corners(verts, tris, t).1, Corners(verts, tris, t).2)
  {
    points := [];
    faceArea := 0.0;
    var k := 0;
    while k < |tris|
      invariant k % 3 == 0 && k <= |tris|
      invariant faceArea == SumReal(areas[..k / 3])
      invariant |points| == PointsBefore(ns, k / 3)
      invariant forall t: nat, i: nat, j: nat | t < k / 3 && InGrid(ns[t], i, j) ::
        PointsBefore(ns, t) + GridIndex(ns[t], i, j) < |points| &&
        points[PointsBefore(ns, t) + GridIndex(ns[t], i, j)]
          == SamplePoint(ns[t], i, j, Corners(verts, tris, t).0, Corners(verts, tris, t).1, Corners(verts, tris, t).2)
    {
      var t := k / 3;
      var (a, b, c) := Corners(verts, tris, t);
      assert areas[..t + 1][..t] == areas[..t];
      faceArea := faceArea + areas[t];
      var n := ns[t];
      var block := Enumerate(n, (i, j) => SamplePoint(n, i, j, a, b, c));
      points := points + block;
      k := k + 3;
    }
    assert areas[..|tris| / 3] == areas;
  }

  /** `faceArea` sums the triangles' areas (a partner of the accumulator). */
  lemma {:induction false} SumRealAppend(xs: seq<real>, ys: seq<real>)
    ensures SumReal(xs + ys) == SumReal(xs) + SumReal(ys)
  {
    if |ys| > 0 {
      assert (xs + ys)[..|xs + ys| - 1] == xs + ys[..|ys| - 1];
      SumRealAppend(xs, ys[..|ys| - 1]);
    } else {
      assert xs + ys == xs;
    }
  }

  /** When every triangle has resolution `n`, each contributes the same
      `GridSize(n) = (n+1)(n+2)/2` points. */
  lemma {:induction false} PointsBeforeUniform(ns: seq<nat>, t: nat, n: nat)
    requires t <= |ns| && forall k | 0 <= k < |ns| :: ns[k] == n
    ensures PointsBefore(ns, t) == t * GridSize(n)
  {
    if t > 0 {
      PointsBeforeUniform(ns, t - 1, n);
      assert t * GridSize(n) == (t - 1) * GridSize(n) + GridSize(n);
    }
  }

  // ---------------------------------------------------------------------------
  // Triangle indices

  /** The vertex order of the two routines that stitch the lattice. */
  datatype Winding =
    | NextFirst    // GenerateTriangle: (current, next, below), (next, below + 1, below)
    | BelowFirst   // RefineMeshUsingBarycentric: (current, below, right), (right, below, below + 1)

  /** The triangles of lattice cell `(i, j)` of a lattice stored from
      `base`: the one with corners `(i, j)`, `(i, j+1)`, `(i+1, j)`, and, away
      from the row's end, the one with corners `(i, j+1)`, `(i+1, j+1)`,
      `(i+1, j)`. */
  function Cell(n: nat, i: nat, j: nat, wd: Winding, base: nat): seq<nat>
    requires i < n && j < n - i
  {
    var cur := base + GridIndex(n, i, j);
    var next := base + GridIndex(n, i, j + 1);
    var below := base + GridIndex(n, i + 1, j);
    var first := if wd == NextFirst then [cur, next, below] else [cur, below, next];
    if j < n - i - 1 then
      var diag := base + GridIndex(n, i + 1, j + 1);
      first + (if wd == NextFirst then [next, diag, below] else [next, below, diag])
    else first
  }

  /** A cell as the source writes it: from the running index `current` of
      point `(i, j)`, the point to its right is `current + 1` and the point
      below is `current + stride`, where `stride = n - i + 1` is the row's
      length; `second` is the source's "not on the edge" test. */
  function CellFrom(current: nat, stride: nat, second: bool, wd: Winding): seq<nat> {
    var next := current + 1;
    var below := current + stride;
    var first := if wd == NextFirst then [current, next, below] else [current, below, next];
    if second then first + (if wd == NextFirst then [next, below + 1, below] else [next, below, below + 1])
    else first
  }

  /** The running index of the source names the same points as the lattice
      coordinates. */
  lemma CellAt(n: nat, i: nat, j: nat, wd: Winding, base: nat)
    requires i < n && j < n - i
    ensures Cell(n, i, j, wd, base) == CellFrom(base + RowStart(n, i) + j, n - i + 1, j < n - i - 1, wd)
  {
    assert RowStart(n, i + 1) == RowStart(n, i) + (n - i + 1);
  }

  /** The cells `0..j` of row `i`. */
  function RowCells(n: nat, i: nat, j: nat, wd: Winding, base: nat): seq<nat>
    requires i <= n && j <= n - i
  {
    if j == 0 then [] else RowCells(n, i, j - 1, wd, base) + Cell(n, i, j - 1, wd, base)
  }

  /** The full rows `0..i`. */
  function RowsCells(n: nat, i: nat, wd: Winding, base: nat): seq<nat>
    requires i <= n
  {
    if i == 0 then [] else RowsCells(n, i - 1, wd, base) + RowCells(n, i - 1, n - (i - 1), wd, base)
  }

  /** The index list of a lattice of resolution `n` stored from `base`,
      defined cell by cell. */
  function CellTris(n: nat, wd: Winding, base: nat): seq<nat> {
    RowsCells(n, n, wd, base)
  }

  /** One step of either index loop: appending the cell the source builds
      at `(i, j)` extends the cells emitted so far by cell `(i, j)`. */
  lemma CellStep(n: nat, i: nat, j: nat, wd: Winding, base: nat, tris: seq<nat>, current: nat)
    requires i < n && j < n - i && current == base + RowStart(n, i) + j
    requires tris == RowsCells(n, i, wd, base) + RowCells(n, i, j, wd, base)
    ensures tris + CellFrom(current, n - i + 1, j < n - i - 1, wd)
            == RowsCells(n, i, wd, base) + RowCells(n, i, j + 1, wd, base)
  {
    var rows := RowsCells(n, i, wd, base);
    var row := RowCells(n, i, j, wd, base);
    var cell := CellFrom(current, n - i + 1, j < n - i - 1, wd);
    assert RowCells(n, i, j + 1, wd, base) == row + cell by {
      CellAt(n, i, j, wd, base);
    }
    assert (rows + row) + cell == rows + (row + cell);
  }

  lemma {:induction false} RowCellsFacts(n: nat, i: nat, j: nat, wd: Winding, base: nat)
    requires i < n && j <= n - i
    ensures |RowCells(n, i, j, wd, base)| == (if j == n - i then 6 * j - 3 else 6 * j)
    ensures forall x | x in RowCells(n, i, j, wd, base) :: base <= x < base + RowStart(n, i + 2)
  {
    if j > 0 {
      RowCellsFacts(n, i, j - 1, wd, base);
    }
  }

  lemma {:induction false} RowsCellsLength(n: nat, i: nat, wd: Winding, base: nat)
    requires i <= n
    ensures |RowsCells(n, i, wd, base)| + 3 * Square(n - i) == 3 * Square(n)
  {
    if i > 0 {
      RowsCellsLength(n, i - 1, wd, base);
      RowCellsFacts(n, i - 1, n - (i - 1), wd, base);
      SquareStep(n - i);
    }
  }

  function Square(m: nat): nat { m * m }

  lemma SquareStep(m: nat)
    ensures Square(m + 1) == Square(m) + 2 * m + 1
  {
  }

  /** Where block `t` starts when every block holds `size` entries. */
  function BlockStart(t: nat, size: nat): nat {
    if t == 0 then 0 else BlockStart(t - 1, size) + size
  }

  lemma {:induction false} BlockStartProduct(t: nat, size: nat)
    ensures BlockStart(t, size) == t * size
  {
    if t > 0 {
      BlockStartProduct(t - 1, size);
      assert t * size == (t - 1) * size + size;
    }
  }
  /** `t` blocks for the `len = 3t` indices of a triangle list fill
      `len / 3 * size` entries. */
  lemma BlockCount(t: nat, size: nat, len: nat)
    requires len == 3 * t
    ensures t == len / 3 && BlockStart(t, size) == len / 3 * size
  {
    BlockStartProduct(t, size);
  }


  lemma {:induction false} RowsCellsBound(n: nat, i: nat, wd: Winding, base: nat)
    requires i <= n
    ensures forall x | x in RowsCells(n, i, wd, base) :: base <= x < base + RowStart(n, i + 1)
  {
    if i > 0 {
      RowsCellsBound(n, i - 1, wd, base);
      RowCellsFacts(n, i - 1, n - (i - 1), wd, base);
      RowStartMonotone(n, i, i + 1);
    }
  }

  /** The lattice is stitched into `n*n` triangles whose indices all name
      points of the lattice's own block `[base, base + GridSize(n))`. */
  lemma CellTrisFacts(n: nat, wd: Winding, base: nat)
    ensures |CellTris(n, wd, base)| == 3 * Square(n)
    ensures forall k | 0 <= k < |CellTris(n, wd, base)| ::
      base <= CellTris(n, wd, base)[k] < base + GridSize(n)
  {
    RowsCellsLength(n, n, wd, base);
    RowsCellsBound(n, n, wd, base);
    var ct := CellTris(n, wd, base);
    forall k | 0 <= k < |ct|
      ensures base <= ct[k] < base + GridSize(n)
    {
      assert ct[k] in ct;
    }
  }

  /** `b` is `a` with the last two indices of every triple swapped. */
  predicate Mirrored(a: seq<nat>, b: seq<nat>) {
    && |a| == |b| && |a| % 3 == 0
    && forall t | 0 <= t < |a| / 3 ::
         b[3 * t] == a[3 * t] && b[3 * t + 1] == a[3 * t + 2] && b[3 * t + 2] == a[3 * t + 1]
  }

  lemma MirrorAppend(a: seq<nat>, b: seq<nat>, c: seq<nat>, d: seq<nat>)
    requires Mirrored(a, b) && Mirrored(c, d)
    ensures Mirrored(a + c, b + d)
  {
    forall t | 0 <= t < |a + c| / 3
      ensures (b + d)[3 * t] == (a + c)[3 * t]
      ensures (b + d)[3 * t + 1] == (a + c)[3 * t + 2]
      ensures (b + d)[3 * t + 2] == (a + c)[3 * t + 1]
    {
      if t >= |a| / 3 {
        var t' := t - |a| / 3;
        assert 3 * t == |a| + 3 * t';
      }
    }
  }

  /** One cell's triangles, in either winding. */
  lemma CellMirror(n: nat, i: nat, j: nat, base: nat)
    requires i < n && j < n - i
    ensures Mirrored(Cell(n, i, j, NextFirst, base), Cell(n, i, j, BelowFirst, base))
  {
    var a := Cell(n, i, j, NextFirst, base);
    var b := Cell(n, i, j, BelowFirst, base);
    if j < n - i - 1 {
      assert |a| == 6 && b[3] == a[3] && b[4] == a[5] && b[5] == a[4];
    }
    assert b[0] == a[0] && b[1] == a[2] && b[2] == a[1];
  }

  lemma {:induction false} RowMirror(n: nat, i: nat, j: nat, base: nat)
    requires i < n && j <= n - i
    ensures Mirrored(RowCells(n, i, j, NextFirst, base), RowCells(n, i, j, BelowFirst, base))
  {
    if j > 0 {
      RowMirror(n, i, j - 1, base);
      CellMirror(n, i, j - 1, base);
      MirrorAppend(RowCells(n, i, j - 1, NextFirst, base), RowCells(n, i, j - 1, BelowFirst, base),
                   Cell(n, i, j - 1, NextFirst, base), Cell(n, i, j - 1, BelowFirst, base));
    }
  }

  lemma {:induction false} RowsMirror(n: nat, i: nat, base: nat)
    requires i <= n
    ensures Mirrored(RowsCells(n, i, NextFirst, base), RowsCells(n, i, BelowFirst, base))
  {
    if i > 0 {
      RowsMirror(n, i - 1, base);
      RowMirror(n, i - 1, n - (i - 1), base);
      MirrorAppend(RowsCells(n, i - 1, NextFirst, base), RowsCells(n, i - 1, BelowFirst, base),
                   RowCells(n, i - 1, n - (i - 1), NextFirst, base), RowCells(n, i - 1, n - (i - 1), BelowFirst, base));
    }
  }

  /** The two routines emit the same triangles, in the same order, with
      opposite winding: each triple of one is the other's with its last two
      indices swapped. */
  lemma WindingsMirror(n: nat, base: nat)
    ensures Mirrored(CellTris(n, NextFirst, base), CellTris(n, BelowFirst, base))
  {
    RowsMirror(n, n, base);
  }

  /** The index loop of `GenerateTriangle`: a running `index` that steps once
      per cell and once more at each row's end. */
  method GenerateTriangleIndices(n: nat) returns (triangles: seq<nat>)
    ensures triangles == CellTris(n, NextFirst, 0)
    ensures |triangles| == 3 * Square(n)
    ensures IndicesValid(triangles, GridSize(n))
  {
    triangles := [];
    var index: nat := 0;
    var i: nat := 0;
    while i < n
      invariant i <= n && index == RowStart(n, i)
      invariant triangles == RowsCells(n, i, NextFirst, 0)
    {
      triangles, index := GenerateRow(n, i, triangles, index);
      index := index + 1;
      i := i + 1;
    }
    CellTrisFacts(n, NextFirst, 0);
  }

  /** The inner loop of `GenerateTriangle` over the cells of row `i`. */
  method GenerateRow(n: nat, i: nat, triangles: seq<nat>, index: nat) returns (triangles': seq<nat>, index': nat)
    requires i < n && index == RowStart(n, i)
    requires triangles == RowsCells(n, i, NextFirst, 0)
    ensures triangles' == RowsCells(n, i + 1, NextFirst, 0)
    ensures index' == RowStart(n, i) + (n - i)
  {
    triangles' := triangles;
    index' := index;
    var j: nat := 0;
    while j < n - i
      invariant j <= n - i && index' == RowStart(n, i) + j
      invariant triangles' == RowsCells(n, i, NextFirst, 0) + RowCells(n, i, j, NextFirst, 0)
    {
      CellStep(n, i, j, NextFirst, 0, triangles', index');
      triangles' := triangles' + CellFrom(index', n - i + 1, j < n - i - 1, NextFirst);
      index' := index' + 1;
      j := j + 1;
    }
  }

  /** `GenerateTriangle` with `n` standing for
      `CeilToInt(Sqrt(area) * resolutionFactor)`: the lattice points in the
      triangle and the `n*n` triangles stitching them. */
  method GenerateTriangle(v1: Vec3, v2: Vec3, v3: Vec3, n: nat)
    returns (vertices: seq<Option<Vec3>>, triangles: seq<nat>)
    ensures |vertices| == GridSize(n) && |triangles| == 3 * Square(n)
    ensures forall i: nat, j: nat | InGrid(n, i, j) ::
      GridIndex(n, i, j) < |vertices| && vertices[GridIndex(n, i, j)] == GridPoint(n, i, j, v1, v2, v3)
    ensures IndicesValid(triangles, |vertices|)
    ensures triangles == CellTris(n, NextFirst, 0)
  {
    vertices := LatticePoints(n, v1, v2, v3);
    triangles := GenerateTriangleIndices(n);
  }

  // ---------------------------------------------------------------------------
  // Mesh refinement

  /** The index loop of one triangle of `RefineMeshUsingBarycentric`:
      `vertexIndex` steps once per lattice point, and a cell is emitted at
      every point that has a row below it and a point to its right. */
  method RefineTriangleIndices(r: nat, base: nat) returns (tris: seq<nat>, vertexIndex: nat)
    ensures tris == CellTris(r, BelowFirst, base)
    ensures vertexIndex == base + GridSize(r)
  {
    tris := [];
    vertexIndex := base;
    var uStep: nat := 0;
    while uStep <= r
      invariant uStep <= r + 1 && vertexIndex == base + RowStart(r, uStep)
      invariant tris == RowsCells(r, if uStep <= r then uStep else r, BelowFirst, base)
    {
      tris, vertexIndex := RefineRow(r, base, uStep, tris, vertexIndex);
      uStep := uStep + 1;
    }
  }

  /** The inner loop of `RefineMeshUsingBarycentric` over the points of row
      `uStep`; the last point of a row, and the single point of the last
      row, start no cell. */
  method RefineRow(r: nat, base: nat, uStep: nat, tris: seq<nat>, vertexIndex: nat) returns (tris': seq<nat>, vertexIndex': nat)
    requires uStep <= r && vertexIndex == base + RowStart(r, uStep)
    requires tris == RowsCells(r, uStep, BelowFirst, base)
    ensures tris' == RowsCells(r, if uStep < r then uStep + 1 else r, BelowFirst, base)
    ensures vertexIndex' == base + RowStart(r, uStep + 1)
  {
    tris' := tris;
    vertexIndex' := vertexIndex;
    var vStep: nat := 0;
    while vStep <= r - uStep
      invariant vStep <= r - uStep + 1 && vertexIndex' == base + RowStart(r, uStep) + vStep
      invariant tris' == RowsCells(r, uStep, BelowFirst, base)
                         + RowCells(r, uStep, if vStep <= r - uStep then vStep else r - uStep, BelowFirst, base)
    {
      if uStep < r && vStep < r - uStep {
        CellStep(r, uStep, vStep, BelowFirst, base, tris', vertexIndex');
        tris' := tris' + CellFrom(vertexIndex', r - uStep + 1, vStep < r - uStep - 1, BelowFirst);
      }
      vertexIndex' := vertexIndex' + 1;
      vStep := vStep + 1;
    }
    assert RowsCells(r, uStep, BelowFirst, base) + RowCells(r, uStep, r - uStep, BelowFirst, base)
        == if uStep < r then RowsCells(r, uStep + 1, BelowFirst, base) else RowsCells(r, r, BelowFirst, base);
  }

  /** An RGBA colour with unclamped channels. */
  datatype Color = Color(r: real, g: real, b: real, a: real)

  function ScaleColor(k: real, c: Color): Color {
    Color(k * c.r, k * c.g, k * c.b, k * c.a)
  }

  function AddColor(c: Color, d: Color): Color {
    Color(c.r + d.r, c.g + d.g, c.b + d.b, c.a + d.a)
  }

  /** `u * c0 + v * c1 + w * c2` at lattice point `(i, j)`. */
  function GridColor(n: nat, i: nat, j: nat, c0: Color, c1: Color, c2: Color): Option<Color> {
    match GridWeights(n, i, j)
    case None => None
    case Some(wt) => Some(AddColor(AddColor(ScaleColor(wt.u, c0), ScaleColor(wt.v, c1)), ScaleColor(wt.w, c2)))
  }

  /** The colours interpolated over the lattice from the corner colours. */
  method LatticeColors(n: nat, c0: Color, c1: Color, c2: Color) returns (cs: seq<Option<Color>>)
    ensures |cs| == GridSize(n)
    ensures forall i: nat, j: nat | InGrid(n, i, j) ::
      GridIndex(n, i, j) < |cs| && cs[GridIndex(n, i, j)] == GridColor(n, i, j, c0, c1, c2)
  {
    cs := Enumerate(n, (i, j) => GridColor(n, i, j, c0, c1, c2));
  }

  /** The first `t` blocks of `vs` hold the lattices of the first `t`
      triangles of the mesh. */
  ghost predicate BlocksUpTo(vertices: seq<Vec3>, triangles: seq<nat>, r: nat, t: nat, vs: seq<Option<Vec3>>)
    requires 3 * t <= |triangles| && IndicesValid(triangles, |vertices|)
  {
    forall t': nat, a: nat, b: nat | t' < t && InGrid(r, a, b) ::
      BlockStart(t', GridSize(r)) + GridIndex(r, a, b) < |vs| &&
      vs[BlockStart(t', GridSize(r)) + GridIndex(r, a, b)]
        == GridPoint(r, a, b, Corners(vertices, triangles, t').0, Corners(vertices, triangles, t').1, Corners(vertices, triangles, t').2)
  }

  lemma BlocksStep(vertices: seq<Vec3>, triangles: seq<nat>, r: nat, t: nat, vs: seq<Option<Vec3>>, block: seq<Option<Vec3>>)
    requires 3 * t + 3 <= |triangles| && IndicesValid(triangles, |vertices|)
    requires |vs| == BlockStart(t, GridSize(r)) && |block| == GridSize(r)
    requires BlocksUpTo(vertices, triangles, r, t, vs)
    requires forall i: nat, j: nat | InGrid(r, i, j) ::
      GridIndex(r, i, j) < |block| &&
      block[GridIndex(r, i, j)]
        == GridPoint(r, i, j, Corners(vertices, triangles, t).0, Corners(vertices, triangles, t).1, Corners(vertices, triangles, t).2)
    ensures |vs + block| == BlockStart(t + 1, GridSize(r))
    ensures BlocksUpTo(vertices, triangles, r, t + 1, vs + block)
  {
    var g := GridSize(r);
    forall t': nat, a: nat, b: nat | t' < t + 1 && InGrid(r, a, b)
      ensures BlockStart(t', g) + GridIndex(r, a, b) < |vs + block|
      ensures (vs + block)[BlockStart(t', g) + GridIndex(r, a, b)]
        == GridPoint(r, a, b, Corners(vertices, triangles, t').0, Corners(vertices, triangles, t').1, Corners(vertices, triangles, t').2)
    {
      var x := BlockStart(t', g) + GridIndex(r, a, b);
      if t' < t {
        assert x < |vs|;
        assert (vs + block)[x] == vs[x];
      } else {
        assert x == |vs| + GridIndex(r, a, b);
        assert (vs + block)[x] == block[GridIndex(r, a, b)];
      }
    }
  }

  /** The first `t` blocks of `cs` hold the colours interpolated over the
      lattices of the first `t` triangles from their corner colours. */
  ghost predicate ColorBlocksUpTo(colors: seq<Color>, triangles: seq<nat>, r: nat, t: nat, cs: seq<Option<Color>>)
    requires 3 * t <= |triangles| && IndicesValid(triangles, |colors|)
  {
    forall t': nat, a: nat, b: nat | t' < t && InGrid(r, a, b) ::
      BlockStart(t', GridSize(r)) + GridIndex(r, a, b) < |cs| &&
      cs[BlockStart(t', GridSize(r)) + GridIndex(r, a, b)]
        == GridColor(r, a, b, Corners(colors, triangles, t').0, Corners(colors, triangles, t').1, Corners(colors, triangles, t').2)
  }

  lemma ColorBlocksStep(colors: seq<Color>, triangles: seq<nat>, r: nat, t: nat, cs: seq<Option<Color>>, block: seq<Option<Color>>)
    requires 3 * t + 3 <= |triangles| && IndicesValid(triangles, |colors|)
    requires |cs| == BlockStart(t, GridSize(r)) && |block| == GridSize(r)
    requires ColorBlocksUpTo(colors, triangles, r, t, cs)
    requires forall i: nat, j: nat | InGrid(r, i, j) ::
      GridIndex(r, i, j) < |block| &&
      block[GridIndex(r, i, j)]
        == GridColor(r, i, j, Corners(colors, triangles, t).0, Corners(colors, triangles, t).1, Corners(colors, triangles, t).2)
    ensures |cs + block| == BlockStart(t + 1, GridSize(r))
    ensures ColorBlocksUpTo(colors, triangles, r, t + 1, cs + block)
  {
    var g := GridSize(r);
    forall t': nat, a: nat, b: nat | t' < t + 1 && InGrid(r, a, b)
      ensures BlockStart(t', g) + GridIndex(r, a, b) < |cs + block|
      ensures (cs + block)[BlockStart(t', g) + GridIndex(r, a, b)]
        == GridColor(r, a, b, Corners(colors, triangles, t').0, Corners(colors, triangles, t').1, Corners(colors, triangles, t').2)
    {
      var x := BlockStart(t', g) + GridIndex(r, a, b);
      if t' < t {
        assert x < |cs|;
        assert (cs + block)[x] == cs[x];
      } else {
        assert x == |cs| + GridIndex(r, a, b);
        assert (cs + block)[x] == block[GridIndex(r, a, b)];
      }
    }
  }

  /** The refined index list of the first `t` triangles: each triangle's
      stitched lattice, over its own block of vertices. */
  function Refined(r: nat, t: nat): seq<nat> {
    if t == 0 then [] else Refined(r, t - 1) + CellTris(r, BelowFirst, BlockStart(t - 1, GridSize(r)))
  }

  /** Each triangle contributes `3r^2` indices. */
  lemma {:induction false} RefinedLength(r: nat, t: nat)
    ensures |Refined(r, t)| == BlockStart(t, 3 * Square(r))
  {
    if t > 0 {
      RefinedLength(r, t - 1);
      CellTrisFacts(r, BelowFirst, BlockStart(t - 1, GridSize(r)));
    }
  }

  /** Index `k` of triangle `t`'s stitching sits in the `t`-th run of `3r^2`
      indices, and names only vertices of the triangle's own block
      `[t*G, (t+1)*G)`. */
  lemma {:induction false} RefinedInBlock(r: nat, tt: nat, t: nat, k: nat)
    requires t < tt && k < 3 * Square(r)
    ensures BlockStart(t, 3 * Square(r)) + k < |Refined(r, tt)|
    ensures BlockStart(t, GridSize(r)) <= Refined(r, tt)[BlockStart(t, 3 * Square(r)) + k]
                                        < BlockStart(t, GridSize(r)) + GridSize(r)
  {
    var c := 3 * Square(r);
    var g := GridSize(r);
    var prev := Refined(r, tt - 1);
    var last := CellTris(r, BelowFirst, BlockStart(tt - 1, g));
    assert Refined(r, tt) == prev + last;
    var at := BlockStart(t, c) + k;
    var lo := BlockStart(t, g);
    if t < tt - 1 {
      assert at < |prev| && lo <= prev[at] < lo + g by {
        RefinedInBlock(r, tt - 1, t, k);
      }
      assert (prev + last)[at] == prev[at];
    } else {
      assert at == |prev| + k by {
        RefinedLength(r, tt - 1);
      }
      assert k < |last| && lo <= last[k] < lo + g by {
        CellTrisFacts(r, BelowFirst, BlockStart(tt - 1, g));
      }
      assert (prev + last)[at] == last[k];
    }
  }

  /** `RefineMeshUsingBarycentric`. Colours are interpolated only when the
      mesh has some; otherwise `newColors` stays empty. */
  method RefineMesh(vertices: seq<Vec3>, triangles: seq<nat>, colors: seq<Color>, r: nat)
    returns (newVertices: seq<Option<Vec3>>, newColors: seq<Option<Color>>, newTriangles: seq<nat>)
    requires |triangles| % 3 == 0 && IndicesValid(triangles, |vertices|)
    requires |colors| > 0 ==> IndicesValid(triangles, |colors|)
    ensures |newVertices| == |triangles| / 3 * GridSize(r)
    ensures |newColors| == if |colors| > 0 then |newVertices| else 0
    ensures newTriangles == Refined(r, |triangles| / 3)
    ensures BlocksUpTo(vertices, triangles, r, |triangles| / 3, newVertices)
    ensures |colors| > 0 ==> ColorBlocksUpTo(colors, triangles, r, |triangles| / 3, newColors)
  {
    newVertices := [];
    newColors := [];
    newTriangles := [];
    var t: nat := 0;
    while 3 * t < |triangles|
      invariant 3 * t <= |triangles|
      invariant |newVertices| == BlockStart(t, GridSize(r))
      invariant |newColors| == if |colors| > 0 then |newVertices| else 0
      invariant newTriangles == Refined(r, t)
      invariant BlocksUpTo(vertices, triangles, r, t, newVertices)
      invariant |colors| > 0 ==> ColorBlocksUpTo(colors, triangles, r, t, newColors)
    {
      newVertices, newColors, newTriangles := RefineOne(vertices, triangles, colors, r, t, newVertices, newColors, newTriangles);
      t := t + 1;
    }
    BlockCount(t, GridSize(r), |triangles|);
  }

  /** One pass of the loop of `RefineMeshUsingBarycentric`: the lattice of
      triangle `t` is appended, with its colours and its stitching over the
      new block of vertices (`vertexIndex` is the number of vertices so far). */
  method RefineOne(vertices: seq<Vec3>, triangles: seq<nat>, colors: seq<Color>, r: nat, t: nat,
                   vs: seq<Option<Vec3>>, cs: seq<Option<Color>>, ts: seq<nat>)
    returns (vs': seq<Option<Vec3>>, cs': seq<Option<Color>>, ts': seq<nat>)
    requires 3 * t + 3 <= |triangles| && IndicesValid(triangles, |vertices|)
    requires |colors| > 0 ==> IndicesValid(triangles, |colors|)
    requires |vs| == BlockStart(t, GridSize(r))
    requires |cs| == if |colors| > 0 then |vs| else 0
    requires ts == Refined(r, t)
    requires BlocksUpTo(vertices, triangles, r, t, vs)
    requires |colors| > 0 ==> ColorBlocksUpTo(colors, triangles, r, t, cs)
    ensures |vs'| == BlockStart(t + 1, GridSize(r))
    ensures |cs'| == if |colors| > 0 then |vs'| else 0
    ensures ts' == Refined(r, t + 1)
    ensures BlocksUpTo(vertices, triangles, r, t + 1, vs')
    ensures |colors| > 0 ==> ColorBlocksUpTo(colors, triangles, r, t + 1, cs')
  {
    var (v0, v1, v2) := Corners(vertices, triangles, t);
    var block := LatticePoints(r, v0, v1, v2);
    cs' := cs;
    if |colors| > 0 {
      var (c0, c1, c2) := Corners(colors, triangles, t);
      var shades := LatticeColors(r, c0, c1, c2);
      ColorBlocksStep(colors, triangles, r, t, cs, shades);
      cs' := cs + shades;
    }
    var tris, _ := RefineTriangleIndices(r, |vs|);
    BlocksStep(vertices, triangles, r, t, vs, block);
    vs' := vs + block;
    ts' := ts + tris;
  }

  // ---------------------------------------------------------------------------
  // Wall sampling

  /** Where grid point `(i, j)` is stored: width-major, `j` innermost. */
  function RectIndex(height: nat, i: nat, j: nat): nat {
    i * height + j
  }

  /** The first grid point: the quad's corner moved so the grid of unit
      steps sits centred on the quad. */
  function GridOrigin(v0: Vec3, horDir: Vec3, verDir: Vec3, hu: Vec3, vu: Vec3, width: nat, height: nat): Vec3 {
    Add(v0, Scale(0.5, Add(Sub(horDir, Scale((width - 1) as real, hu)),
                           Sub(verDir, Scale((height - 1) as real, vu)))))
  }

  function RectPoint(origin: Vec3, hu: Vec3, vu: Vec3, i: nat, j: nat): Vec3 {
    Add(Add(origin, Scale(i as real, hu)), Scale(j as real, vu))
  }

  /** How the inputs stand for the library calls: `hu`, `vu` are the
      normalised edges, `horLen`, `verLen` their magnitudes, and `width`,
      `height` their ceilings. */
  predicate RectInputs(verts: seq<Vec3>, hu: Vec3, vu: Vec3, horLen: real, verLen: real, width: nat, height: nat) {
    && |verts| >= 3
    && 0.0 <= horLen && Scale(horLen, hu) == Sub(verts[1], verts[0])
    && 0.0 <= verLen && Scale(verLen, vu) == Sub(verts[2], verts[0])
    && horLen <= width as real < horLen + 1.0
    && verLen <= height as real < verLen + 1.0
  }

  /** `SampleRectanglePoints` without the outward normal: `width*height`
      points, point `i*height + j` at `origin + i*hor + j*ver`. */
  method SampleRectanglePoints(verts: seq<Vec3>, hu: Vec3, vu: Vec3, horLen: real, verLen: real, width: nat, height: nat)
    returns (points: seq<Vec3>, faceArea: real, pointsWidth: nat)
    requires RectInputs(verts, hu, vu, horLen, verLen, width, height)
    ensures faceArea == horLen * verLen && pointsWidth == width
    ensures |points| == width * height
    ensures forall i: nat, j: nat | i < width && j < height ::
      RectIndex(height, i, j) < |points| &&
      points[RectIndex(height, i, j)]
        == RectPoint(GridOrigin(verts[0], Sub(verts[1], verts[0]), Sub(verts[2], verts[0]), hu, vu, width, height), hu, vu, i, j)
  {
    var firstVert := verts[0];
    var horDir := Sub(verts[1], firstVert);
    var verDir := Sub(verts[2], firstVert);
    faceArea := horLen * verLen;
    var origin := GridOrigin(firstVert, horDir, verDir, hu, vu, width, height);
    points := [];
    var i := 0;
    while i < width
      invariant i <= width && |points| == i * height
      invariant forall i': nat, j': nat | i' < i && j' < height ::
        RectIndex(height, i', j') < |points| && points[RectIndex(height, i', j')] == RectPoint(origin, hu, vu, i', j')
    {
      var j := 0;
      while j < height
        invariant j <= height && |points| == i * height + j
        invariant forall i': nat, j': nat | i' < i && j' < height ::
          RectIndex(height, i', j') < |points| && points[RectIndex(height, i', j')] == RectPoint(origin, hu, vu, i', j')
        invariant forall j': nat | j' < j :: points[RectIndex(height, i, j')] == RectPoint(origin, hu, vu, i, j')
      {
        points := points + [RectPoint(origin, hu, vu, i, j)];
        j := j + 1;
      }
      i := i + 1;
    }
    pointsWidth := width;
  }

  /** A consumer that knows only the count and the width recovers the height
      exactly. */
  lemma RectRows(width: nat, height: nat)
    requires width > 0
    ensures (width * height) / width == height
  {
    var p := width * height;
    var q := p / width;
    var m := p % width;
    var d := height - q;
    assert width * d == m by {
      assert p == q * width + m;
      assert width * d == p - q * width;
    }
    assert 0 <= m < width;
    MultipleBounds(width, d);
  }

  /** A nonzero multiple of `w` is at least `w` away from zero. */
  lemma MultipleBounds(w: nat, d: int)
    ensures d >= 1 ==> w * d >= w
    ensures d <= -1 ==> w * d + w <= 0
  {
    if d >= 1 {
      assert w * d == w * (d - 1) + w;
    } else if d <= -1 {
      assert w * d == w * (d + 1) - w;
    }
  }

  /** Each grid point lies on the quad: at `a` along the first edge and `b`
      along the second, with `0 <= a <= |hor|` and `0 <= b <= |ver|`. */
  lemma RectPointOnQuad(verts: seq<Vec3>, hu: Vec3, vu: Vec3, horLen: real, verLen: real, width: nat, height: nat, i: nat, j: nat)
    requires RectInputs(verts, hu, vu, horLen, verLen, width, height)
    requires i < width && j < height
    ensures var a := (horLen - (width - 1) as real) / 2.0 + i as real;
            var b := (verLen - (height - 1) as real) / 2.0 + j as real;
            && 0.0 <= a <= horLen && 0.0 <= b <= verLen
            && RectPoint(GridOrigin(verts[0], Sub(verts[1], verts[0]), Sub(verts[2], verts[0]), hu, vu, width, height), hu, vu, i, j)
               == Add(verts[0], Add(Scale(a, hu), Scale(b, vu)))
  {
  }

  /** The grid is centred: points `(i, j)` and `(width-1-i, height-1-j)` are
      mirror images through the quad's centre `v0 + (hor + ver)/2`. */
  lemma RectCentred(verts: seq<Vec3>, hu: Vec3, vu: Vec3, width: nat, height: nat, i: nat, j: nat)
    requires |verts| >= 3
    requires i < width && j < height
    ensures var o := GridOrigin(verts[0], Sub(verts[1], verts[0]), Sub(verts[2], verts[0]), hu, vu, width, height);
            Add(RectPoint(o, hu, vu, i, j), RectPoint(o, hu, vu, width - 1 - i, height - 1 - j))
              == Add(Scale(2.0, verts[0]), Add(Sub(verts[1], verts[0]), Sub(verts[2], verts[0])))
  {
    var w := (width - 1) as real;
    var h := (height - 1) as real;
    var i' := (width - 1 - i) as real;
    var j' := (height - 1 - j) as real;
    assert i as real + i' == w && j as real + j' == h;
    var hor := Sub(verts[1], verts[0]);
    var ver := Sub(verts[2], verts[0]);
    CentredAxis(verts[0].x, hor.x, ver.x, hu.x, vu.x, w, h, i as real, j as real, i', j');
    CentredAxis(verts[0].y, hor.y, ver.y, hu.y, vu.y, w, h, i as real, j as real, i', j');
    CentredAxis(verts[0].z, hor.z, ver.z, hu.z, vu.z, w, h, i as real, j as real, i', j');
  }

  /** `RectCentred` along one axis. */
  lemma CentredAxis(v0: real, hor: real, ver: real, hu: real, vu: real, w: real, h: real, i: real, j: real, i': real, j': real)
    requires i + i' == w && j + j' == h
    ensures var o := v0 + 0.5 * ((hor - w * hu) + (ver - h * vu));
            (o + i * hu + j * vu) + (o + i' * hu + j' * vu) == 2.0 * v0 + (hor + ver)
  {
    assert i * hu + i' * hu == w * hu;
    assert j * vu + j' * vu == h * vu;
  }
}

=== FILE: geometry.dfy ===
/** Exact-real 3D vectors standing in for Unity's single-precision `Vector3`,
    plus the small `Option` wrapper used for results the source leaves
    undefined (a C# `null`, or a float `NaN`/infinity). */
module Geometry {

  datatype Option<T> = None | Some(value: T)

  datatype Vec3 = Vec3(x: real, y: real, z: real)

  /** Axis numbers as `Vector3` indexes them: 0 = x, 1 = y, 2 = z. */
  type Axis = a: nat | a < 3

  const Zero: Vec3 := Vec3(0.0, 0.0, 0.0)
  const Up: Vec3 := Vec3(0.0, 1.0, 0.0)

  function Add(a: Vec3, b: Vec3): Vec3 {
    Vec3(a.x + b.x, a.y + b.y, a.z + b.z)
  }

  function Sub(a: Vec3, b: Vec3): Vec3 {
    Vec3(a.x - b.x, a.y - b.y, a.z - b.z)
  }

  function Neg(a: Vec3): Vec3 {
    Vec3(-a.x, -a.y, -a.z)
  }

  function Scale(k: real, a: Vec3): Vec3 {
    Vec3(k * a.x, k * a.y, k * a.z)
  }

  function Dot(a: Vec3, b: Vec3): real {
    a.x * b.x + a.y * b.y + a.z * b.z
  }

  /** Right-handed cross product, component order as in `Vector3.Cross`. */
  function Cross(a: Vec3, b: Vec3): Vec3 {
    Vec3(a.y * b.z - a.z * b.y, a.z * b.x - a.x * b.z, a.x * b.y - a.y * b.x)
  }

  /** `v[axis]`. */
  function Comp(v: Vec3, axis: Axis): real {
    if axis == 0 then v.x else if axis == 1 then v.y else v.z
  }

  function MinR(a: real, b: real): real { if a <= b then a else b }
  function MaxR(a: real, b: real): real { if a >= b then a else b }

  /** `Vector3.Min`: componentwise minimum. */
  function MinV(a: Vec3, b: Vec3): Vec3 {
    Vec3(MinR(a.x, b.x), MinR(a.y, b.y), MinR(a.z, b.z))
  }

  /** `Vector3.Max`: componentwise maximum. */
  function MaxV(a: Vec3, b: Vec3): Vec3 {
    Vec3(MaxR(a.x, b.x), MaxR(a.y, b.y), MaxR(a.z, b.z))
  }

  /** Componentwise `a <= b`. */
  predicate LeqV(a: Vec3, b: Vec3) {
    a.x <= b.x && a.y <= b.y && a.z <= b.z
  }

  /** The point `(1-u-v)*a + u*b + v*c`, i.e. `a + u*(b-a) + v*(c-a)`. */
  function Barycentric(a: Vec3, b: Vec3, c: Vec3, u: real, v: real): Vec3 {
    Add(a, Add(Scale(u, Sub(b, a)), Scale(v, Sub(c, a))))
  }

  /** A point on the ray `origin + t*dir`. */
  function RayPoint(origin: Vec3, dir: Vec3, t: real): Vec3 {
    Add(origin, Scale(t, dir))
  }

  // ---------------------------------------------------------------------------
  // Index buffers

  /** Every index of the buffer names one of `numVerts` vertices. */
  predicate IndicesValid(idx: seq<nat>, numVerts: nat) {
    forall k :: 0 <= k < |idx| ==> idx[k] < numVerts
  }

  /** Every index moved past `offset` earlier vertices. */
  function Shift(idx: seq<nat>, offset: nat): (r: seq<nat>)
    ensures |r| == |idx| && forall k :: 0 <= k < |idx| ==> r[k] == offset + idx[k]
  {
    seq(|idx|, k requires 0 <= k < |idx| => offset + idx[k])
  }
}

=== FILE: heap.dfy ===
/** Index arithmetic of the implicit binary heap the BVH node array uses:
    slot 1 is the root, slot `i` has children `2i` and `2i+1`, its parent is
    `i / 2`, and slot 0 is never a node. */
module Heap {

  function Pow2(n: nat): (r: nat)
    ensures r >= 1
  {
    if n == 0 then 1 else 2 * Pow2(n - 1)
  }

  lemma {:induction false} Pow2Monotone(m: nat, n: nat)
    requires m <= n
    ensures Pow2(m) <= Pow2(n)
  {
    if m < n {
      Pow2Monotone(m, n - 1);
    }
  }

  /** Level of slot `j`: the root is at level 0, its children at level 1. */
  function Level(j: nat): nat
    requires j >= 1
  {
    if j == 1 then 0 else 1 + Level(j / 2)
  }

  /** The slots of level `L` are exactly `[2^L, 2^(L+1))`. */
  lemma {:induction false} LevelBounds(j: nat)
    requires j >= 1
    ensures Pow2(Level(j)) <= j < Pow2(Level(j) + 1)
  {
    if j > 1 {
      LevelBounds(j / 2);
    }
  }

  lemma LevelFromBounds(j: nat, L: nat)
    requires Pow2(L) <= j < Pow2(L + 1)
    ensures Level(j) == L
  {
    LevelBounds(j);
    if Level(j) < L {
      Pow2Monotone(Level(j) + 1, L);
    } else if Level(j) > L {
      Pow2Monotone(L + 1, Level(j));
    }
  }

  /** `j` is `i` or lies in the subtree below `i`: walking parents up from `j`
      reaches `i`. */
  predicate IsDesc(j: nat, i: nat)
    requires i >= 1
  {
    if j < i then false else if j == i then true else IsDesc(j / 2, i)
  }

  lemma ChildrenAreDesc(i: nat)
    requires i >= 1
    ensures IsDesc(2 * i, i) && IsDesc(2 * i + 1, i)
  {
    assert (2 * i) / 2 == i && (2 * i + 1) / 2 == i;
  }

  /** The ancestors of one slot form a chain. */
  lemma {:induction false} DescChain(j: nat, a: nat, b: nat)
    requires a >= 1 && b >= 1
    requires IsDesc(j, a) && IsDesc(j, b)
    ensures IsDesc(a, b) || IsDesc(b, a)
  {
    if j != a && j != b {
      DescChain(j / 2, a, b);
    }
  }

  lemma {:induction false} DescTransitive(j: nat, i: nat, k: nat)
    requires i >= 1 && k >= 1
    requires IsDesc(j, i) && IsDesc(i, k)
    ensures IsDesc(j, k)
  {
    if j != i {
      DescTransitive(j / 2, i, k);
    } else {
    }
  }

  /** A slot below the node `i` lies below exactly one of its children. */
  lemma SiblingsDisjoint(j: nat, i: nat)
    requires i >= 1
    ensures !(IsDesc(j, 2 * i) && IsDesc(j, 2 * i + 1))
  {
    if IsDesc(j, 2 * i) && IsDesc(j, 2 * i + 1) {
      DescChain(j, 2 * i, 2 * i + 1);
    }
  }

  /** Below `i` but not `i` itself means below one of its children. */
  lemma {:induction false} DescOfChild(j: nat, i: nat)
    requires i >= 1 && IsDesc(j, i) && j != i
    ensures IsDesc(j, 2 * i) || IsDesc(j, 2 * i + 1)
  {
    if j / 2 != i {
      DescOfChild(j / 2, i);
      if IsDesc(j / 2, 2 * i) {
        DescTransitive(j, j / 2, 2 * i);
      } else {
        DescTransitive(j, j / 2, 2 * i + 1);
      }
    }
  }

  lemma {:induction false} DescLevel(j: nat, i: nat)
    requires i >= 1 && IsDesc(j, i)
    ensures j >= 1 && Level(j) >= Level(i)
    ensures Level(j) == Level(i) ==> j == i
  {
    if j != i {
      DescLevel(j / 2, i);
    }
  }
}
